=== FILE: README.md ===
# THEA invoice extraction and RAG chat core, in Dafny

This project models three parts of THEA and proves properties about them.

- **The OCR worker's field extraction** (`fastapi_ocr/app/worker.py`). Once the OCR has
  produced a text, `process_invoice` builds an invoice record from it. Regular
  expressions find the invoice number, the dates, the total and tax amounts, the client
  and project ids, the description and the line items. `datetime.strptime(…, "%d/%m/%Y")`
  reads the dates.
- **The chat service's response normaliser** (`rag_chatbot/app/services/chat_service.py`)
  and its earlier copy (`rag_chatbot/temp_chat_service.py`). It short-circuits empty
  queries and renders the request context into the question. It then picks the answer
  out of whatever the QA chain returns and turns the chain's sources into source
  records.
- **The indexer's document builder** (`rag_chatbot/app/services/indexing_service.py`).
  Backend records of a given type become labelled text. The text is cut into chunks, and
  every chunk becomes a tagged document. It also covers the result of an indexing task,
  the task-status mapping and the rebuild loop.

Modules:

- `Wrappers`: `Option` and `Result`.
- `Text`: the character classes, `str.strip`, `str.split`, `str.join` and decimal
  numerals.
- `Choice`: the "first candidate that succeeds" and "filter and map" loops that the
  extractors and `_process_sources` share.
- `Patterns`: `re.search` for the `Label GAP (BODY)` patterns of the worker. It tries
  the start positions left to right and explores each gap in Python's backtracking
  order.
- `Matching`: a declarative description of a match. It proves that the matchers find
  exactly the matches this description allows, and that the one reported is the
  leftmost.
- `Dates`: `%d/%m/%Y` parsing and `isoformat`.
- `InvoiceFields`, `LineItems` and `InvoiceRecord`: the worker's extractors and its
  record.
- `PyValues`: the Python values that flow through the chat and indexing services.
- `ChatService`, `TempChatService` and `Indexing`: the services.

Values are represented as follows:

- **Amounts** are integer cents. Every capture the amount patterns accept has two
  decimals.
- **Confidences** are thousandths: 0.9 is 900 and 0.5 is 500.
- **Outside inputs become parameters.**
  - The current time appears as the ISO text `now`.
  - A new conversation id is the parameter `newId`.
  - The QA chain is a function from the question to the value it returns.
  - The text splitter is a function from a text to its chunks.
  - `_fetch_data` of the code is modelled by `FetchData`. The rebuild loop takes the
    fetch as a parameter.

## Model

| member | source | states |
|---|---|---|
| InvoiceRecord.InvoiceOf | fastapi_ocr/app/worker.py:59-70 | The status is always `PENDING`. The number is `Unknown` or a numeral. The date is `now` or the ISO form of a real calendar date, and so is a present due date. A description is stripped and holds no newline. The client id is `Unknown` or a word. A project id is a word. |
| InvoiceRecord.ExtractInvoice | fastapi_ocr/app/worker.py:59-70 | The record assembled with the item loop of `extract_items` equals the reference record `InvoiceOf`. |
| InvoiceRecord.ItemTotals | fastapi_ocr/app/worker.py:236-241 | Every item in the record has total price = unit price × quantity. |
| InvoiceRecord.DigitFreeInvoice | fastapi_ocr/app/worker.py:86-247 | A text without any digit gives number `Unknown`, date `now`, no due date, both amounts 0 and no items. |
| InvoiceRecord.DigitFreeLine | fastapi_ocr/app/worker.py:225 | A line without digits is never an item line. |
| InvoiceFields.FirstCapture | fastapi_ocr/app/worker.py:94-99 | The result is absent exactly when no pattern matches. When pattern `n` is the first, in list order, that matches, the result is its capture, whatever later patterns would give. A result has the shape of that pattern's body. |
| InvoiceFields.FirstCaptureHead | fastapi_ocr/app/worker.py:94-97 | When the first pattern matches, its capture is the result. |
| InvoiceFields.InvoiceNumber | fastapi_ocr/app/worker.py:86-99 | The result is a numeral or `Unknown`. It is `Unknown` exactly when none of the three patterns matches. Otherwise it is the digits captured by the first of `Invoice #`, `Invoice Number`, `Invoice ID` that matches. |
| InvoiceFields.InvoiceDate | fastapi_ocr/app/worker.py:101-117 | The result is `now` or the ISO form of a valid date. The first date pattern whose capture `strptime` accepts decides, so a capture with a 2-digit year, a `-` or an impossible day is passed over. Without such a capture the result is `now`. |
| InvoiceFields.DueDate | fastapi_ocr/app/worker.py:119-135 | A result is the ISO form of a valid date. It is absent exactly when no pattern yields a date that `strptime` accepts. Otherwise the first pattern whose capture `strptime` accepts decides. |
| InvoiceFields.DashedDateSkipped | fastapi_ocr/app/worker.py:104-115 | A `Date` capture with a `-` raises in `strptime` and is passed over. The `Invoice Date` pattern then decides, or else `now`. |
| InvoiceFields.FirstDateWins | fastapi_ocr/app/worker.py:108-113 | A readable date after the plain `Date` label is the invoice date. |
| InvoiceFields.NoDateMeansNow | fastapi_ocr/app/worker.py:117 | Without any readable date the invoice date is `now`. |
| InvoiceFields.ReplaceChar | fastapi_ocr/app/worker.py:148 | `replace(',', '.')`: the length is the same, and each comma and only a comma becomes a point. |
| InvoiceFields.AmountOfCapture | fastapi_ocr/app/worker.py:147-151 | Every capture of `\d+[.,]\d{2}` converts, so the `except ValueError` is dead code. The value is the whole part × 100 plus the two decimals, with either separator. |
| InvoiceFields.AmountFrom | fastapi_ocr/app/worker.py:137-153 | When no amount pattern matches, the amount is 0. Otherwise the first pattern that matches decides, and the amount is the value of its capture in cents. |
| InvoiceFields.AmountFromHit | fastapi_ocr/app/worker.py:144-149 | The first pattern that matches decides the amount, and the amount is the value of its capture. |
| InvoiceFields.AmountPrecedence | fastapi_ocr/app/worker.py:144-153 | The first pattern's capture decides the amount. The second pattern's capture decides only when the first has none. |
| InvoiceFields.TotalBeforeAmountDue | fastapi_ocr/app/worker.py:137-153 | A `Total` capture decides the total whatever `Amount Due` says. Without one, `Amount Due` decides. |
| InvoiceFields.TaxBeforeVat | fastapi_ocr/app/worker.py:155-171 | A `Tax` capture decides the tax whatever `VAT` says. Without one, `VAT` decides. |
| InvoiceFields.TotalExample | fastapi_ocr/app/worker.py:140-149 | `Total: $123,45` gives a total of 12345 cents. |
| InvoiceFields.CentsExample | fastapi_ocr/app/worker.py:148-149 | The capture `123,45` is 12345 cents. |
| InvoiceFields.ClientId | fastapi_ocr/app/worker.py:173-185 | The result is `Unknown` or a word of `\w` characters. It is `Unknown` when neither pattern matches. Otherwise it is the capture of `Client ID` when that matches, else that of `Customer ID`. |
| InvoiceFields.ProjectId | fastapi_ocr/app/worker.py:187-199 | A result is a word. It is absent exactly when neither pattern matches. Otherwise it is the capture of `Project ID` when that matches, else that of `Project Number`. |
| InvoiceFields.Description | fastapi_ocr/app/worker.py:201-213 | The result is absent exactly when neither pattern matches. Otherwise it is the stripped capture of the first of `Description`, `Details` that matches. A result holds no newline and is stripped. |
| Patterns.Search | fastapi_ocr/app/worker.py:95 | A capture has the body's shape. There is no capture exactly when the pattern fails at every start position. |
| Matching.MatchAtIff | fastapi_ocr/app/worker.py:95 | The matcher succeeds at a position exactly when the pattern matches there: label, then gap, then body. |
| Matching.SearchIff | fastapi_ocr/app/worker.py:95 | The search finds something exactly when the pattern matches somewhere in the text. |
| Matching.SearchLeftmost | fastapi_ocr/app/worker.py:95 | The capture reported is the one of the leftmost match. |
| Dates.ParseDmy | fastapi_ocr/app/worker.py:113 | A date that `strptime` accepts is a real calendar date in years 1 to 9999. |
| Dates.ParseFields | fastapi_ocr/app/worker.py:113 | For `d/m/y` with no `/` in `d` or `m`, the result is the date of the three fields when each field is well formed and the day exists in that month. Otherwise the parse fails. |
| Dates.ParseDmyRoundTrip | fastapi_ocr/app/worker.py:113 | Parsing the zero-padded `dd/mm/yyyy` form of a date gives the date back when the date is valid, and fails otherwise. |
| Dates.ShortFields | fastapi_ocr/app/worker.py:113 | Single-digit day and month fields are read too. |
| Dates.LeapDay | fastapi_ocr/app/worker.py:113 | `29/02/y` is accepted in a leap year. |
| Dates.NoLeapDay | fastapi_ocr/app/worker.py:113 | `29/02/y` is rejected in any other year. |
| Dates.ParseDmyRejectsDash | fastapi_ocr/app/worker.py:104-115 | A text containing `-` never parses, although the date patterns accept `-` separators. |
| Dates.ParseDmyNeedsFourDigitYear | fastapi_ocr/app/worker.py:104-115 | A year field that is not four characters long never parses, although the patterns accept years of 2 to 4 digits. |
| Dates.IsoFormatInjective | fastapi_ocr/app/worker.py:113 | Distinct valid dates have distinct ISO forms. |
| LineItems.Quantity | fastapi_ocr/app/worker.py:231 | A result is a numeral. It is absent exactly when `\d+\s*x` matches nowhere in the line. |
| LineItems.QuantityLeftmost | fastapi_ocr/app/worker.py:231 | The quantity is the digits of the first `\d+\s*x` in the line. |
| LineItems.UnitPrice | fastapi_ocr/app/worker.py:232 | A result is a price `\d+[.,]\d{2}`. It is absent exactly when the price pattern matches nowhere in the line. |
| LineItems.UnitPriceLeftmost | fastapi_ocr/app/worker.py:232 | The unit price is the capture of the first match of the price pattern. |
| LineItems.ItemDescription | fastapi_ocr/app/worker.py:233 | A result starts with an ASCII letter and has at least two characters. |
| LineItems.ItemDescriptionLeftmost | fastapi_ocr/app/worker.py:233 | The description is the lazy group of the first match of the description pattern. |
| LineItems.LazyScan | fastapi_ocr/app/worker.py:233 | The lazy `.+?` stops at the first end the suffix follows, and never crosses a newline. |
| LineItems.MakeItem | fastapi_ocr/app/worker.py:236-241 | Total price = unit price × quantity. The description is `Unknown item` or a text of at least two characters starting with a letter. |
| LineItems.ItemFields | fastapi_ocr/app/worker.py:229-241 | The item of an item line has the value of the captured quantity, the cents of the captured unit price, total = unit price × quantity, and the captured description or `Unknown item`. |
| LineItems.ItemOf | fastapi_ocr/app/worker.py:225-241 | A line's item is consistently priced, and only item lines have one. |
| LineItems.ItemLineHasItem | fastapi_ocr/app/worker.py:225-235 | On an item line both the quantity and the price patterns match, so `if qty_match and price_match` never fails. |
| LineItems.ItemOfIff | fastapi_ocr/app/worker.py:225-241 | A line yields an item exactly when it is an item line. |
| LineItems.ItemsOfCount | fastapi_ocr/app/worker.py:223-245 | There is one item per item line. |
| LineItems.OtherLinesIgnored | fastapi_ocr/app/worker.py:223-228 | Inserting a line that is not an item line changes no item. |
| LineItems.ItemStep | fastapi_ocr/app/worker.py:225-241 | One turn of the loop. The flushed items plus the pending item grow by exactly this line's item. |
| LineItems.ExtractItems | fastapi_ocr/app/worker.py:215-247 | The loop, with its pending item and final flush, returns the items of the item lines in order. |
| Text.Strip | fastapi_ocr/app/worker.py:211 | The result is the input with only blanks removed on both sides. It is stripped, and it is empty exactly when the input is blank. |
| Text.Split | fastapi_ocr/app/worker.py:220 | There is at least one piece. No piece holds the separator or is longer than the input. |
| Text.JoinSplit | fastapi_ocr/app/worker.py:220 | Joining the pieces with the separator gives the input back. |
| Text.SplitJoin | rag_chatbot/app/services/indexing_service.py:126 | Splitting the `"\n".join` of newline-free lines gives the lines back. |
| PyValues.Lookup | rag_chatbot/app/services/chat_service.py:75-79 | `dict.get`: the result is absent exactly when no entry has the key. Otherwise it is the value of an entry with that key. |
| PyValues.HeldStringIsNotDictText | rag_chatbot/app/services/chat_service.py:88 | A string value held by a dict never equals `str` of the dict. |
| ChatService.IdOr | rag_chatbot/app/services/chat_service.py:59-60 | A non-empty supplied id is kept. A missing or empty one is replaced by the new id. |
| ChatService.EnhanceQuery | rag_chatbot/app/services/chat_service.py:118-136 | A missing or empty context leaves the query alone. The result always begins with the query, and a non-empty context puts `" Context: "` right after it. |
| ChatService.SingleContext | rag_chatbot/app/services/chat_service.py:130-136 | With one entry the result is `query Context: key: value`. |
| ChatService.NoneOnlyContext | rag_chatbot/app/services/chat_service.py:130-136 | A non-empty context whose every value is `None` still appends `" Context: "`. |
| ChatService.ContextSkipsNone | rag_chatbot/app/services/chat_service.py:130-134 | An entry whose value is `None` adds nothing. |
| ChatService.ContextAppend | rag_chatbot/app/services/chat_service.py:130-136 | One more entry with a value appends `". key: value"`. |
| ChatService.ContextFirstShown | rag_chatbot/app/services/chat_service.py:130-136 | After entries that are all `None`, the first entry with a value is appended as `key: value` with no separator before it. |
| ChatService.FirstTruthy | rag_chatbot/app/services/chat_service.py:75-80 | When key `n` is the first key, in order, holding a truthy value, the result is that value. There is no result exactly when no key holds a truthy value. |
| ChatService.FirstTruthyHead | rag_chatbot/app/services/chat_service.py:75 | A truthy value under the first key is the result. |
| ChatService.LongString | rag_chatbot/app/services/chat_service.py:91-96 | The fallback is the value of the first entry, in dict order, holding a string longer than ten characters. There is none exactly when no such value exists. |
| ChatService.AnswerSelection | rag_chatbot/app/services/chat_service.py:73-96 | The answer is the first truthy keyed value. Otherwise it is the first long string value, and otherwise the apology. |
| ChatService.EchoedQuestion | rag_chatbot/app/services/chat_service.py:88-94 | When no answer key holds a truthy value, a long question echoed under the first key becomes the answer. |
| ChatService.ChooseSources | rag_chatbot/app/services/chat_service.py:82-85 | The sources are the value of the first of `sources`, `source_documents`, `documents` that is truthy. They are `[]` exactly when none is. |
| ChatService.LineSource | rag_chatbot/app/services/chat_service.py:149-157 | A line gives a source exactly when it is non-blank and holds a colon. Its type and reference are stripped and colon-free, its confidence is 0.9 and it has no metadata. |
| ChatService.LineSourcePieces | rag_chatbot/app/services/chat_service.py:150-156 | For `a:b` and `a:b:rest` with colon-free `a` and `b`, the type is `a` stripped and the reference is `b` stripped; anything after a second colon is dropped. |
| ChatService.LineOfPair | rag_chatbot/app/services/chat_service.py:150-157 | The line `type: reference` of plain fields gives back exactly that type and that reference. |
| ChatService.Preview | rag_chatbot/app/services/chat_service.py:165 | Content of at most 200 characters is kept. Longer content becomes its first 200 characters plus `...`. |
| ChatService.PreviewIdempotent | rag_chatbot/app/services/chat_service.py:165 | Previewing a preview changes nothing. |
| ChatService.ItemSource | rag_chatbot/app/services/chat_service.py:160-175 | Exactly documents and strings give a source, with confidence 0.9. A document gives type `document`, its content cut by `Preview` as reference, and its metadata. A string gives type `text` with the string itself as reference and no metadata. |
| ChatService.ProcessSources | rag_chatbot/app/services/chat_service.py:138-187 | A string gives at most one source per line, and a list at most one per item. Anything else gives the single `unknown` source with its `str` and confidence 0.5. |
| ChatService.ListSourcesInOrder | rag_chatbot/app/services/chat_service.py:158-175 | In a list, each document or string gives its source right after the sources of the items before it. |
| ChatService.ListSourcesKeepAll | rag_chatbot/app/services/chat_service.py:158-175 | A list of documents and strings only gives one source per item, item `k` giving source `k`. |
| ChatService.LongDocumentPreview | rag_chatbot/app/services/chat_service.py:163-168 | A document longer than 200 characters gives the reference of its first 200 characters followed by `...`, with its metadata. |
| ChatService.SourceLinesRoundTrip | rag_chatbot/app/services/chat_service.py:146-157 | Rendering `type: reference` pairs as newline-separated lines and processing them gives back exactly those pairs, in order. |
| ChatService.ProcessQuery | rag_chatbot/app/services/chat_service.py:40-116 | The conversation id is the supplied one or the new one. A blank query gets the empty-query message and no sources. |
| ChatService.DictReply | rag_chatbot/app/services/chat_service.py:73-108 | For a dict output, the answer is the selected one. The sources are `_process_sources` of the first truthy source value, and empty when no source key holds a truthy value. |
| ChatService.OtherReply | rag_chatbot/app/services/chat_service.py:98-101 | Any other output becomes its `str` as the answer, with no sources. |
| TempChatService.TempProcessSources | rag_chatbot/temp_chat_service.py:92-115 | Anything but a string reaches the `except` and gives no sources. A string gives at most one source per line. |
| TempChatService.StringSourcesAgree | rag_chatbot/temp_chat_service.py:92-115 | On a string, both versions of `_process_sources` agree. |
| TempChatService.ListSourcesDiffer | rag_chatbot/temp_chat_service.py:96-115 | A list holding a document or string gives sources in the main service and none in the earlier copy. |
| TempChatService.TempProcessQuery | rag_chatbot/temp_chat_service.py:37-70 | The call succeeds exactly when the output is a dict with both `answer` and `sources`. The reply is then `response["answer"]` with the processed `response["sources"]`. The id is the supplied one or the new one. |
| TempChatService.MissingAnswerRaises | rag_chatbot/temp_chat_service.py:58-60 | Without `answer` the call raises `KeyError('answer')`. |
| TempChatService.VersionsAgree | rag_chatbot/temp_chat_service.py:46-62 | Both versions give the same reply to a non-blank query when the output has a truthy `answer` and a truthy string of sources. |
| TempChatService.BlankQueryReachesChain | rag_chatbot/temp_chat_service.py:46-62 | A blank query goes to the chain in the earlier copy. The main service returns its fixed message instead. |
| Indexing.Iterate | rag_chatbot/app/services/indexing_service.py:118-119 | A list's elements are visited. Iteration raises exactly for values that are not lists, strings or dicts. |
| Indexing.LabelledLines | rag_chatbot/app/services/indexing_service.py:128-141 | There is one line per label, and each line starts with its label. |
| Indexing.InvoiceHeader | rag_chatbot/app/services/indexing_service.py:108-115 | An invoice has six header lines, labelled `Invoice #`, `Date: `, `Due Date: `, `Total Amount: `, `Status: `, `Description: ` in that order, each followed by its field's value; the description defaults to the empty string. |
| Indexing.ItemLine | rag_chatbot/app/services/indexing_service.py:119-124 | An item line raises exactly when the item is not a dict. |
| Indexing.ItemLines | rag_chatbot/app/services/indexing_service.py:118-124 | The lines are produced exactly when every item is a dict. There is then one line per item, in order. |
| Indexing.InvoiceLines | rag_chatbot/app/services/indexing_service.py:104-126 | A rendered invoice starts with its six header lines, followed by exactly one `Item: … - Quantity: … - Price: …` line per item, in order. Rendering succeeds exactly when `items` (default `[]`) can be iterated and every item it yields is a dict. |
| Indexing.InvoiceLineCount | rag_chatbot/app/services/indexing_service.py:108-124 | An invoice with a list of `n` dict items renders as `6 + n` lines, line `6 + k` being item `k`'s line. |
| Indexing.NoItemsHeaderOnly | rag_chatbot/app/services/indexing_service.py:117-119 | An invoice without an `items` key renders as its six header lines alone. |
| Indexing.RecordLines | rag_chatbot/app/services/indexing_service.py:79-86 | Clients and projects always render, as six lines each. |
| Indexing.RecordTextLines | rag_chatbot/app/services/indexing_service.py:126 | A record's text splits back into exactly its lines when no value shows a newline. |
| Indexing.RecordDocuments | rag_chatbot/app/services/indexing_service.py:88-100 | There is one document per chunk, in chunk order. Each is tagged `type:id` with the data type and the record's `createdAt`. |
| Indexing.UnknownTypeIndexesNothing | rag_chatbot/app/services/indexing_service.py:85-86 | An unknown data type yields no documents, whatever the data. |
| Indexing.ProcessDataSucceeds | rag_chatbot/app/services/indexing_service.py:77-100 | Processing succeeds exactly when every record is a dict whose text renders. |
| Indexing.ProcessDataAppend | rag_chatbot/app/services/indexing_service.py:77-101 | Records are processed in order: when both parts succeed, the documents of `a + b` are those of `a` followed by those of `b`. |
| Indexing.DocumentsTagged | rag_chatbot/app/services/indexing_service.py:91-100 | Every document carries the data type, and the source and date of one of the records. |
| Indexing.IndexData | rag_chatbot/app/services/indexing_service.py:29-57 | The task completes exactly when processing succeeds and the vector store's write raises nothing, with the document count and its message. Otherwise it fails with the text of the first exception. |
| Indexing.PlaceholderIndexesNothing | rag_chatbot/app/services/indexing_service.py:59-65 | With the placeholder fetch a run writes no documents: it completes with 0 documents unless the write of nothing raises. |
| Indexing.RebuildIndex | rag_chatbot/app/services/indexing_service.py:194-215 | There is one indexing run per data type, in the order invoices, clients, suppliers, projects. |
| Indexing.SuppliersIndexNothing | rag_chatbot/app/services/indexing_service.py:202-206 | The suppliers run writes no documents: it completes with 0 documents unless the write of nothing raises. |
| Indexing.TaskStatus | rag_chatbot/app/services/indexing_service.py:158-183 | The dict holds the task id and the status. It also holds the details, the error text or the processing message, according to the status. |
| Indexing.StatusName | rag_chatbot/app/services/indexing_service.py:165-183 | `processing` exactly when the task is not ready. `completed` exactly when it is ready and successful. `failed` exactly when it is ready and not successful. |

## Where the model follows the code rather than the documented behaviour

- An item line may have quantity 0: `0 x 5.00` is an item line. The quantity is
  therefore a natural number, not a positive one.
- The check `answer == str(response)` never rejects a keyed answer, because a string a
  dict holds is shorter than the dict's text (`AnswerSelection`). The fallback scan
  runs only when no answer key holds a truthy value. It takes any long string value,
  including a question echoed back by the chain (`EchoedQuestion`).
- A blank query gets the "empty query" message, not the apology.
- A supplied conversation id that is the empty string is replaced by a new id, since
  `conversation_id or …` treats it as missing.
- The earlier chat service has no empty-query check. It raises on an output without
  `answer` or `sources`, and its `_process_sources` returns nothing for a list.
- `rebuild_index` asks for `suppliers`, which `_process_data` does not render, so that
  run indexes nothing.

## Left out

- Reading the file, the PDF conversion, the image preprocessing, the OCR and the
  temporary file's clean-up in the worker are I/O. The record is modelled as a function
  of the OCR text.
- `\d`, `\w`, `re.IGNORECASE` and letter tests are ASCII only. Python's Unicode digits,
  word characters and case folding are not modelled.
- `\s` and `str.strip` use the Python whitespace set.
- Amounts and confidences are not floats. Amounts are integer cents and confidences are
  thousandths, so binary rounding of `float(...)` is not modelled.
- `datetime.now()` and `uuid4()` become the parameters `now` and `newId`.
- The QA chain, the LLM and the retriever are a parameter function.
- The conversation store in Redis, the logging and the re-raise of other exceptions
  are not modelled.
- `str()` of Python values approximates `repr`: a string inside a container is written
  between single quotes with its raw characters. `repr`'s escapes (backslashes, newlines
  and other control characters), its choice of double quotes for a string holding `'`,
  and a Document's own `str`/`repr` (`Document(...)` inside a container) are not
  modelled. An object's own `str` is the text carried by `Other`. A `str()` that raises
  is not modelled.
- Backend records hold JSON values only. A `Doc` or `Other` value inside a record is
  outside the model: Python would iterate a Document as `(field, value)` pairs and name an
  object's own class, where `Iterate` and `TypeName` do not.
- `hasattr(source, 'page_content')` is modelled by the `Doc` value. Other objects
  carrying that attribute are not.
- A `query` of `None` is not modelled. The query is always a string.
- The vector store's `add_documents` is a parameter that gives the text of the exception
  it raises, if any. The embedding model behind it is not modelled.
- The text splitter is a parameter function; `RecursiveCharacterTextSplitter` itself is
  not modelled.
- The Celery task binding (`bind=True`) is not modelled. With it, `self` in
  `index_data` is the Celery task rather than the service, so in the code as written
  `self._fetch_data` raises `AttributeError` and every run returns `failed`.
  `Indexing.IndexData`, `Indexing.PlaceholderIndexesNothing`, `Indexing.RebuildIndex` and
  `Indexing.SuppliersIndexNothing` describe a run whose `self` is the service.
- `get_indexing_service` is not modelled.
- `strptime` is modelled for the `%d/%m/%Y` format only. That covers every call in the
  worker.
- LineItems.MakeItem: quantities and prices are exact integers, so three behaviours of
  `extract_items` are not modelled. A quantity of 2**1024 or more makes
  `float(...) * int(...)` raise `OverflowError`. Since Python 3.11, a quantity of more than
  4300 digits makes `int(...)` raise `ValueError`. Neither is caught, and `process_invoice`
  re-raises. A price or total capture of 309 or more digits does not raise but becomes
  `inf`. `ItemOf`, `ItemOfIff` and `ExtractItems` therefore promise an item for every item
  line.
- ChatService.ProcessSources: for a string or a list the contract bounds only the
  number of sources. Their contents are stated separately: per line by `LineSource` and
  `LineSourcePieces`, for rendered pairs by `SourceLinesRoundTrip`, and per item by
  `ItemSource`, `ListSourcesInOrder` and `ListSourcesKeepAll`.
- InvoiceFields.ClientId: `Unknown` is not an exact sign of no match, because a text can
  genuinely name the client `Unknown`. The contract states the default one way and the
  capture of the first matching pattern otherwise.

=== FILE: chat_service.dfy ===
/** The response normaliser of the RAG chatbot (`ChatService` in rag_chatbot
    `app/services/chat_service.py`): it short-circuits empty queries, renders the
    request context into the question, picks the answer out of whatever the QA chain
    returns and turns the chain's sources into source records.

    The QA chain, the uuid generator and the conversation store are outside the model:
    the chain is a function from the question to the value it returns, and the id a
    new conversation gets is a parameter. */
module ChatService {
  import opened Wrappers
  import opened Text
  import opened Choice
  import opened PyValues

  const EmptyQueryMessage: string :=
    "I'm sorry, but your query appears to be empty. Please provide a question or request."
  const Apology: string :=
    "I apologize, but I encountered an issue processing your request. Please try again."

  /** The keys that may hold the answer, in the order they are tried. */
  const AnswerKeys: seq<string> := ["answer", "result", "text", "output", "response"]
  /** The keys that may hold the sources, in the order they are tried. */
  const SourceKeys: seq<string> := ["sources", "source_documents", "documents"]

  /** A fallback answer must be longer than this. */
  const MeaningfulLength: nat := 10
  /** Document previews are cut to this many characters. */
  const PreviewLength: nat := 200

  /** Confidences, in thousandths. */
  const KnownConfidence: nat := 900
  const UnknownConfidence: nat := 500

  /** One source record; `metadata` is present for documents only. */
  datatype Source = Source(kind: string, reference: string, confidence: nat, metadata: Option<seq<Entry>>)

  datatype Reply = Reply(response: Value, sources: seq<Source>, conversationId: string)

  // ---- conversation id ----

  /** `conversation_id or str(uuid4())`, with `newId` the new id. */
  function IdOr(conversationId: Option<string>, newId: string): (id: string)
    ensures conversationId.Some? && |conversationId.value| > 0 ==> id == conversationId.value
    ensures conversationId.None? || |conversationId.value| == 0 ==> id == newId
  {
    match conversationId
    case Some(c) => if |c| > 0 then c else newId
    case None => newId
  }

  // ---- context ----

  /** `f"{key}: {value}"` for an entry whose value is not `None`. */
  function ContextPair(e: Entry): Option<string> {
    if e.val == Null then None else Some(e.key + ": " + Show(e.val))
  }

  /** `_enhance_query_with_context`: a falsy context leaves the query alone; otherwise
      the pairs whose value is not `None` are appended after `" Context: "`, in the
      context's order, separated by `". "`. */
  function EnhanceQuery(query: string, context: Option<seq<Entry>>): (r: string)
    ensures context.None? || |context.value| == 0 ==> r == query
    ensures |query| <= |r| && r[..|query|] == query
    ensures context.Some? && |context.value| > 0 ==>
              |query| + 10 <= |r| && r[|query|..|query| + 10] == " Context: "
  {
    if context.None? || |context.value| == 0 then query
    else query + " Context: " + Join(FilterMap(context.value, ContextPair), ". ")
  }

  /** A context whose values are all `None` still adds the (empty) context suffix. */
  lemma NoneOnlyContext(query: string, context: seq<Entry>)
    requires |context| >= 1
    requires forall k :: 0 <= k < |context| ==> context[k].val == Null
    ensures EnhanceQuery(query, Some(context)) == query + " Context: "
  {
    FilterMapNone(context, ContextPair);
  }

  /** One more entry whose value is `None` changes nothing. */
  lemma ContextSkipsNone(query: string, context: seq<Entry>, key: string)
    requires |context| >= 1
    ensures EnhanceQuery(query, Some(context + [Entry(key, Null)])) == EnhanceQuery(query, Some(context))
  {
    FilterMapSnoc(context, Entry(key, Null), ContextPair);
    assert FilterMap(context + [Entry(key, Null)], ContextPair) == FilterMap(context, ContextPair);
  }

  /** One more entry with any other value adds `". key: value"` at the end, once some
      pair is already shown. */
  lemma ContextAppend(query: string, context: seq<Entry>, e: Entry)
    requires |FilterMap(context, ContextPair)| >= 1 && e.val != Null
    ensures EnhanceQuery(query, Some(context + [e]))
              == EnhanceQuery(query, Some(context)) + (". " + (e.key + ": " + Show(e.val)))
  {
    var pairs := FilterMap(context, ContextPair);
    var p := e.key + ": " + Show(e.val);
    FilterMapSnoc(context, e, ContextPair);
    ContextText(query, context + [e]);
    ContextText(query, context);
    JoinNext(query + " Context: ", pairs, p);
  }

  /** Joining one more piece after at least one adds the separator before it. */
  lemma JoinNext(head: string, pairs: seq<string>, p: string)
    requires |pairs| >= 1
    ensures head + Join(pairs + [p], ". ") == head + Join(pairs, ". ") + (". " + p)
  {
    JoinSnoc(pairs, p, ". ");
  }

  /** After entries that are all `None`, the first entry with a value is shown right
      after `" Context: "`, with no separator before it. */
  lemma ContextFirstShown(query: string, context: seq<Entry>, e: Entry)
    requires |context| >= 1 && FilterMap(context, ContextPair) == [] && e.val != Null
    ensures EnhanceQuery(query, Some(context + [e]))
              == EnhanceQuery(query, Some(context)) + (e.key + ": " + Show(e.val))
  {
    var p := e.key + ": " + Show(e.val);
    FilterMapSnoc(context, e, ContextPair);
    ContextText(query, context + [e]);
    ContextText(query, context);
    JoinFirst(query + " Context: ", FilterMap(context, ContextPair), p);
  }

  /** Joining a single piece adds no separator. */
  lemma JoinFirst(head: string, pairs: seq<string>, p: string)
    requires pairs == []
    ensures head + Join(pairs + [p], ". ") == head + Join(pairs, ". ") + p
  {
    assert pairs + [p] == [p];
  }

  /** A non-empty context renders as its shown pairs after `" Context: "`. */
  lemma ContextText(query: string, context: seq<Entry>)
    requires |context| >= 1
    ensures EnhanceQuery(query, Some(context)) == query + " Context: " + Join(FilterMap(context, ContextPair), ". ")
  {
  }

  /** A context of one entry. */
  lemma SingleContext(query: string, e: Entry)
    requires e.val != Null
    ensures EnhanceQuery(query, Some([e])) == query + " Context: " + e.key + ": " + Show(e.val)
  {
    assert FilterMap([e], ContextPair) == [e.key + ": " + Show(e.val)];
  }

  // ---- answer ----

  /** `keys[n]` is the first key, in order, whose value is truthy. */
  ghost predicate FirstTruthyAt(entries: seq<Entry>, keys: seq<string>, n: int) {
    && 0 <= n < |keys|
    && Truthy(Get(entries, keys[n]))
    && forall j :: 0 <= j < n ==> !Truthy(Get(entries, keys[j]))
  }

  /** `d.get(k1) or d.get(k2) or ...`, as far as it finds a truthy value. */
  function FirstTruthy(entries: seq<Entry>, keys: seq<string>): (r: Option<Value>)
    ensures r.Some? ==> Truthy(r.value)
    ensures r.Some? ==> exists n :: FirstTruthyAt(entries, keys, n) && Lookup(entries, keys[n]) == r
    ensures forall n :: FirstTruthyAt(entries, keys, n) ==> r == Some(Get(entries, keys[n]))
    ensures r.None? <==> forall n :: 0 <= n < |keys| ==> !Truthy(Get(entries, keys[n]))
  {
    var attempt := k => var v := Get(entries, k); if Truthy(v) then Some(v) else None;
    var r := FirstSome(keys, attempt);
    assert forall n :: 0 <= n < |keys| ==> (attempt(keys[n]).None? <==> !Truthy(Get(entries, keys[n])));
    forall n | FirstTruthyAt(entries, keys, n) ensures r == Some(Get(entries, keys[n])) {
      assert FirstHit(keys, attempt, n);
      FirstSomePicksFirstHit(keys, attempt, n);
    }
    assert r.Some? ==> exists n :: FirstTruthyAt(entries, keys, n) && Lookup(entries, keys[n]) == r by {
      if r.Some? {
        var n :| FirstHit(keys, attempt, n) && r == attempt(keys[n]);
        assert FirstTruthyAt(entries, keys, n);
        assert Lookup(entries, keys[n]) == r;
      }
    }
    r
  }

  /** The first key decides when it holds a truthy value. */
  lemma FirstTruthyHead(entries: seq<Entry>, keys: seq<string>)
    requires |keys| >= 1 && Truthy(Get(entries, keys[0]))
    ensures FirstTruthy(entries, keys) == Some(Get(entries, keys[0]))
  {
    assert FirstTruthyAt(entries, keys, 0);
  }

  /** A string value longer than ten characters, which the fallback accepts. */
  predicate Meaningful(v: Value) {
    v.Str? && |v.s| > MeaningfulLength
  }

  /** `entries[k]` is the first entry, in dict order, with a meaningful value. */
  ghost predicate FirstLongAt(entries: seq<Entry>, k: int) {
    && 0 <= k < |entries|
    && Meaningful(entries[k].val)
    && forall j :: 0 <= j < k ==> !Meaningful(entries[j].val)
  }

  /** The first string value, in dict order, longer than ten characters. */
  function LongString(entries: seq<Entry>): (r: Option<Value>)
    ensures r.Some? ==> Meaningful(r.value)
    ensures r.Some? ==> exists k :: FirstLongAt(entries, k) && entries[k].val == r.value
    ensures forall k :: FirstLongAt(entries, k) ==> r == Some(entries[k].val)
    ensures r.None? <==> forall k :: 0 <= k < |entries| ==> !Meaningful(entries[k].val)
  {
    var attempt := (e: Entry) => if Meaningful(e.val) then Some(e.val) else None;
    var r := FirstSome(entries, attempt);
    forall k | FirstLongAt(entries, k) ensures r == Some(entries[k].val) {
      assert FirstHit(entries, attempt, k);
      FirstSomePicksFirstHit(entries, attempt, k);
    }
    assert r.Some? ==> Meaningful(r.value) && exists k :: FirstLongAt(entries, k) && entries[k].val == r.value by {
      if r.Some? {
        var k :| FirstHit(entries, attempt, k) && r == attempt(entries[k]);
        assert FirstLongAt(entries, k);
      }
    }
    r
  }

  /** The answer of a dict output, as the code computes it: the keyed value, or
      `str(response)`; and when that is falsy or equal to `str(response)`, the first long
      string value, or the apology. */
  function ChooseAnswer(entries: seq<Entry>): Value {
    var text := Str(Show(Dict(entries)));
    var answer := FirstTruthy(entries, AnswerKeys).GetOr(text);
    if !Truthy(answer) || answer == text then LongString(entries).GetOr(Str(Apology))
    else answer
  }

  /** What the answer selection amounts to: the first truthy value under `answer`,
      `result`, `text`, `output`, `response`; else the first string value longer than ten
      characters; else the apology. The comparison with `str(response)` never rejects a
      keyed value: a string held by the dict is shorter than the dict's text. */
  lemma AnswerSelection(entries: seq<Entry>)
    ensures ChooseAnswer(entries) ==
              match FirstTruthy(entries, AnswerKeys)
              case Some(v) => v
              case None => LongString(entries).GetOr(Str(Apology))
  {
    var keyed := FirstTruthy(entries, AnswerKeys);
    if keyed.Some? && keyed.value.Str? {
      var n :| 0 <= n < |AnswerKeys| && Lookup(entries, AnswerKeys[n]) == keyed;
      var k :| 0 <= k < |entries| && entries[k] == Entry(AnswerKeys[n], keyed.value);
      HeldStringIsNotDictText(entries, k);
    }
  }

  /** `response.get("sources") or response.get("source_documents") or
      response.get("documents") or []` */
  function ChooseSources(entries: seq<Entry>): (r: Value)
    ensures r == List([]) <==> forall n :: 0 <= n < |SourceKeys| ==> !Truthy(Get(entries, SourceKeys[n]))
    ensures forall n :: FirstTruthyAt(entries, SourceKeys, n) ==> r == Get(entries, SourceKeys[n])
  {
    FirstTruthy(entries, SourceKeys).GetOr(List([]))
  }

  // ---- sources ----

  /** One line of a string of sources: `type: reference`, cut at the first two colons
      and stripped; blank lines and lines without a colon give nothing. */
  function LineSource(line: string): (r: Option<Source>)
    ensures r.Some? <==> ':' in line && !IsBlank(line)
    ensures r.Some? ==> Stripped(r.value.kind) && ':' !in r.value.kind
    ensures r.Some? ==> Stripped(r.value.reference) && ':' !in r.value.reference
    ensures r.Some? ==> r.value.confidence == KnownConfidence && r.value.metadata.None?
  {
    if Strip(line) == "" then None
    else
      var parts := Split(line, ':');
      if |parts| >= 2 then
        assert ':' in line by {
          SplitLength(line, ':');
          if ':' !in line { CountAbsent(line, ':'); }
        }
        Some(Source(Strip(parts[0]), Strip(parts[1]), KnownConfidence, None))
      else None
  }

  /** The type is the stripped text before the first colon and the reference the
      stripped text between the first and the second; anything after a second colon is
      dropped. */
  lemma LineSourcePieces(a: string, b: string, rest: string)
    requires ':' !in a && ':' !in b
    ensures LineSource(a + ":" + b) == Some(Source(Strip(a), Strip(b), KnownConfidence, None))
    ensures LineSource(a + ":" + b + ":" + rest) == Some(Source(Strip(a), Strip(b), KnownConfidence, None))
  {
    TwoPieceLine(a, b);
    ThreePieceLine(a, b, rest);
  }

  lemma TwoPieceLine(a: string, b: string)
    requires ':' !in a && ':' !in b
    ensures LineSource(a + ":" + b) == Some(Source(Strip(a), Strip(b), KnownConfidence, None))
  {
    var line := a + ":" + b;
    assert line == a + [':'] + b;
    SplitPair(a, b);
    ColonLineNotBlank(a, b);
  }

  lemma ThreePieceLine(a: string, b: string, rest: string)
    requires ':' !in a && ':' !in b
    ensures LineSource(a + ":" + b + ":" + rest) == Some(Source(Strip(a), Strip(b), KnownConfidence, None))
  {
    ThreePieces(a, b, rest);
    ThreePieceNotBlank(a, b, rest);
  }

  /** The first two pieces of `a:b:rest` are `a` and `b`. */
  lemma ThreePieces(a: string, b: string, rest: string)
    requires ':' !in a && ':' !in b
    ensures |Split(a + ":" + b + ":" + rest, ':')| >= 2
    ensures Split(a + ":" + b + ":" + rest, ':')[0] == a
    ensures Split(a + ":" + b + ":" + rest, ':')[1] == b
  {
    var tail := b + [':'] + rest;
    assert a + ":" + b + ":" + rest == a + [':'] + tail;
    SplitAtFirst(a, tail);
    SplitAtFirst(b, rest);
  }

  lemma ThreePieceNotBlank(a: string, b: string, rest: string)
    ensures Strip(a + ":" + b + ":" + rest) != ""
  {
    assert a + ":" + b + ":" + rest == a + [':'] + (b + [':'] + rest);
    ColonLineNotBlank(a, b + [':'] + rest);
  }

  /** Splitting at a separator-free head cuts off exactly that head. */
  lemma SplitAtFirst(a: string, rest: string)
    requires ':' !in a
    ensures Split(a + [':'] + rest, ':') == [a] + Split(rest, ':')
  {
    var s := a + [':'] + rest;
    IndexOfConcat(a, ':', rest);
    assert s[..|a|] == a && s[|a| + 1..] == rest;
  }

  /** `content[:200] + "..."` when the content is longer than 200 characters. */
  function Preview(content: string): (r: string)
    ensures |r| <= PreviewLength + 3
    ensures |content| <= PreviewLength ==> r == content
    ensures |content| > PreviewLength ==>
              |r| == PreviewLength + 3 && r[..PreviewLength] == content[..PreviewLength] && r[PreviewLength..] == "..."
  {
    if |content| > PreviewLength then content[..PreviewLength] + "..." else content
  }

  /** Previewing a preview changes nothing. */
  lemma PreviewIdempotent(content: string)
    ensures Preview(Preview(content)) == Preview(content)
  {
    if |content| > PreviewLength {
      var r := Preview(content);
      assert r[..PreviewLength] == content[..PreviewLength];
    }
  }

  /** One item of a list of sources: a document or a string; anything else is dropped. */
  function ItemSource(item: Value): (r: Option<Source>)
    ensures r.Some? <==> item.Doc? || item.Str?
    ensures r.Some? ==> r.value.confidence == KnownConfidence
    ensures r.Some? ==> |r.value.reference| <= PreviewLength + 3 || item.Str?
    ensures item.Doc? ==> r == Some(Source("document", Preview(item.content), KnownConfidence, Some(item.metadata)))
    ensures item.Str? ==> r == Some(Source("text", item.s, KnownConfidence, None))
  {
    match item
    case Doc(content, metadata) => Some(Source("document", Preview(content), KnownConfidence, Some(metadata)))
    case Str(s) => Some(Source("text", s, KnownConfidence, None))
    case _ => None
  }

  /** `_process_sources`. */
  function ProcessSources(sources: Value): (r: seq<Source>)
    ensures sources.Str? ==> |r| <= Count(sources.s, '\n') + 1
    ensures sources.List? ==> |r| <= |sources.elems|
    ensures !sources.Str? && !sources.List? ==>
              r == [Source("unknown", Show(sources), UnknownConfidence, None)]
  {
    match sources
    case Str(s) =>
      SplitLength(s, '\n');
      FilterMap(Split(s, '\n'), LineSource)
    case List(items) => FilterMap(items, ItemSource)
    case _ => [Source("unknown", Show(sources), UnknownConfidence, None)]
  }

  /** In a list of sources, every document and every string gives its source, in list
      order: item `k` lands after the sources of the items before it. */
  lemma ListSourcesInOrder(items: seq<Value>, k: nat)
    requires k < |items| && (items[k].Doc? || items[k].Str?)
    ensures |FilterMap(items[..k], ItemSource)| < |ProcessSources(List(items))|
    ensures ProcessSources(List(items))[|FilterMap(items[..k], ItemSource)|] == ItemSource(items[k]).value
  {
    FilterMapPosition(items, ItemSource, k);
  }

  /** A list of documents and strings only gives one source per item, item by item. */
  lemma ListSourcesKeepAll(items: seq<Value>)
    requires forall k :: 0 <= k < |items| ==> items[k].Doc? || items[k].Str?
    ensures |ProcessSources(List(items))| == |items|
    ensures forall k :: 0 <= k < |items| ==> ProcessSources(List(items))[k] == ItemSource(items[k]).value
  {
    FilterMapTotal(items, ItemSource);
  }

  /** A long document is cut to its first 200 characters followed by `...`. */
  lemma LongDocumentPreview(content: string, metadata: seq<Entry>)
    requires |content| > PreviewLength
    ensures ProcessSources(List([Doc(content, metadata)]))
              == [Source("document", content[..PreviewLength] + "...", KnownConfidence, Some(metadata))]
  {
    ListSourcesKeepAll([Doc(content, metadata)]);
  }

  /** The line `type: reference`. */
  function SourceLine(pair: (string, string)): string {
    pair.0 + ": " + pair.1
  }

  /** The `type: reference` line of each pair. */
  function LinesOf(pairs: seq<(string, string)>): (lines: seq<string>)
    ensures |lines| == |pairs|
  {
    seq(|pairs|, k requires 0 <= k < |pairs| => SourceLine(pairs[k]))
  }

  /** The text of a string of sources: the lines of the pairs, one per line. */
  function SourceLines(pairs: seq<(string, string)>): string {
    Join(LinesOf(pairs), "\n")
  }

  predicate PlainField(s: string) {
    Stripped(s) && ':' !in s && '\n' !in s
  }

  /** Reading back the lines `type: reference` gives the pairs back, in order, each
      with confidence 0.9. */
  lemma SourceLinesRoundTrip(pairs: seq<(string, string)>)
    requires forall k :: 0 <= k < |pairs| ==> PlainField(pairs[k].0) && PlainField(pairs[k].1)
    ensures |ProcessSources(Str(SourceLines(pairs)))| == |pairs|
    ensures forall k :: 0 <= k < |pairs| ==>
              ProcessSources(Str(SourceLines(pairs)))[k] == Source(pairs[k].0, pairs[k].1, KnownConfidence, None)
  {
    if |pairs| == 0 {
      assert ProcessSources(Str(SourceLines(pairs))) == [] by {
        assert SourceLines(pairs) == "";
        assert Split("", '\n') == [""];
        assert LineSource("").None?;
      }
    } else {
      var lines := LinesOf(pairs);
      assert ProcessSources(Str(SourceLines(pairs))) == FilterMap(lines, LineSource) by {
        SplitSourceLines(pairs);
      }
      forall k | 0 <= k < |lines|
        ensures LineSource(lines[k]) == Some(Source(pairs[k].0, pairs[k].1, KnownConfidence, None))
      {
        assert lines[k] == pairs[k].0 + ": " + pairs[k].1;
        LineOfPair(pairs[k].0, pairs[k].1);
      }
      FilterMapTotal(lines, LineSource);
    }
  }

  /** Splitting the text of at least one source line at newlines gives the lines back. */
  lemma SplitSourceLines(pairs: seq<(string, string)>)
    requires |pairs| >= 1
    requires forall k :: 0 <= k < |pairs| ==> PlainField(pairs[k].0) && PlainField(pairs[k].1)
    ensures Split(SourceLines(pairs), '\n') == LinesOf(pairs)
  {
    var lines := LinesOf(pairs);
    forall k | 0 <= k < |lines| ensures '\n' !in lines[k] {
      assert lines[k] == pairs[k].0 + ": " + pairs[k].1;
    }
    SplitJoin(lines, '\n');
  }

  lemma LineOfPair(kind: string, reference: string)
    requires PlainField(kind) && PlainField(reference)
    ensures LineSource(kind + ": " + reference) == Some(Source(kind, reference, KnownConfidence, None))
  {
    var tail := " " + reference;
    var line := kind + ": " + reference;
    assert line == kind + [':'] + tail;
    SplitPair(kind, tail);
    var parts := Split(line, ':');
    assert parts[0] == kind && parts[1] == tail;
    StripAround("", kind, "");
    assert "" + kind + "" == kind;
    StripSpaceThen(reference);
    ColonLineNotBlank(kind, tail);
    assert Strip(line) != "";
    assert LineSource(line) == Some(Source(Strip(parts[0]), Strip(parts[1]), KnownConfidence, None));
  }

  /** `(" " + r).strip()` is `r` when `r` is already stripped. */
  lemma StripSpaceThen(r: string)
    requires Stripped(r)
    ensures Strip(" " + r) == r
  {
    var sp: string := [' '];
    assert IsBlank(sp);
    StripAround(sp, r, []);
    assert sp + r + [] == " " + r;
  }

  lemma SplitPair(a: string, b: string)
    requires ':' !in a && ':' !in b
    ensures Split(a + [':'] + b, ':') == [a, b]
  {
    assert Join([a, b], [':']) == a + [':'] + b;
    SplitJoin([a, b], ':');
  }

  lemma ColonLineNotBlank(a: string, b: string)
    ensures Strip(a + [':'] + b) != ""
  {
    var line := a + [':'] + b;
    assert line[|a|] == ':';
    assert !IsBlank(line);
  }

  // ---- the whole query ----

  /** `process_query` on `query`, with `chain` the QA chain and `newId` the id a new
      conversation gets. */
  function ProcessQuery(query: string, conversationId: Option<string>, context: Option<seq<Entry>>,
                        chain: string -> Value, newId: string): (r: Reply)
    ensures r.conversationId == IdOr(conversationId, newId)
    ensures IsBlank(query) ==> r.response == Str(EmptyQueryMessage) && r.sources == []
  {
    var id := IdOr(conversationId, newId);
    if IsBlank(query) then Reply(Str(EmptyQueryMessage), [], id)
    else
      var response := chain(EnhanceQuery(query, context));
      match response
      case Dict(entries) => Reply(ChooseAnswer(entries), ProcessSources(ChooseSources(entries)), id)
      case _ => Reply(Str(Show(response)), ProcessSources(List([])), id)
  }

  /** A dict from the chain: the answer is the first truthy keyed value, else the first
      long string value, else the apology; the sources come from the first truthy
      source key, and are empty when there is none. */
  lemma DictReply(query: string, conversationId: Option<string>, context: Option<seq<Entry>>,
                  chain: string -> Value, newId: string)
    requires !IsBlank(query) && chain(EnhanceQuery(query, context)).Dict?
    ensures var entries := chain(EnhanceQuery(query, context)).entries;
            var r := ProcessQuery(query, conversationId, context, chain, newId);
            && r.response == (match FirstTruthy(entries, AnswerKeys)
                              case Some(v) => v
                              case None => LongString(entries).GetOr(Str(Apology)))
            && (FirstTruthy(entries, SourceKeys).None? ==> r.sources == [])
            && (FirstTruthy(entries, SourceKeys).Some? ==>
                  r.sources == ProcessSources(FirstTruthy(entries, SourceKeys).value))
  {
    AnswerSelection(chain(EnhanceQuery(query, context)).entries);
  }

  /** Any other output from the chain: its `str` is the answer and there are no sources. */
  lemma OtherReply(query: string, conversationId: Option<string>, context: Option<seq<Entry>>,
                   chain: string -> Value, newId: string)
    requires !IsBlank(query) && !chain(EnhanceQuery(query, context)).Dict?
    ensures ProcessQuery(query, conversationId, context, chain, newId).response
              == Str(Show(chain(EnhanceQuery(query, context))))
    ensures ProcessQuery(query, conversationId, context, chain, newId).sources == []
  {
  }

  /** When no answer key holds a truthy value, a question the chain echoes back first,
      under `question`, becomes the answer as soon as it is longer than ten characters. */
  lemma EchoedQuestion(entries: seq<Entry>)
    requires |entries| >= 1 && entries[0].key == "question"
    requires entries[0].val.Str? && |entries[0].val.s| > MeaningfulLength
    requires forall n :: 0 <= n < |AnswerKeys| ==> !Truthy(Get(entries, AnswerKeys[n]))
    ensures ChooseAnswer(entries) == entries[0].val
  {
    AnswerSelection(entries);
  }
}

=== FILE: choice.dfy ===
/** The two list-shaped control patterns that recur throughout the services:
    "try an ordered list of alternatives, the first success wins, otherwise a fixed
    default" (every field extractor, the `a or b or c` chains of the chat service), and
    "keep the results of the items that produce one, in order" (line items, sources,
    context pairs). Their properties are proved once here. */
module Choice {
  import opened Wrappers

  /** `attempt` fails on every candidate before `i` and succeeds on candidate `i`. */
  ghost predicate FirstHit<A, R>(cands: seq<A>, attempt: A -> Option<R>, i: int) {
    && 0 <= i < |cands|
    && attempt(cands[i]).Some?
    && forall j :: 0 <= j < i ==> attempt(cands[j]).None?
  }

  /** The result of the first candidate, in list order, on which `attempt` succeeds. */
  function FirstSome<A, R>(cands: seq<A>, attempt: A -> Option<R>): (r: Option<R>)
    ensures r.None? <==> forall i :: 0 <= i < |cands| ==> attempt(cands[i]).None?
    ensures r.Some? ==> exists i :: FirstHit(cands, attempt, i) && r == attempt(cands[i])
  {
    if |cands| == 0 then None
    else if attempt(cands[0]).Some? then
      assert FirstHit(cands, attempt, 0);
      attempt(cands[0])
    else
      var r := FirstSome(cands[1..], attempt);
      assert r.Some? ==> exists i :: FirstHit(cands, attempt, i) && r == attempt(cands[i]) by {
        if r.Some? {
          var i :| FirstHit(cands[1..], attempt, i) && r == attempt(cands[1..][i]);
          assert FirstHit(cands, attempt, i + 1);
        }
      }
      assert r.None? ==> forall i :: 0 <= i < |cands| ==> attempt(cands[i]).None? by {
        if r.None? {
          forall i | 0 <= i < |cands| ensures attempt(cands[i]).None? {
            if i > 0 { assert cands[i] == cands[1..][i - 1]; }
          }
        }
      }
      r
  }

  /** The first success among `cands`, or `default` when every attempt fails. */
  function FirstOr<A, R>(cands: seq<A>, attempt: A -> Option<R>, default: R): R {
    FirstSome(cands, attempt).GetOr(default)
  }

  /** The first candidate that succeeds decides the result, whatever later candidates
      would give. */
  lemma FirstSomePicksFirstHit<A, R>(cands: seq<A>, attempt: A -> Option<R>, i: int)
    requires FirstHit(cands, attempt, i)
    ensures FirstSome(cands, attempt) == attempt(cands[i])
  {
    var r := FirstSome(cands, attempt);
    var k :| FirstHit(cands, attempt, k) && r == attempt(cands[k]);
    assert !(k < i) && !(k > i);
  }

  /** `FirstOr` with a successful first hit at `i` returns that hit. */
  lemma FirstOrPicksFirstHit<A, R>(cands: seq<A>, attempt: A -> Option<R>, default: R, i: int)
    requires FirstHit(cands, attempt, i)
    ensures FirstOr(cands, attempt, default) == attempt(cands[i]).value
  {
    FirstSomePicksFirstHit(cands, attempt, i);
  }

  /** When the first candidate succeeds, later candidates are never consulted. */
  lemma FirstOrHeadWins<A, R>(cands: seq<A>, attempt: A -> Option<R>, default: R)
    requires |cands| >= 1 && attempt(cands[0]).Some?
    ensures FirstOr(cands, attempt, default) == attempt(cands[0]).value
  {
    FirstOrPicksFirstHit(cands, attempt, default, 0);
  }

  /** A failing first candidate is skipped: the rest of the list decides. */
  lemma FirstSomeSkipsFailure<A, R>(cands: seq<A>, attempt: A -> Option<R>)
    requires |cands| >= 1 && attempt(cands[0]).None?
    ensures FirstSome(cands, attempt) == FirstSome(cands[1..], attempt)
  {
  }

  /** When every candidate fails, the default is returned. */
  lemma FirstOrFallsBack<A, R>(cands: seq<A>, attempt: A -> Option<R>, default: R)
    requires forall i :: 0 <= i < |cands| ==> attempt(cands[i]).None?
    ensures FirstOr(cands, attempt, default) == default
  {
  }

  /** A failing first candidate is skipped: the rest of the list decides. */
  lemma FirstOrSkipsFailure<A, R>(cands: seq<A>, attempt: A -> Option<R>, default: R)
    requires |cands| >= 1 && attempt(cands[0]).None?
    ensures FirstOr(cands, attempt, default) == FirstOr(cands[1..], attempt, default)
  {
  }

  /** A property shared by the default and by every success holds of the result. */
  lemma FirstOrKeeps<A, R>(cands: seq<A>, attempt: A -> Option<R>, default: R, P: R -> bool)
    requires P(default)
    requires forall i :: 0 <= i < |cands| && attempt(cands[i]).Some? ==> P(attempt(cands[i]).value)
    ensures P(FirstOr(cands, attempt, default))
  {
  }

  /** A property shared by every success holds of a `FirstSome` result. */
  lemma FirstSomeKeeps<A, R>(cands: seq<A>, attempt: A -> Option<R>, P: R -> bool)
    requires forall i :: 0 <= i < |cands| && attempt(cands[i]).Some? ==> P(attempt(cands[i]).value)
    ensures FirstSome(cands, attempt).Some? ==> P(FirstSome(cands, attempt).value)
  {
  }

  /** The results `f` produces on the items of `xs`, in the order of `xs`; items on
      which `f` gives nothing are dropped. */
  function FilterMap<A, B>(xs: seq<A>, f: A -> Option<B>): (ys: seq<B>)
    ensures |ys| <= |xs|
  {
    if |xs| == 0 then []
    else
      var rest := FilterMap(xs[1..], f);
      match f(xs[0])
      case Some(y) => [y] + rest
      case None => rest
  }

  /** Every result comes from an item of `xs`. */
  lemma {:induction false} FilterMapOrigin<A, B>(xs: seq<A>, f: A -> Option<B>, k: int)
    requires 0 <= k < |FilterMap(xs, f)|
    ensures exists i :: 0 <= i < |xs| && f(xs[i]) == Some(FilterMap(xs, f)[k])
  {
    var rest := FilterMap(xs[1..], f);
    if f(xs[0]).Some? && k == 0 {
      assert f(xs[0]) == Some(FilterMap(xs, f)[k]);
    } else {
      var k' := if f(xs[0]).Some? then k - 1 else k;
      assert FilterMap(xs, f)[k] == rest[k'];
      FilterMapOrigin(xs[1..], f, k');
      var i :| 0 <= i < |xs[1..]| && f(xs[1..][i]) == Some(rest[k']);
      assert f(xs[i + 1]) == Some(FilterMap(xs, f)[k]);
    }
  }

  /** `FilterMap` distributes over concatenation. */
  lemma {:induction false} FilterMapAppend<A, B>(a: seq<A>, b: seq<A>, f: A -> Option<B>)
    ensures FilterMap(a + b, f) == FilterMap(a, f) + FilterMap(b, f)
    decreases |a|
  {
    if |a| == 0 {
      assert a + b == b;
    } else {
      assert (a + b)[1..] == a[1..] + b;
      FilterMapAppend(a[1..], b, f);
    }
  }

  /** An item on which `f` gives nothing can be removed without changing the result. */
  lemma FilterMapDrops<A, B>(a: seq<A>, x: A, b: seq<A>, f: A -> Option<B>)
    requires f(x).None?
    ensures FilterMap(a + [x] + b, f) == FilterMap(a + b, f)
  {
    FilterMapAppend(a + [x], b, f);
    FilterMapAppend(a, [x], f);
    FilterMapAppend(a, b, f);
  }

  /** Appending one item adds its result, if any, at the end. */
  lemma FilterMapSnoc<A, B>(a: seq<A>, x: A, f: A -> Option<B>)
    ensures FilterMap(a + [x], f) == FilterMap(a, f) + (if f(x).Some? then [f(x).value] else [])
  {
    FilterMapAppend(a, [x], f);
  }

  /** Every item that produces a result contributes exactly that result, at the position
      given by the number of results before it. */
  lemma FilterMapPosition<A, B>(xs: seq<A>, f: A -> Option<B>, i: int)
    requires 0 <= i < |xs| && f(xs[i]).Some?
    ensures |FilterMap(xs[..i], f)| < |FilterMap(xs, f)|
    ensures FilterMap(xs, f)[|FilterMap(xs[..i], f)|] == f(xs[i]).value
  {
    assert xs == xs[..i] + [xs[i]] + xs[i + 1..];
    FilterMapAppend(xs[..i] + [xs[i]], xs[i + 1..], f);
    FilterMapSnoc(xs[..i], xs[i], f);
  }

  /** When `f` succeeds on every item, nothing is dropped. */
  lemma {:induction false} FilterMapTotal<A, B>(xs: seq<A>, f: A -> Option<B>)
    requires forall i :: 0 <= i < |xs| ==> f(xs[i]).Some?
    ensures |FilterMap(xs, f)| == |xs|
    ensures forall i :: 0 <= i < |xs| ==> FilterMap(xs, f)[i] == f(xs[i]).value
  {
    if |xs| > 0 {
      FilterMapTotal(xs[1..], f);
    }
  }

  /** When `f` fails on every item, the result is empty. */
  lemma {:induction false} FilterMapNone<A, B>(xs: seq<A>, f: A -> Option<B>)
    requires forall i :: 0 <= i < |xs| ==> f(xs[i]).None?
    ensures FilterMap(xs, f) == []
  {
    if |xs| > 0 {
      FilterMapNone(xs[1..], f);
    }
  }

  /** The first position from `lo` up to `hi` where `stop` holds, scanning upwards
      while `go` holds; `None` when `go` fails first or nothing stops. This is how a
      lazy quantifier grows its group one character at a time. */
  function ScanUp(lo: nat, hi: nat, go: nat -> bool, stop: nat -> bool): (r: Option<nat>)
    ensures r.Some? ==> lo <= r.value <= hi && go(r.value) && stop(r.value)
    decreases hi + 1 - lo
  {
    if lo > hi || !go(lo) then None
    else if stop(lo) then Some(lo)
    else ScanUp(lo + 1, hi, go, stop)
  }

  /** The scan passes only positions where `go` holds and `stop` does not. */
  lemma {:induction false} ScanUpFirst(lo: nat, hi: nat, go: nat -> bool, stop: nat -> bool)
    requires ScanUp(lo, hi, go, stop).Some?
    ensures forall k :: lo <= k < ScanUp(lo, hi, go, stop).value ==> go(k) && !stop(k)
    decreases hi + 1 - lo
  {
    if !stop(lo) {
      ScanUpFirst(lo + 1, hi, go, stop);
    }
  }
}

=== FILE: dates.dfy ===
/** Calendar dates as Python's `datetime` handles them in the extractor:
    `datetime.strptime(s, "%d/%m/%Y")` and `datetime.isoformat()`. */
module Dates {
  import opened Wrappers
  import opened Text

  datatype Date = Date(year: nat, month: nat, day: nat)

  /** The proleptic Gregorian leap-year rule used by `datetime`. */
  predicate IsLeapYear(y: nat) {
    (y % 4 == 0 && y % 100 != 0) || y % 400 == 0
  }

  function DaysInMonth(y: nat, m: nat): (n: nat)
    requires 1 <= m <= 12
    ensures 28 <= n <= 31
  {
    if m == 2 then (if IsLeapYear(y) then 29 else 28)
    else if m == 4 || m == 6 || m == 9 || m == 11 then 30
    else 31
  }

  /** A day `datetime` can represent: years 1 to 9999, a real month, a real day. */
  predicate ValidDate(d: Date) {
    && 1 <= d.year <= 9999
    && 1 <= d.month <= 12
    && 1 <= d.day <= DaysInMonth(d.year, d.month)
  }

  /** The `%d` directive: one of `3[01]`, `[12]\d`, `0[1-9]`, `[1-9]`, ` [1-9]`,
      covering exactly the field `f`. */
  function DayField(f: string): (r: Option<nat>)
    ensures r.Some? ==> 1 <= r.value <= 31
  {
    if |f| == 1 && '1' <= f[0] <= '9' then Some(DigitValue(f[0]))
    else if |f| == 2 && f[0] == ' ' && '1' <= f[1] <= '9' then Some(DigitValue(f[1]))
    else if |f| == 2 && IsDigit(f[0]) && IsDigit(f[1])
            && 1 <= 10 * DigitValue(f[0]) + DigitValue(f[1]) <= 31
    then Some(10 * DigitValue(f[0]) + DigitValue(f[1]))
    else None
  }

  /** The `%m` directive: one of `1[0-2]`, `0[1-9]`, `[1-9]`, covering exactly `f`. */
  function MonthField(f: string): (r: Option<nat>)
    ensures r.Some? ==> 1 <= r.value <= 12
  {
    if |f| == 1 && '1' <= f[0] <= '9' then Some(DigitValue(f[0]))
    else if |f| == 2 && IsDigit(f[0]) && IsDigit(f[1])
            && 1 <= 10 * DigitValue(f[0]) + DigitValue(f[1]) <= 12
    then Some(10 * DigitValue(f[0]) + DigitValue(f[1]))
    else None
  }

  function Pow10(w: nat): (p: nat)
    ensures p >= 1
  {
    if w == 0 then 1 else 10 * Pow10(w - 1)
  }

  /** A numeral of `w` digits is below `10^w`. */
  lemma {:induction false} DecimalValueBound(s: string)
    requires forall k :: 0 <= k < |s| ==> IsDigit(s[k])
    ensures DecimalValue(s) < Pow10(|s|)
    decreases |s|
  {
    if |s| > 0 {
      DecimalValueBound(s[..|s| - 1]);
    }
  }

  /** The `%Y` directive: exactly four digits. */
  function YearField(f: string): (r: Option<nat>)
    ensures r.Some? ==> r.value <= 9999
  {
    if |f| == 4 && IsNumeral(f) then
      DecimalValueBound(f);
      Some(DecimalValue(f))
    else None
  }

  /** The text before the first `/`, between the first and the second, and after the
      second; `None` when there are fewer than two. */
  function Fields(s: string): (r: Option<(string, string, string)>)
    ensures r.Some? ==> s == r.value.0 + ['/'] + r.value.1 + ['/'] + r.value.2
    ensures r.Some? ==> '/' !in r.value.0 && '/' !in r.value.1
  {
    match IndexOf(s, '/')
    case None => None
    case Some(i) =>
      var rest := s[i + 1..];
      match IndexOf(rest, '/')
      case None => None
      case Some(j) =>
        CutTwice(s, i, j);
        Some((s[..i], rest[..j], rest[j + 1..]))
  }

  /** `s` cut around its `i`-th character and the `j`-th character after it. */
  lemma CutTwice(s: string, i: nat, j: nat)
    requires i < |s| && s[i] == '/' && j < |s| - i - 1 && s[i + 1..][j] == '/'
    ensures s == s[..i] + ['/'] + s[i + 1..][..j] + ['/'] + s[i + 1..][j + 1..]
  {
    var rest := s[i + 1..];
    Around(s, i);
    Around(rest, j);
  }

  /** `datetime.strptime(s, "%d/%m/%Y")`: `None` where Python raises `ValueError`.
      No directive matches a `/`, so the fields are the text before the first `/`, the
      text between the first and second `/`, and the rest, which must end the string. */
  function ParseDmy(s: string): (r: Option<Date>)
    ensures r.Some? ==> ValidDate(r.value)
  {
    match Fields(s)
    case None => None
    case Some((df, mf, yf)) =>
      match (DayField(df), MonthField(mf), YearField(yf))
      case (Some(d), Some(m), Some(y)) =>
        var date := Date(y, m, d);
        if ValidDate(date) then Some(date) else None
      case _ => None
  }

  /** The fields of `a/b/c` when neither `a` nor `b` holds a `/`. */
  lemma FieldsOf(a: string, b: string, c: string)
    requires '/' !in a && '/' !in b
    ensures Fields(a + "/" + b + "/" + c) == Some((a, b, c))
  {
    var rest := b + ['/'] + c;
    var s := a + ['/'] + rest;
    assert a + "/" + b + "/" + c == s;
    IndexOfConcat(a, '/', rest);
    assert s[|a| + 1..] == rest;
    assert s[..|a|] == a;
    IndexOfConcat(b, '/', c);
    assert rest[..|b|] == b;
    assert rest[|b| + 1..] == c;
  }

  /** `datetime(year, month, day).isoformat()`: `YYYY-MM-DDT00:00:00`. */
  function IsoFormat(d: Date): string {
    ZeroPad(d.year, 4) + "-" + ZeroPad(d.month, 2) + "-" + ZeroPad(d.day, 2) + "T00:00:00"
  }

  /** `DD/MM/YYYY`, the text `strptime(_, "%d/%m/%Y")` is written to read. */
  function FormatDmy(d: Date): string {
    ZeroPad(d.day, 2) + "/" + ZeroPad(d.month, 2) + "/" + ZeroPad(d.year, 4)
  }

  /** A number below `10^w` has at most `w` digits. */
  lemma {:induction false} NatToStringLength(n: nat, w: nat)
    requires 1 <= w && n < Pow10(w)
    ensures |NatToString(n)| <= w
  {
    if n >= 10 {
      NatToStringLength(n / 10, w - 1);
    }
  }

  /** Zero padding to `w` digits gives exactly `w` digits for numbers below `10^w`. */
  lemma ZeroPadLength(n: nat, w: nat)
    requires 1 <= w && n < Pow10(w)
    ensures |ZeroPad(n, w)| == w
  {
    NatToStringLength(n, w);
  }

  lemma TwoDigitFieldValue(f: string)
    requires |f| == 2 && IsNumeral(f)
    ensures DecimalValue(f) == 10 * DigitValue(f[0]) + DigitValue(f[1])
  {
    assert f[..1][..0] == [];
    assert DecimalValue(f[..1]) == DigitValue(f[0]);
  }

  /** Every representable date, written as `DD/MM/YYYY`, is read back by
      `strptime(_, "%d/%m/%Y")` as itself; day and month numbers that fit the
      fields but name no real day (`31/04`, `29/02` outside a leap year) are
      rejected. */
  lemma ParseDmyRoundTrip(d: Date)
    requires 1 <= d.year <= 9999 && 1 <= d.month <= 12 && 1 <= d.day <= 31
    ensures ParseDmy(FormatDmy(d)) == if ValidDate(d) then Some(d) else None
  {
    var dd, mm, yy := ZeroPad(d.day, 2), ZeroPad(d.month, 2), ZeroPad(d.year, 4);
    assert DayField(dd) == Some(d.day) by {
      ZeroPadLength(d.day, 2);
      ZeroPadRoundTrip(d.day, 2);
      TwoDigitFieldValue(dd);
    }
    assert MonthField(mm) == Some(d.month) by {
      ZeroPadLength(d.month, 2);
      ZeroPadRoundTrip(d.month, 2);
      TwoDigitFieldValue(mm);
    }
    assert YearField(yy) == Some(d.year) by {
      ZeroPadLength(d.year, 4);
      ZeroPadRoundTrip(d.year, 4);
    }
    assert '/' !in dd && '/' !in mm by {
      assert !IsDigit('/');
    }
    ParseFields(dd, mm, yy);
  }

  /** The characters a successful `%d`, `%m` or `%Y` field may hold. */
  predicate FieldChar(c: char) {
    IsDigit(c) || c == ' '
  }

  lemma AcceptedFieldChars(df: string, mf: string, yf: string)
    requires DayField(df).Some? && MonthField(mf).Some? && YearField(yf).Some?
    ensures forall k :: 0 <= k < |df| ==> FieldChar(df[k])
    ensures forall k :: 0 <= k < |mf| ==> FieldChar(mf[k])
    ensures forall k :: 0 <= k < |yf| ==> FieldChar(yf[k])
  {
  }

  /** `strptime` never accepts a `-`: the separators must be `/` and no field admits
      one, so a `DD-MM-YYYY` date is rejected. */
  lemma ParseDmyRejectsDash(s: string)
    requires '-' in s
    ensures ParseDmy(s).None?
  {
    if ParseDmy(s).Some? {
      ParsedHasNoDash(s);
    }
  }

  lemma ParsedHasNoDash(s: string)
    requires ParseDmy(s).Some?
    ensures '-' !in s
  {
    var (df, mf, yf) := Fields(s).value;
    AcceptedFieldChars(df, mf, yf);
    assert '-' !in df && '-' !in mf && '-' !in yf;
  }

  /** A year field of any length but four is rejected: `%Y` reads exactly four
      digits and nothing may follow them. */
  lemma ParseDmyNeedsFourDigitYear(a: string, b: string, c: string)
    requires '/' !in a && '/' !in b && |c| != 4
    ensures ParseDmy(a + "/" + b + "/" + c).None?
  {
    FieldsOf(a, b, c);
  }

  /** `isoformat` loses nothing: two representable dates with the same text are the
      same date. */
  lemma IsoFormatInjective(d1: Date, d2: Date)
    requires ValidDate(d1) && ValidDate(d2)
    requires IsoFormat(d1) == IsoFormat(d2)
    ensures d1 == d2
  {
    IsoFields(d1);
    IsoFields(d2);
    ZeroPadInjective(d1.year, d2.year, 4);
    ZeroPadInjective(d1.month, d2.month, 2);
    ZeroPadInjective(d1.day, d2.day, 2);
  }

  /** Where the year, month and day sit in the ISO text of a representable date. */
  lemma IsoFields(d: Date)
    requires ValidDate(d)
    ensures |IsoFormat(d)| == 19
    ensures IsoFormat(d)[..4] == ZeroPad(d.year, 4)
    ensures IsoFormat(d)[5..7] == ZeroPad(d.month, 2)
    ensures IsoFormat(d)[8..10] == ZeroPad(d.day, 2)
  {
    var y, m, dd := ZeroPad(d.year, 4), ZeroPad(d.month, 2), ZeroPad(d.day, 2);
    ZeroPadLength(d.year, 4);
    ZeroPadLength(d.month, 2);
    ZeroPadLength(d.day, 2);
    var s := IsoFormat(d);
    assert s == y + "-" + m + "-" + dd + "T00:00:00";
    assert s[..4] == y;
    assert s[5..7] == m;
    assert s[8..10] == dd;
  }

  /** Zero padding keeps distinct numbers distinct. */
  lemma ZeroPadInjective(n1: nat, n2: nat, w: nat)
    requires ZeroPad(n1, w) == ZeroPad(n2, w)
    ensures n1 == n2
  {
    ZeroPadRoundTrip(n1, w);
    ZeroPadRoundTrip(n2, w);
  }

  /** `strptime` on `d/m/y` once the three fields are known. */
  lemma ParseFields(df: string, mf: string, yf: string)
    requires '/' !in df && '/' !in mf
    ensures ParseDmy(df + "/" + mf + "/" + yf) ==
      match (DayField(df), MonthField(mf), YearField(yf))
      case (Some(d), Some(m), Some(y)) => if ValidDate(Date(y, m, d)) then Some(Date(y, m, d)) else None
      case _ => None
  {
    FieldsOf(df, mf, yf);
  }

  lemma FourDigitFieldValue(f: string)
    requires |f| == 4 && IsNumeral(f)
    ensures YearField(f) == Some(1000 * DigitValue(f[0]) + 100 * DigitValue(f[1])
                                 + 10 * DigitValue(f[2]) + DigitValue(f[3]))
  {
    assert f[..3][..2] == f[..2];
    assert f[..2][..1] == f[..1];
    assert f[..1][..0] == [];
    assert DecimalValue(f[..1]) == DigitValue(f[0]);
    assert DecimalValue(f[..2]) == 10 * DigitValue(f[0]) + DigitValue(f[1]);
    assert DecimalValue(f[..3]) == 100 * DigitValue(f[0]) + 10 * DigitValue(f[1]) + DigitValue(f[2]);
  }

  /** February 29th exists in a leap year... */
  lemma LeapDay(y: nat)
    requires 1 <= y <= 9999 && IsLeapYear(y)
    ensures ParseDmy(FormatDmy(Date(y, 2, 29))) == Some(Date(y, 2, 29))
  {
    ParseDmyRoundTrip(Date(y, 2, 29));
  }

  /** ...and in no other year. */
  lemma NoLeapDay(y: nat)
    requires 1 <= y <= 9999 && !IsLeapYear(y)
    ensures ParseDmy(FormatDmy(Date(y, 2, 29))).None?
  {
    ParseDmyRoundTrip(Date(y, 2, 29));
  }

  /** One-digit day and month fields are accepted without their leading zero, as in
      `5/3/2024`. */
  lemma ShortFields(d: Date)
    requires ValidDate(d) && d.day <= 9 && d.month <= 9
    ensures ParseDmy(NatToString(d.day) + "/" + NatToString(d.month) + "/" + ZeroPad(d.year, 4)) == Some(d)
  {
    var df, mf, yf := NatToString(d.day), NatToString(d.month), ZeroPad(d.year, 4);
    assert df == [DigitChar(d.day)] && mf == [DigitChar(d.month)];
    assert DayField(df) == Some(d.day);
    assert MonthField(mf) == Some(d.month);
    assert YearField(yf) == Some(d.year) by {
      ZeroPadLength(d.year, 4);
      ZeroPadRoundTrip(d.year, 4);
    }
    ParseFields(df, mf, yf);
  }
}

=== FILE: indexing.dfy ===
/** The document builder of the RAG indexer (`IndexingService` in rag_chatbot
    `app/services/indexing_service.py`): backend records of a given type become
    labelled lines of text, the text is cut into chunks, and every chunk becomes a
    document tagged with where it came from. Also the task-status mapping and the
    result of an indexing task.

    The text splitter is a parameter, `split`, and so is the vector store's write,
    `write`; the embedding model and the Celery plumbing are outside the model. */
module Indexing {
  import opened Wrappers
  import opened Text
  import opened PyValues

  /** The data types `_process_data` renders; any other type is skipped. */
  const KnownTypes: seq<string> := ["invoices", "clients", "projects"]
  /** The data types `rebuild_index` asks for, in order. */
  const RebuildTypes: seq<string> := ["invoices", "clients", "suppliers", "projects"]

  /** Why rendering a record raises. */
  datatype Fault =
    | NoAttribute(typeName: string, attr: string)   // AttributeError
    | NotIterable(typeName: string)                 // TypeError

  /** The name Python reports for the type of `v`, for the JSON values backend records
      hold; `Doc` and `Other` do not occur in a record. */
  function TypeName(v: Value): string {
    match v
    case Null => "NoneType"
    case Bool(_) => "bool"
    case Int(_) => "int"
    case Str(_) => "str"
    case List(_) => "list"
    case Dict(_) => "dict"
    case Doc(_, _) => "Document"
    case Other(_) => "object"
  }

  /** `str(e)` of the exception. */
  function FaultMessage(f: Fault): string {
    match f
    case NoAttribute(t, a) => "'" + t + "' object has no attribute '" + a + "'"
    case NotIterable(t) => "'" + t + "' object is not iterable"
  }

  /** What `for x in v` visits: a list's elements, a string's characters, a dict's
      keys; anything else cannot be iterated. */
  function Iterate(v: Value): (r: Result<seq<Value>, Fault>)
    ensures v.List? ==> r == Ok(v.elems)
    ensures r.Err? <==> !(v.List? || v.Str? || v.Dict?)
  {
    match v
    case List(xs) => Ok(xs)
    case Str(s) => Ok(seq(|s|, k requires 0 <= k < |s| => Str([s[k]])))
    case Dict(es) => Ok(seq(|es|, k requires 0 <= k < |es| => Str(es[k].key)))
    case _ => Err(NotIterable(TypeName(v)))
  }

  // ---- rendering ----

  /** Labelled lines `label: value`, one per field, in order; a missing field shows as
      `None`. */
  function LabelledLines(labels: seq<string>, fields: seq<string>, record: seq<Entry>): (lines: seq<string>)
    requires |labels| == |fields|
    ensures |lines| == |labels|
    ensures forall k :: 0 <= k < |lines| ==> |labels[k]| <= |lines[k]| && lines[k][..|labels[k]|] == labels[k]
  {
    seq(|labels|, k requires 0 <= k < |labels| => labels[k] + Show(Get(record, fields[k])))
  }

  const InvoiceLabels: seq<string> := ["Invoice #", "Date: ", "Due Date: ", "Total Amount: ", "Status: "]
  const InvoiceFieldNames: seq<string> := ["invoiceNumber", "date", "dueDate", "totalAmount", "status"]

  const ClientLabels: seq<string> := ["Client: ", "Email: ", "Address: ", "Phone: ", "Type: ", "Status: "]
  const ClientFieldNames: seq<string> := ["name", "email", "address", "phone", "type", "status"]

  const ProjectLabels: seq<string> :=
    ["Project: ", "Description: ", "Status: ", "Start Date: ", "End Date: ", "Budget: "]
  const ProjectFieldNames: seq<string> := ["name", "description", "status", "startDate", "endDate", "budget"]

  /** The labels of the six header lines of an invoice, in order. */
  const HeaderLabels: seq<string> := InvoiceLabels + ["Description: "]

  /** The six header lines of an invoice; the description defaults to the empty string. */
  function InvoiceHeader(invoice: seq<Entry>): (lines: seq<string>)
    ensures |lines| == |HeaderLabels| == 6
    ensures forall k :: 0 <= k < 6 ==> |HeaderLabels[k]| <= |lines[k]| && lines[k][..|HeaderLabels[k]|] == HeaderLabels[k]
    ensures lines[5] == "Description: " + Show(GetOr(invoice, "description", Str("")))
    ensures forall k :: 0 <= k < 5 ==> lines[k] == InvoiceLabels[k] + Show(Get(invoice, InvoiceFieldNames[k]))
  {
    LabelledLines(InvoiceLabels, InvoiceFieldNames, invoice)
      + ["Description: " + Show(GetOr(invoice, "description", Str("")))]
  }

  /** `f"Item: {d} - Quantity: {q} - Price: {p}"` for one item, which must be a dict. */
  function ItemLine(item: Value): (r: Result<string, Fault>)
    ensures r.Err? <==> !item.Dict?
  {
    match item
    case Dict(es) =>
      Ok("Item: " + Show(Get(es, "description")) + " - Quantity: " + Show(Get(es, "quantity"))
         + " - Price: " + Show(Get(es, "unitPrice")))
    case _ => Err(NoAttribute(TypeName(item), "get"))
  }

  /** The item lines, in order; the first item that is not a dict raises. */
  function ItemLines(items: seq<Value>): (r: Result<seq<string>, Fault>)
    ensures r.Ok? <==> forall k :: 0 <= k < |items| ==> items[k].Dict?
    ensures r.Ok? ==> |r.value| == |items|
    ensures r.Ok? ==> forall k :: 0 <= k < |items| ==> Ok(r.value[k]) == ItemLine(items[k])
  {
    if |items| == 0 then Ok([])
    else match ItemLine(items[0])
      case Err(f) => Err(f)
      case Ok(line) =>
        match ItemLines(items[1..])
        case Err(f) =>
          assert forall k :: 0 <= k < |items[1..]| ==> items[1..][k] == items[k + 1];
          Err(f)
        case Ok(rest) =>
          var lines := [line] + rest;
          assert forall k :: 1 <= k < |items| ==> items[k] == items[1..][k - 1] && lines[k] == rest[k - 1];
          Ok(lines)
  }

  /** What `for item in invoice.get('items', [])` visits. */
  function InvoiceItems(invoice: seq<Entry>): Result<seq<Value>, Fault> {
    Iterate(GetOr(invoice, "items", List([])))
  }

  /** `_process_invoice` as lines: the six header lines, then one line per item. It
      raises when `items` cannot be iterated or when an item is not a dict. */
  function InvoiceLines(invoice: seq<Entry>): (r: Result<seq<string>, Fault>)
    ensures r.Ok? ==> |r.value| >= 6 && r.value[..6] == InvoiceHeader(invoice)
    ensures r.Ok? <==> InvoiceItems(invoice).Ok?
                       && forall k :: 0 <= k < |InvoiceItems(invoice).value| ==> InvoiceItems(invoice).value[k].Dict?
    ensures r.Ok? ==> |r.value| == 6 + |InvoiceItems(invoice).value|
                      && forall k :: 0 <= k < |InvoiceItems(invoice).value| ==>
                           Ok(r.value[6 + k]) == ItemLine(InvoiceItems(invoice).value[k])
  {
    match Iterate(GetOr(invoice, "items", List([])))
    case Err(f) => Err(f)
    case Ok(items) =>
      match ItemLines(items)
      case Err(f) => Err(f)
      case Ok(lines) =>
        assert (InvoiceHeader(invoice) + lines)[..6] == InvoiceHeader(invoice);
        Ok(InvoiceHeader(invoice) + lines)
  }

  /** The text of one record of a known type, as the lines joined by newlines. */
  function RecordLines(dataType: string, record: seq<Entry>): (r: Result<seq<string>, Fault>)
    requires dataType in KnownTypes
    ensures dataType != "invoices" ==> r.Ok? && |r.value| == 6
  {
    if dataType == "invoices" then InvoiceLines(record)
    else if dataType == "clients" then Ok(LabelledLines(ClientLabels, ClientFieldNames, record))
    else Ok(LabelledLines(ProjectLabels, ProjectFieldNames, record))
  }

  /** When no shown value contains a newline, the record's text splits back into
      exactly its lines: six for a client or a project, six plus one per item for an
      invoice. */
  lemma RecordTextLines(dataType: string, record: seq<Entry>)
    requires dataType in KnownTypes && RecordLines(dataType, record).Ok?
    requires forall k :: 0 <= k < |RecordLines(dataType, record).value| ==>
               '\n' !in RecordLines(dataType, record).value[k]
    ensures Split(Join(RecordLines(dataType, record).value, "\n"), '\n') == RecordLines(dataType, record).value
  {
    SplitJoin(RecordLines(dataType, record).value, '\n');
  }

  /** An invoice with `n` items renders as `6 + n` lines. */
  lemma InvoiceLineCount(invoice: seq<Entry>, items: seq<Value>)
    requires Lookup(invoice, "items") == Some(List(items))
    requires forall k :: 0 <= k < |items| ==> items[k].Dict?
    ensures InvoiceLines(invoice).Ok? && |InvoiceLines(invoice).value| == 6 + |items|
    ensures forall k :: 0 <= k < |items| ==> Ok(InvoiceLines(invoice).value[6 + k]) == ItemLine(items[k])
  {
    assert InvoiceItems(invoice) == Ok(items);
  }

  /** An invoice without an `items` key renders as its six header lines. */
  lemma NoItemsHeaderOnly(invoice: seq<Entry>)
    requires Lookup(invoice, "items").None?
    ensures InvoiceLines(invoice) == Ok(InvoiceHeader(invoice))
  {
    assert InvoiceItems(invoice) == Ok([]);
    assert InvoiceHeader(invoice) + [] == InvoiceHeader(invoice);
  }

  // ---- documents ----

  /** A chunk of text and its metadata. */
  datatype Document = Document(text: string, source: string, kind: string, date: Value)

  /** The documents of one record: one per chunk of its text, in order, each tagged
      with `"{data_type}:{id}"`, the data type and the record's `createdAt`. */
  function RecordDocuments(dataType: string, item: Value, split: string -> seq<string>): (r: Result<seq<Document>, Fault>)
    requires dataType in KnownTypes
    ensures r.Ok? ==> item.Dict? && RecordLines(dataType, item.entries).Ok?
    ensures r.Ok? ==> |r.value| == |split(Join(RecordLines(dataType, item.entries).value, "\n"))|
    ensures r.Ok? ==> forall k :: 0 <= k < |r.value| ==>
              r.value[k] == Document(split(Join(RecordLines(dataType, item.entries).value, "\n"))[k],
                                     dataType + ":" + Show(Get(item.entries, "id")), dataType,
                                     Get(item.entries, "createdAt"))
  {
    match item
    case Dict(record) =>
      (match RecordLines(dataType, record)
       case Err(f) => Err(f)
       case Ok(lines) =>
         var chunks := split(Join(lines, "\n"));
         Ok(seq(|chunks|, k requires 0 <= k < |chunks| =>
                Document(chunks[k], dataType + ":" + Show(Get(record, "id")), dataType, Get(record, "createdAt")))))
    case _ => Err(NoAttribute(TypeName(item), "get"))
  }

  /** `_process_data`: the documents of every record, in order; a record of an unknown
      type is skipped. */
  function ProcessData(data: seq<Value>, dataType: string, split: string -> seq<string>): Result<seq<Document>, Fault>
    decreases |data|
  {
    if |data| == 0 then Ok([])
    else if dataType !in KnownTypes then ProcessData(data[1..], dataType, split)
    else
      match RecordDocuments(dataType, data[0], split)
      case Err(f) => Err(f)
      case Ok(docs) =>
        match ProcessData(data[1..], dataType, split)
        case Err(f) => Err(f)
        case Ok(rest) => Ok(docs + rest)
  }

  /** Records are processed in order: the documents of a concatenation are those of the
      first part followed by those of the second. */
  lemma {:induction false} ProcessDataAppend(a: seq<Value>, b: seq<Value>, dataType: string, split: string -> seq<string>)
    requires ProcessData(a, dataType, split).Ok? && ProcessData(b, dataType, split).Ok?
    ensures ProcessData(a + b, dataType, split)
              == Ok(ProcessData(a, dataType, split).value + ProcessData(b, dataType, split).value)
    decreases |a|
  {
    if |a| == 0 {
      assert a + b == b;
      assert ProcessData(a, dataType, split).value == [];
      assert [] + ProcessData(b, dataType, split).value == ProcessData(b, dataType, split).value;
    } else {
      assert (a + b)[1..] == a[1..] + b;
      assert (a + b)[0] == a[0];
      ProcessDataAppend(a[1..], b, dataType, split);
      if dataType in KnownTypes {
        var first := RecordDocuments(dataType, a[0], split).value;
        var restA := ProcessData(a[1..], dataType, split).value;
        var docsB := ProcessData(b, dataType, split).value;
        assert first + (restA + docsB) == (first + restA) + docsB;
      }
    }
  }

  /** A data type other than invoices, clients and projects yields no documents,
      whatever the data. */
  lemma {:induction false} UnknownTypeIndexesNothing(data: seq<Value>, dataType: string, split: string -> seq<string>)
    requires dataType !in KnownTypes
    ensures ProcessData(data, dataType, split) == Ok([])
    decreases |data|
  {
    if |data| > 0 {
      UnknownTypeIndexesNothing(data[1..], dataType, split);
    }
  }

  /** Indexing a known type succeeds exactly when every record is a dict whose text
      renders; the first record that is not raises. */
  lemma {:induction false} ProcessDataSucceeds(data: seq<Value>, dataType: string, split: string -> seq<string>)
    requires dataType in KnownTypes
    ensures ProcessData(data, dataType, split).Ok? <==>
              forall i :: 0 <= i < |data| ==> data[i].Dict? && RecordLines(dataType, data[i].entries).Ok?
    decreases |data|
  {
    if |data| > 0 {
      ProcessDataSucceeds(data[1..], dataType, split);
      ProcessDataStep(data, dataType, split);
      assert forall i :: 1 <= i < |data| ==> data[i] == data[1..][i - 1];
    }
  }

  /** One record: its documents come out when it is a dict whose text renders. */
  lemma ProcessDataStep(data: seq<Value>, dataType: string, split: string -> seq<string>)
    requires dataType in KnownTypes && |data| > 0
    ensures ProcessData(data, dataType, split).Ok? <==>
              data[0].Dict? && RecordLines(dataType, data[0].entries).Ok? && ProcessData(data[1..], dataType, split).Ok?
  {
    var first := RecordDocuments(dataType, data[0], split);
    assert first.Ok? <==> data[0].Dict? && RecordLines(dataType, data[0].entries).Ok?;
  }

  /** Every document is tagged with the data type, and its source and date are those of
      one of the records. */
  lemma {:induction false} DocumentsTagged(data: seq<Value>, dataType: string, split: string -> seq<string>, k: nat)
    requires ProcessData(data, dataType, split).Ok? && k < |ProcessData(data, dataType, split).value|
    ensures var d := ProcessData(data, dataType, split).value[k];
            && d.kind == dataType
            && exists i :: 0 <= i < |data| && data[i].Dict?
                           && d.source == dataType + ":" + Show(Get(data[i].entries, "id"))
                           && d.date == Get(data[i].entries, "createdAt")
    decreases |data|
  {
    var docs := ProcessData(data, dataType, split).value;
    if dataType !in KnownTypes {
      UnknownTypeIndexesNothing(data, dataType, split);
    } else {
      var first := RecordDocuments(dataType, data[0], split).value;
      var rest := ProcessData(data[1..], dataType, split).value;
      assert docs == first + rest;
      if k < |first| {
        assert docs[k] == first[k];
      } else {
        assert docs[k] == rest[k - |first|];
        DocumentsTagged(data[1..], dataType, split, k - |first|);
        var i :| 0 <= i < |data[1..]| && data[1..][i].Dict?
                 && rest[k - |first|].source == dataType + ":" + Show(Get(data[1..][i].entries, "id"))
                 && rest[k - |first|].date == Get(data[1..][i].entries, "createdAt");
        assert data[1..][i] == data[i + 1];
      }
    }
  }

  // ---- the indexing task ----

  /** What `index_data` returns: a completed run with its message and count, or the
      failure's message. */
  datatype IndexResult =
    | Completed(message: string, documentCount: nat, dataType: string)
    | Failed(error: string)

  /** `index_data` on the records `data` fetched for `dataType`; `write` is the vector
      store's `add_documents`, giving the text of the exception it raises, if any. */
  function IndexData(dataType: string, data: seq<Value>, split: string -> seq<string>,
                     write: seq<Document> -> Option<string>): (r: IndexResult)
    ensures r.Completed? <==> ProcessData(data, dataType, split).Ok? && write(ProcessData(data, dataType, split).value).None?
    ensures r.Completed? ==> r.documentCount == |ProcessData(data, dataType, split).value|
                             && r.dataType == dataType
                             && r.message == "Successfully indexed " + NatToString(r.documentCount) + " documents"
    ensures ProcessData(data, dataType, split).Err? ==> r == Failed(FaultMessage(ProcessData(data, dataType, split).error))
    ensures ProcessData(data, dataType, split).Ok? && write(ProcessData(data, dataType, split).value).Some? ==>
              r == Failed(write(ProcessData(data, dataType, split).value).value)
  {
    match ProcessData(data, dataType, split)
    case Ok(docs) =>
      (match write(docs)
       case None => Completed("Successfully indexed " + NatToString(|docs|) + " documents", |docs|, dataType)
       case Some(e) => Failed(e))
    case Err(f) => Failed(FaultMessage(f))
  }

  /** `_fetch_data`: a placeholder that returns no records. */
  function FetchData(dataType: string): seq<Value> {
    []
  }

  /** With the placeholder fetch, an indexing task writes no documents: it completes with
      zero documents unless the store's write of nothing raises. */
  lemma PlaceholderIndexesNothing(dataType: string, split: string -> seq<string>, write: seq<Document> -> Option<string>)
    ensures IndexData(dataType, FetchData(dataType), split, write)
              == if write([]).None? then Completed("Successfully indexed 0 documents", 0, dataType)
                 else Failed(write([]).value)
  {
    assert NatToString(0) == "0";
  }

  /** `rebuild_index`: one indexing run per data type, in order; `fetch` gives the
      records of each type. The code discards these results. */
  function RebuildIndex(fetch: string -> seq<Value>, split: string -> seq<string>,
                        write: seq<Document> -> Option<string>): (rs: seq<IndexResult>)
    ensures |rs| == |RebuildTypes|
    ensures forall k :: 0 <= k < |rs| ==> rs[k] == IndexData(RebuildTypes[k], fetch(RebuildTypes[k]), split, write)
  {
    seq(|RebuildTypes|, k requires 0 <= k < |RebuildTypes| => IndexData(RebuildTypes[k], fetch(RebuildTypes[k]), split, write))
  }

  /** Suppliers are asked for but never rendered: their run writes no documents. */
  lemma SuppliersIndexNothing(fetch: string -> seq<Value>, split: string -> seq<string>,
                              write: seq<Document> -> Option<string>)
    ensures RebuildIndex(fetch, split, write)[2]
              == if write([]).None? then Completed("Successfully indexed 0 documents", 0, "suppliers")
                 else Failed(write([]).value)
  {
    assert RebuildTypes[2] == "suppliers" && "suppliers" !in KnownTypes;
    UnknownTypeIndexesNothing(fetch("suppliers"), "suppliers", split);
    assert NatToString(0) == "0";
  }

  // ---- task status ----

  /** What Celery reports about a task: whether it has finished, whether it succeeded,
      and its result (the return value, or the exception). */
  datatype Task = Task(ready: bool, successful: bool, result: Value)

  /** `get_task_status`, as the entries of the dict it returns. */
  function TaskStatus(taskId: string, task: Task): (r: seq<Entry>)
    ensures Lookup(r, "task_id") == Some(Str(taskId))
    ensures Lookup(r, "status") == Some(Str(StatusName(task)))
    ensures StatusName(task) == "completed" ==> Lookup(r, "details") == Some(task.result)
    ensures StatusName(task) == "failed" ==> Lookup(r, "error") == Some(Str(Show(task.result)))
    ensures StatusName(task) == "processing" ==> Lookup(r, "message") == Some(Str("Task is still processing"))
  {
    var status := Entry("status", Str(StatusName(task)));
    var id := Entry("task_id", Str(taskId));
    var last :=
      if !task.ready then Entry("message", Str("Task is still processing"))
      else if task.successful then Entry("details", task.result)
      else Entry("error", Str(Show(task.result)));
    var r := [status, id, last];
    LookupFirst(r, 0);
    LookupFirst(r, 1);
    LookupFirst(r, 2);
    r
  }

  /** The three-way status: still running, finished well, finished badly. */
  function StatusName(task: Task): (s: string)
    ensures s == "processing" <==> !task.ready
    ensures s == "completed" <==> task.ready && task.successful
    ensures s == "failed" <==> task.ready && !task.successful
  {
    if !task.ready then "processing" else if task.successful then "completed" else "failed"
  }
}

=== FILE: invoice_fields.dfy ===
/** The header fields the OCR worker reads from an invoice's text (fastapi_ocr
    `app/worker.py`): each extractor tries its patterns in order, the first pattern
    that yields a value wins, and a fixed default stands in when none does.

    Amounts are integer cents: every capture the amount patterns accept has exactly two
    decimals, so `float(...)` of it is a whole number of cents (binary rounding of the
    float is not modelled). */
module InvoiceFields {
  import opened Wrappers
  import opened Text
  import opened Choice
  import opened Patterns
  import opened Matching
  import opened Dates

  /** `\s*:?\s*` */
  const ColonGap: seq<GapStep> := [Spaces, Maybe(":"), Spaces]
  /** `\s*#?\s*` */
  const HashGap: seq<GapStep> := [Spaces, Maybe("#"), Spaces]
  /** `\s*:?\s*[\$€£]?\s*` */
  const AmountGap: seq<GapStep> := [Spaces, Maybe(":"), Spaces, Maybe(Currency), Spaces]

  const InvoiceNumberPatterns: seq<Pattern> := [
    Pattern(["invoice"], HashGap, Digits),
    Pattern(["invoice", "number"], ColonGap, Digits),
    Pattern(["invoice", "id"], ColonGap, Digits)
  ]
  const DatePatterns: seq<Pattern> := [
    Pattern(["date"], ColonGap, DateLike),
    Pattern(["invoice", "date"], ColonGap, DateLike)
  ]
  const DueDatePatterns: seq<Pattern> := [
    Pattern(["due", "date"], ColonGap, DateLike),
    Pattern(["payment", "due"], ColonGap, DateLike)
  ]
  const TotalPatterns: seq<Pattern> := [
    Pattern(["total"], AmountGap, Money),
    Pattern(["amount", "due"], AmountGap, Money)
  ]
  const TaxPatterns: seq<Pattern> := [
    Pattern(["tax"], AmountGap, Money),
    Pattern(["vat"], AmountGap, Money)
  ]
  const ClientPatterns: seq<Pattern> := [
    Pattern(["client", "id"], ColonGap, Word),
    Pattern(["customer", "id"], ColonGap, Word)
  ]
  const ProjectPatterns: seq<Pattern> := [
    Pattern(["project", "id"], ColonGap, Word),
    Pattern(["project", "number"], ColonGap, Word)
  ]
  const DescriptionPatterns: seq<Pattern> := [
    Pattern(["description"], ColonGap, RestOfLine),
    Pattern(["details"], ColonGap, RestOfLine)
  ]

  const Unknown: string := "Unknown"

  /** Every pattern of the extractor has a label of letter words, so `Matching`'s
      characterisation applies to all of them. */
  lemma PatternsWellFormed()
    ensures AllWellFormed(InvoiceNumberPatterns)
    ensures AllWellFormed(DatePatterns)
    ensures AllWellFormed(DueDatePatterns)
    ensures AllWellFormed(TotalPatterns)
    ensures AllWellFormed(TaxPatterns)
    ensures AllWellFormed(ClientPatterns)
    ensures AllWellFormed(ProjectPatterns)
    ensures AllWellFormed(DescriptionPatterns)
  {
    InvoiceNumberWellFormed();
    DateWellFormed();
    DueDateWellFormed();
    TotalWellFormed();
    TaxWellFormed();
    ClientWellFormed();
    ProjectWellFormed();
    DescriptionWellFormed();
  }

  predicate AllWellFormed(pats: seq<Pattern>) {
    forall n :: 0 <= n < |pats| ==> WellFormed(pats[n])
  }

  lemma InvoiceNumberWellFormed()
    ensures AllWellFormed(InvoiceNumberPatterns)
  {
  }

  lemma DateWellFormed()
    ensures AllWellFormed(DatePatterns)
  {
  }

  lemma DueDateWellFormed()
    ensures AllWellFormed(DueDatePatterns)
  {
  }

  lemma TotalWellFormed()
    ensures AllWellFormed(TotalPatterns)
  {
  }

  lemma TaxWellFormed()
    ensures AllWellFormed(TaxPatterns)
  {
  }

  lemma ClientWellFormed()
    ensures AllWellFormed(ClientPatterns)
  {
  }

  lemma ProjectWellFormed()
    ensures AllWellFormed(ProjectPatterns)
  {
  }

  lemma DescriptionWellFormed()
    ensures AllWellFormed(DescriptionPatterns)
  {
  }

  /** Pattern `n` is the first, in list order, that matches `text`. */
  ghost predicate FirstMatch(text: string, pats: seq<Pattern>, n: int) {
    && 0 <= n < |pats|
    && Search(text, pats[n]).Some?
    && forall j :: 0 <= j < n ==> Search(text, pats[j]).None?
  }

  /** `match.group(1)` of the first pattern, in order, that matches. */
  function FirstCapture(text: string, pats: seq<Pattern>): (r: Option<string>)
    ensures r.None? <==> forall n :: 0 <= n < |pats| ==> Search(text, pats[n]).None?
    ensures forall n :: FirstMatch(text, pats, n) ==> r == Search(text, pats[n])
    ensures r.Some? ==> exists n :: FirstMatch(text, pats, n) && r == Search(text, pats[n])
                                    && Shaped(r.value, pats[n].body)
  {
    var attempt := p => Search(text, p);
    var r := FirstSome(pats, attempt);
    forall n | FirstMatch(text, pats, n) ensures r == Search(text, pats[n]) {
      assert FirstHit(pats, attempt, n);
      FirstSomePicksFirstHit(pats, attempt, n);
    }
    assert r.Some? ==> exists n :: FirstMatch(text, pats, n) && r == Search(text, pats[n])
                                   && Shaped(r.value, pats[n].body) by {
      if r.Some? {
        var n :| FirstHit(pats, attempt, n) && r == Search(text, pats[n]);
        assert FirstMatch(text, pats, n);
      }
    }
    r
  }

  /** When all patterns share a body, the first capture has that body's shape. */
  lemma FirstCaptureShaped(text: string, pats: seq<Pattern>, body: Body)
    requires forall n :: 0 <= n < |pats| ==> pats[n].body == body
    ensures FirstCapture(text, pats).Some? ==> Shaped(FirstCapture(text, pats).value, body)
  {
  }

  /** The first pattern's capture, when it has one, is the first capture. */
  lemma FirstCaptureHead(text: string, pats: seq<Pattern>)
    requires |pats| >= 1 && Search(text, pats[0]).Some?
    ensures FirstCapture(text, pats) == Search(text, pats[0])
  {
    FirstSomePicksFirstHit(pats, p => Search(text, p), 0);
  }

  // ---- invoice number ----

  /** `extract_invoice_number`: the digits after `Invoice #`, `Invoice Number` or
      `Invoice ID`, else `"Unknown"`. */
  function InvoiceNumber(text: string): (r: string)
    ensures r == Unknown || IsNumeral(r)
    ensures r == Unknown <==> forall n :: 0 <= n < 3 ==> Search(text, InvoiceNumberPatterns[n]).None?
    ensures forall n :: FirstMatch(text, InvoiceNumberPatterns, n) ==> r == Search(text, InvoiceNumberPatterns[n]).value
  {
    FirstCaptureShaped(text, InvoiceNumberPatterns, Digits);
    match FirstCapture(text, InvoiceNumberPatterns)
    case None => Unknown
    case Some(c) => assert !IsDigit(Unknown[0]); c
  }

  // ---- dates ----

  /** One date pattern: its capture, read as `%d/%m/%Y`; a capture `strptime` rejects
      counts as no match (the `except ValueError: continue`). */
  function DateAttempt(text: string, pat: Pattern): Option<Date> {
    match Search(text, pat)
    case None => None
    case Some(c) => ParseDmy(c)
  }

  /** Date pattern `n` is the first, in list order, whose capture `strptime` accepts. */
  ghost predicate FirstDate(text: string, pats: seq<Pattern>, n: int) {
    && 0 <= n < |pats|
    && DateAttempt(text, pats[n]).Some?
    && forall j :: 0 <= j < n ==> DateAttempt(text, pats[j]).None?
  }

  /** The first readable date among the captures of `pats`. */
  function FirstReadableDate(text: string, pats: seq<Pattern>): (r: Option<Date>)
    ensures r.None? <==> forall n :: 0 <= n < |pats| ==> DateAttempt(text, pats[n]).None?
    ensures forall n :: FirstDate(text, pats, n) ==> r == DateAttempt(text, pats[n])
    ensures r.Some? ==> ValidDate(r.value)
  {
    var attempt := p => DateAttempt(text, p);
    var r := FirstSome(pats, attempt);
    forall n | FirstDate(text, pats, n) ensures r == DateAttempt(text, pats[n]) {
      assert FirstHit(pats, attempt, n);
      FirstSomePicksFirstHit(pats, attempt, n);
    }
    assert r.Some? ==> ValidDate(r.value) by {
      if r.Some? {
        var n :| FirstHit(pats, attempt, n) && r == DateAttempt(text, pats[n]);
      }
    }
    r
  }

  /** `extract_date`: the ISO form of the first date that a date pattern captures and
      `strptime` accepts, else the current time's ISO form, `now`. */
  function InvoiceDate(text: string, now: string): (r: string)
    ensures r == now || exists d :: ValidDate(d) && r == IsoFormat(d)
    ensures forall n :: FirstDate(text, DatePatterns, n) ==> r == IsoFormat(DateAttempt(text, DatePatterns[n]).value)
    ensures (forall n :: 0 <= n < |DatePatterns| ==> DateAttempt(text, DatePatterns[n]).None?) ==> r == now
  {
    match FirstReadableDate(text, DatePatterns)
    case None => now
    case Some(d) => IsoFormat(d)
  }

  /** `extract_due_date`: as `extract_date` with the due-date patterns, but `None`
      when nothing is found. */
  function DueDate(text: string): (r: Option<string>)
    ensures r.Some? ==> exists d :: ValidDate(d) && r.value == IsoFormat(d)
    ensures r.None? <==> forall n :: 0 <= n < |DueDatePatterns| ==> DateAttempt(text, DueDatePatterns[n]).None?
    ensures forall n :: FirstDate(text, DueDatePatterns, n) ==>
              r == Some(IsoFormat(DateAttempt(text, DueDatePatterns[n]).value))
  {
    match FirstReadableDate(text, DueDatePatterns)
    case None => None
    case Some(d) => Some(IsoFormat(d))
  }

  /** A capture with a `-` separator is not a date for `strptime`: the plain `Date`
      pattern is passed over and `Invoice Date` decides. */
  lemma DashedDateSkipped(text: string, now: string)
    requires Search(text, DatePatterns[0]).Some? && '-' in Search(text, DatePatterns[0]).value
    ensures InvoiceDate(text, now) ==
              match DateAttempt(text, DatePatterns[1])
              case None => now
              case Some(d) => IsoFormat(d)
  {
    assert DateAttempt(text, DatePatterns[0]).None? by {
      ParseDmyRejectsDash(Search(text, DatePatterns[0]).value);
    }
    if DateAttempt(text, DatePatterns[1]).Some? {
      assert FirstDate(text, DatePatterns, 1);
    }
  }

  /** A readable date after the plain `Date` label wins over everything else. */
  lemma FirstDateWins(text: string, now: string)
    requires DateAttempt(text, DatePatterns[0]).Some?
    ensures InvoiceDate(text, now) == IsoFormat(DateAttempt(text, DatePatterns[0]).value)
  {
    assert FirstDate(text, DatePatterns, 0);
  }

  /** Without any readable date the clock decides. */
  lemma NoDateMeansNow(text: string, now: string)
    requires forall n :: 0 <= n < |DatePatterns| ==> DateAttempt(text, DatePatterns[n]).None?
    ensures InvoiceDate(text, now) == now
  {
  }

  // ---- amounts ----

  /** `s.replace(a, b)` for single characters. */
  function ReplaceChar(s: string, a: char, b: char): (r: string)
    ensures |r| == |s|
    ensures forall k :: 0 <= k < |s| ==> r[k] == (if s[k] == a then b else s[k])
  {
    if |s| == 0 then [] else [if s[0] == a then b else s[0]] + ReplaceChar(s[1..], a, b)
  }

  /** `float(t)` in cents, for `t` of the form digits, point, two digits; `None` for
      any other text (where the model does not follow `float`). */
  function DecimalCents(t: string): (r: Option<nat>)
    ensures r.Some? ==> MoneyShape(t) && t[|t| - 3] == '.'
  {
    if MoneyShape(t) && t[|t| - 3] == '.' then
      Some(DecimalValue(t[..|t| - 3]) * 100 + DecimalValue(t[|t| - 2..]))
    else None
  }

  /** `float(c.replace(',', '.'))` on an amount capture, in cents. */
  function AmountOf(c: string): Option<nat> {
    DecimalCents(ReplaceChar(c, ',', '.'))
  }

  /** The `except ValueError` branch of the amount extractors is dead: every capture of
      `\d+[.,]\d{2}` converts, to its whole part times 100 plus its two decimals,
      whichever separator it uses. */
  lemma AmountOfCapture(c: string)
    requires MoneyShape(c)
    ensures AmountOf(c) == Some(CaptureCents(c))
  {
    var t := ReplaceChar(c, ',', '.');
    assert t[..|t| - 3] == c[..|c| - 3];
    assert t[|t| - 2..] == c[|c| - 2..];
  }

  /** One amount pattern: the value of its capture. */
  function AmountAttempt(text: string, pat: Pattern): Option<nat> {
    match Search(text, pat)
    case None => None
    case Some(c) => AmountOf(c)
  }

  /** The value of a capture `\d+[.,]\d{2}`, in cents. */
  function CaptureCents(c: string): nat
    requires MoneyShape(c)
  {
    DecimalValue(c[..|c| - 3]) * 100 + DecimalValue(c[|c| - 2..])
  }

  /** `extract_total_amount` / `extract_tax_amount`: the value of the first pattern's
      capture, or `0.0` when no pattern matches. */
  function AmountFrom(text: string, pats: seq<Pattern>): (r: nat)
    requires forall n :: 0 <= n < |pats| ==> pats[n].body == Money
    ensures (forall n :: 0 <= n < |pats| ==> Search(text, pats[n]).None?) ==> r == 0
    ensures forall n :: FirstMatch(text, pats, n) ==> r == CaptureCents(Search(text, pats[n]).value)
  {
    var attempt := p => AmountAttempt(text, p);
    forall n | FirstMatch(text, pats, n)
      ensures FirstOr(pats, attempt, 0) == CaptureCents(Search(text, pats[n]).value)
    {
      var c := Search(text, pats[n]).value;
      assert Shaped(c, pats[n].body);
      AmountOfCapture(c);
      forall j | 0 <= j < n ensures attempt(pats[j]).None? {
        assert Search(text, pats[j]).None?;
      }
      FirstOrPicksFirstHit(pats, attempt, 0, n);
    }
    FirstOr(pats, attempt, 0)
  }

  /** With two amount patterns, the first one's capture decides when there is one, and
      the second one's otherwise. */
  lemma AmountPrecedence(text: string, pats: seq<Pattern>)
    requires forall n :: 0 <= n < |pats| ==> pats[n].body == Money
    requires |pats| >= 2
    ensures Search(text, pats[0]).Some? ==>
              AmountFrom(text, pats) == CaptureCents(Search(text, pats[0]).value)
    ensures Search(text, pats[0]).None? && Search(text, pats[1]).Some? ==>
              AmountFrom(text, pats) == CaptureCents(Search(text, pats[1]).value)
  {
    if Search(text, pats[0]).Some? {
      AmountFromHit(text, pats, 0);
    }
    if Search(text, pats[0]).None? && Search(text, pats[1]).Some? {
      assert forall j :: 0 <= j < 1 ==> Search(text, pats[j]).None?;
      AmountFromHit(text, pats, 1);
    }
  }

  /** The first pattern that matches decides the amount. */
  lemma AmountFromHit(text: string, pats: seq<Pattern>, i: nat)
    requires forall n :: 0 <= n < |pats| ==> pats[n].body == Money
    requires i < |pats| && Search(text, pats[i]).Some?
    requires forall j :: 0 <= j < i ==> Search(text, pats[j]).None?
    ensures AmountFrom(text, pats) == CaptureCents(Search(text, pats[i]).value)
  {
    assert FirstMatch(text, pats, i);
  }

  function TotalAmount(text: string): nat {
    AmountFrom(text, TotalPatterns)
  }

  function TaxAmount(text: string): nat {
    AmountFrom(text, TaxPatterns)
  }

  /** A `Total` capture decides the total, whatever `Amount Due` says; without one,
      `Amount Due` decides. */
  lemma TotalBeforeAmountDue(text: string)
    ensures Search(text, TotalPatterns[0]).Some? ==>
              TotalAmount(text) == CaptureCents(Search(text, TotalPatterns[0]).value)
    ensures Search(text, TotalPatterns[0]).None? && Search(text, TotalPatterns[1]).Some? ==>
              TotalAmount(text) == CaptureCents(Search(text, TotalPatterns[1]).value)
  {
    AmountPrecedence(text, TotalPatterns);
  }

  /** A `Tax` capture decides the tax, whatever `VAT` says; without one, `VAT`
      decides. */
  lemma TaxBeforeVat(text: string)
    ensures Search(text, TaxPatterns[0]).Some? ==>
              TaxAmount(text) == CaptureCents(Search(text, TaxPatterns[0]).value)
    ensures Search(text, TaxPatterns[0]).None? && Search(text, TaxPatterns[1]).Some? ==>
              TaxAmount(text) == CaptureCents(Search(text, TaxPatterns[1]).value)
  {
    AmountPrecedence(text, TaxPatterns);
  }

  // ---- identifiers and description ----

  /** `Total: $123,45` is an amount of 123.45. */
  lemma TotalExample()
    ensures TotalAmount("Total: $123,45") == 12345
  {
    var text := "Total: $123,45";
    assert LabelEnd(text, 0, ["total"]) == Some(5);
    assert GapMatch(text, 5, AmountGap, Money) == Some(Span(8, 14)) by {
      GapExample();
    }
    SearchAt(text, TotalPatterns[0], 0);
    TotalBeforeAmountDue(text);
    assert text[8..14] == "123,45" by {
      SliceExample();
    }
    CentsExample();
  }

  /** After `Total`, the gap `:` ` ` `$` leads to the capture at 8. */
  lemma GapExample()
    ensures GapMatch("Total: $123,45", 5, AmountGap, Money) == Some(Span(8, 14))
  {
    var text := "Total: $123,45";
    GapTailExample();
    var afterColon := [Spaces, Maybe(Currency), Spaces];
    assert GapMatch(text, 5, [Maybe(":")] + afterColon, Money) == Some(Span(8, 14)) by {
      assert text[5] in ":";
      assert ([Maybe(":")] + afterColon)[1..] == afterColon;
    }
    assert SpacesThen(text, 5, 0, [Maybe(":")] + afterColon, Money) == Some(Span(8, 14));
    assert GapMatch(text, 5, AmountGap, Money) == Some(Span(8, 14)) by {
      RunOfUnique(text, 5, IsSpace, 0);
      assert AmountGap[1..] == [Maybe(":")] + afterColon;
    }
  }

  /** From the space after the colon: the space, the currency sign, then the amount. */
  lemma GapTailExample()
    ensures GapMatch("Total: $123,45", 6, [Spaces, Maybe(Currency), Spaces], Money) == Some(Span(8, 14))
  {
    var text := "Total: $123,45";
    CaptureExample();
    assert GapMatch(text, 7, [Maybe(Currency), Spaces], Money) == Some(Span(8, 14)) by {
      assert text[7] in Currency;
      assert [Maybe(Currency), Spaces][1..] == [Spaces];
    }
    assert GapMatch(text, 6, [Spaces, Maybe(Currency), Spaces], Money) == Some(Span(8, 14)) by {
      RunOfUnique(text, 6, IsSpace, 1);
      assert [Spaces, Maybe(Currency), Spaces][1..] == [Maybe(Currency), Spaces];
    }
  }

  /** At 8, no spaces and then the amount `123,45`. */
  lemma CaptureExample()
    ensures GapMatch("Total: $123,45", 8, [Spaces], Money) == Some(Span(8, 14))
  {
    var text := "Total: $123,45";
    assert MoneyAt(text, 8) == Some(Span(8, 14)) by {
      RunOfUnique(text, 8, IsDigit, 3);
    }
    RunOfUnique(text, 8, IsSpace, 0);
  }

  lemma SliceExample()
    ensures "Total: $123,45"[8..14] == "123,45"
  {
    var c := "Total: $123,45"[8..14];
    assert c[0] == '1' && c[1] == '2' && c[2] == '3' && c[3] == ',' && c[4] == '4' && c[5] == '5';
  }

  /** The capture `123,45` is 12345 cents. */
  lemma CentsExample()
    ensures MoneyShape("123,45") && CaptureCents("123,45") == 12345
  {
    var c := "123,45";
    assert c[..|c| - 3] == "123" && c[|c| - 2..] == "45";
    assert DecimalValue("1") == 1 by {
      assert "1"[..0] == "";
    }
    assert DecimalValue("12") == 12 by {
      assert "12"[..1] == "1";
    }
    assert DecimalValue("123") == 123 by {
      assert "123"[..2] == "12";
    }
    assert DecimalValue("4") == 4 by {
      assert "4"[..0] == "";
    }
    assert DecimalValue("45") == 45 by {
      assert "45"[..1] == "4";
    }
  }

  /** `extract_client_id`: the word after `Client ID` or `Customer ID`, else
      `"Unknown"`. */
  function ClientId(text: string): (r: string)
    ensures r == Unknown || Shaped(r, Word)
    ensures (forall n :: 0 <= n < |ClientPatterns| ==> Search(text, ClientPatterns[n]).None?) ==> r == Unknown
    ensures forall n :: FirstMatch(text, ClientPatterns, n) ==> r == Search(text, ClientPatterns[n]).value
  {
    FirstCaptureShaped(text, ClientPatterns, Word);
    FirstCapture(text, ClientPatterns).GetOr(Unknown)
  }

  /** `extract_project_id`: the word after `Project ID` or `Project Number`, else
      `None`. */
  function ProjectId(text: string): (r: Option<string>)
    ensures r.Some? ==> Shaped(r.value, Word)
    ensures r.None? <==> forall n :: 0 <= n < |ProjectPatterns| ==> Search(text, ProjectPatterns[n]).None?
    ensures forall n :: FirstMatch(text, ProjectPatterns, n) ==> r == Search(text, ProjectPatterns[n])
  {
    FirstCaptureShaped(text, ProjectPatterns, Word);
    FirstCapture(text, ProjectPatterns)
  }

  /** `extract_description`: the rest of the line after `Description` or `Details`,
      stripped; `None` when neither label is followed by a character. */
  function Description(text: string): (r: Option<string>)
    ensures r.None? <==> forall n :: 0 <= n < |DescriptionPatterns| ==> Search(text, DescriptionPatterns[n]).None?
    ensures r.Some? ==> '\n' !in r.value
    ensures r.Some? ==> Stripped(r.value)
    ensures forall n :: FirstMatch(text, DescriptionPatterns, n) ==>
              r == Some(Strip(Search(text, DescriptionPatterns[n]).value))
  {
    FirstCaptureShaped(text, DescriptionPatterns, RestOfLine);
    match FirstCapture(text, DescriptionPatterns)
    case None => None
    case Some(c) => Some(Strip(c))
  }
}

=== FILE: invoice_record.dfy ===
/** The invoice record that `process_invoice` in fastapi_ocr `app/worker.py` builds from
    the OCR text: every field comes from one extractor, and the status is always
    `"PENDING"`. Reading the file, the PDF conversion, the image preprocessing and the
    OCR itself are outside the model: the record is a function of the text. */
module InvoiceRecord {
  import opened Wrappers
  import opened Text
  import opened Choice
  import opened Patterns
  import opened Dates
  import opened InvoiceFields
  import opened LineItems

  datatype Invoice = Invoice(
    invoiceNumber: string,
    date: string,
    dueDate: Option<string>,
    totalAmount: nat,   // cents
    taxAmount: nat,     // cents
    status: string,
    clientId: string,
    projectId: Option<string>,
    description: Option<string>,
    items: seq<LineItem>)

  /** The status of every new invoice. */
  const NewStatus: string := "PENDING"

  /** The record of one OCR text; `now` is the ISO form of the current time, the
      fallback of the invoice date. */
  function InvoiceOf(text: string, now: string): (inv: Invoice)
    ensures inv.status == NewStatus
    ensures inv.invoiceNumber == Unknown || IsNumeral(inv.invoiceNumber)
    ensures inv.date == now || exists d :: ValidDate(d) && inv.date == IsoFormat(d)
    ensures inv.dueDate.Some? ==> exists d :: ValidDate(d) && inv.dueDate.value == IsoFormat(d)
    ensures inv.description.Some? ==> '\n' !in inv.description.value && Stripped(inv.description.value)
    ensures inv.clientId == Unknown || Shaped(inv.clientId, Word)
    ensures inv.projectId.Some? ==> Shaped(inv.projectId.value, Word)
  {
    Invoice(
      InvoiceNumber(text),
      InvoiceDate(text, now),
      DueDate(text),
      TotalAmount(text),
      TaxAmount(text),
      NewStatus,
      ClientId(text),
      ProjectId(text),
      Description(text),
      ItemsOf(Split(text, '\n')))
  }

  /** `process_invoice` after the OCR step. */
  method ExtractInvoice(text: string, now: string) returns (inv: Invoice)
    ensures inv == InvoiceOf(text, now)
  {
    var items := ExtractItems(text);
    inv := Invoice(
      InvoiceNumber(text),
      InvoiceDate(text, now),
      DueDate(text),
      TotalAmount(text),
      TaxAmount(text),
      NewStatus,
      ClientId(text),
      ProjectId(text),
      Description(text),
      items);
  }

  /** Every item of the record is priced consistently. */
  lemma ItemTotals(text: string, now: string)
    ensures forall k :: 0 <= k < |InvoiceOf(text, now).items| ==>
              InvoiceOf(text, now).items[k].totalPrice
                == InvoiceOf(text, now).items[k].unitPrice * InvoiceOf(text, now).items[k].quantity
  {
    var lines := Split(text, '\n');
    forall k | 0 <= k < |ItemsOf(lines)|
      ensures ItemsOf(lines)[k].totalPrice == ItemsOf(lines)[k].unitPrice * ItemsOf(lines)[k].quantity
    {
      FilterMapOrigin(lines, ItemOf, k);
    }
  }

  // ---- a text without digits ----

  predicate DigitFree(s: string) {
    forall c :: c in s ==> !IsDigit(c)
  }

  /** Bodies whose every capture holds a digit. */
  predicate NumericBody(body: Body) {
    body == Digits || body == Money || body == DateLike
  }

  /** A pattern whose capture holds a digit finds nothing in a text without digits. */
  lemma NumericSearchFails(text: string, pat: Pattern)
    requires DigitFree(text) && NumericBody(pat.body)
    ensures Search(text, pat).None?
  {
    if Search(text, pat).Some? {
      var a, b := SearchIsSlice(text, pat);
      NumericCaptureHasDigit(Search(text, pat).value, pat.body);
    }
  }

  /** A numeric capture begins with a digit. */
  lemma NumericCaptureHasDigit(s: string, body: Body)
    requires NumericBody(body) && Shaped(s, body)
    ensures |s| > 0 && IsDigit(s[0])
  {
    if body == Money {
      assert s[..|s| - 3][0] == s[0];
    }
  }

  /** None of the patterns `pats`, all numeric, finds anything in a text without
      digits. */
  lemma DigitFreeSearches(text: string, pats: seq<Pattern>)
    requires DigitFree(text)
    requires forall n :: 0 <= n < |pats| ==> NumericBody(pats[n].body)
    ensures forall n :: 0 <= n < |pats| ==> Search(text, pats[n]).None?
  {
    forall n | 0 <= n < |pats| ensures Search(text, pats[n]).None? {
      NumericSearchFails(text, pats[n]);
    }
  }

  /** In a text without a single digit nothing numeric is found: the number is
      `"Unknown"`, the date falls back to `now`, there is no due date, both amounts are
      zero and there are no items. */
  lemma DigitFreeInvoice(text: string, now: string)
    requires DigitFree(text)
    ensures InvoiceOf(text, now).invoiceNumber == Unknown
    ensures InvoiceOf(text, now).date == now
    ensures InvoiceOf(text, now).dueDate.None?
    ensures InvoiceOf(text, now).totalAmount == 0 && InvoiceOf(text, now).taxAmount == 0
    ensures InvoiceOf(text, now).items == []
  {
    DigitFreeHeader(text, now);
    DigitFreeAmounts(text);
    DigitFreeItems(text);
  }

  /** The number, date and due date of a text without digits. */
  lemma DigitFreeHeader(text: string, now: string)
    requires DigitFree(text)
    ensures InvoiceNumber(text) == Unknown && InvoiceDate(text, now) == now && DueDate(text).None?
  {
    DigitFreeSearches(text, InvoiceNumberPatterns);
    DigitFreeSearches(text, DatePatterns);
    NoDateMeansNow(text, now);
    DigitFreeSearches(text, DueDatePatterns);
  }

  /** The amounts of a text without digits. */
  lemma DigitFreeAmounts(text: string)
    requires DigitFree(text)
    ensures TotalAmount(text) == 0 && TaxAmount(text) == 0
  {
    DigitFreeSearches(text, TotalPatterns);
    DigitFreeSearches(text, TaxPatterns);
  }

  /** No line of a text without digits is an item line. */
  lemma DigitFreeItems(text: string)
    requires DigitFree(text)
    ensures ItemsOf(Split(text, '\n')) == []
  {
    var lines := Split(text, '\n');
    SplitPiecesFromText(text, '\n');
    forall i | 0 <= i < |lines| ensures ItemOf(lines[i]).None? {
      DigitFreeLine(lines[i]);
    }
    FilterMapNone(lines, ItemOf);
  }

  /** A line without digits is not an item line: the pattern starts with a digit. */
  lemma DigitFreeLine(line: string)
    requires DigitFree(line)
    ensures ItemOf(line).None?
  {
    var at := k => ItemLineAt(line, k);
    forall k | 0 <= k <= |line| ensures at(k).None? {
      if k < |line| {
        assert line[k] in line;
      }
    }
    NoneLeftmost(|line|, at);
  }
}

=== FILE: line_items.dfy ===
/** The line items of an invoice (`extract_items` in fastapi_ocr `app/worker.py`).

    The text is cut at `\n`; a line is an item line when `\d+\s*x\s*[\$€£]?\s*\d+[.,]\d{2}`
    occurs in it (case-sensitive: only a lower-case `x`). On an item line the quantity
    is the first `(\d+)\s*x`, the unit price the first `[\$€£]?\s*(\d+[.,]\d{2})` and the
    description the first `([a-zA-Z].+?)\s+\d+\s*x`, or `"Unknown item"`. */
module LineItems {
  import opened Wrappers
  import opened Text
  import opened Choice
  import opened Patterns
  import opened InvoiceFields

  /** One item; prices in cents. */
  datatype LineItem = LineItem(description: string, quantity: nat, unitPrice: nat, totalPrice: nat)

  const UnknownItem: string := "Unknown item"

  /** `\s*[\$€£]?\s*` between the `x` and the price in the item-line pattern. */
  const AfterTimes: seq<GapStep> := [Spaces, Maybe(Currency), Spaces]
  /** `[\$€£]?\s*` before the captured unit price. */
  const BeforePrice: seq<GapStep> := [Maybe(Currency), Spaces]

  /** `\d+\s*x` at `i`: the digits, and the position just after the `x`. No `\d+` or
      `\s*` here can give back a character, since what follows them (whitespace or `x`,
      and `x`) is never a digit or whitespace. */
  function TimesAt(line: string, i: int): (r: Option<(Span, nat)>)
    ensures r.Some? ==> 0 <= i == r.value.0.start < r.value.0.end < r.value.1 <= |line|
    ensures r.Some? ==> IsNumeral(line[r.value.0.start..r.value.0.end]) && line[r.value.1 - 1] == 'x'
  {
    if !(0 <= i <= |line|) then None
    else
      var n := RunOf(line, i, IsDigit);
      var j := i + n;
      var k := j + RunOf(line, j, IsSpace);
      if n >= 1 && k < |line| && line[k] == 'x' then Some((Span(i, j), k + 1)) else None
  }

  /** The item-line pattern at `i`. */
  function ItemLineAt(line: string, i: int): Option<Span> {
    match TimesAt(line, i)
    case None => None
    case Some((_, k)) => GapMatch(line, k, AfterTimes, Money)
  }

  /** `re.search(r'\d+\s*x\s*[\$€£]?\s*\d+[.,]\d{2}', line)` is truthy. */
  predicate IsItemLine(line: string) {
    Leftmost(|line|, k => ItemLineAt(line, k)).Some?
  }

  /** `re.search(r'(\d+)\s*x', line).group(1)` */
  function Quantity(line: string): (r: Option<string>)
    ensures r.Some? ==> IsNumeral(r.value)
    ensures r.None? <==> forall i :: 0 <= i <= |line| ==> TimesAt(line, i).None?
  {
    var at := k => match TimesAt(line, k) case None => None case Some((sp, _)) => Some(sp);
    match Leftmost(|line|, at)
    case None =>
      assert forall i :: 0 <= i <= |line| ==> TimesAt(line, i).None? by {
        LeftmostNone(|line|, at);
        forall i | 0 <= i <= |line| ensures TimesAt(line, i).None? {
          assert at(i).None?;
        }
      }
      None
    case Some(sp) =>
      assert sp.start < sp.end <= |line| && IsNumeral(line[sp.start..sp.end]) by {
        LeftmostAt(|line|, at);
      }
      Some(line[sp.start..sp.end])
  }

  /** The quantity is the first run of digits followed, after optional whitespace,
      by `x`. */
  lemma QuantityLeftmost(line: string, i: nat)
    requires i <= |line| && TimesAt(line, i).Some?
    requires forall j :: 0 <= j < i ==> TimesAt(line, j).None?
    ensures Quantity(line) == Some(line[i..TimesAt(line, i).value.0.end])
  {
    var at := k => match TimesAt(line, k) case None => None case Some((sp, _)) => Some(sp);
    LeftmostPicks(|line|, at, i);
  }

  /** The unit-price pattern at `i`. */
  function PriceAt(line: string, i: int): (r: Option<Span>)
    ensures r.Some? ==> 0 <= r.value.start < r.value.end <= |line|
    ensures r.Some? ==> MoneyShape(line[r.value.start..r.value.end])
  {
    if 0 <= i <= |line| then
      GapMatchBody(line, i, BeforePrice, Money);
      GapMatch(line, i, BeforePrice, Money)
    else None
  }

  /** `re.search(r'[\$€£]?\s*(\d+[.,]\d{2})', line).group(1)` */
  function UnitPrice(line: string): (r: Option<string>)
    ensures r.Some? ==> MoneyShape(r.value)
    ensures r.None? <==> forall i :: 0 <= i <= |line| ==> PriceAt(line, i).None?
  {
    var at := k => PriceAt(line, k);
    match Leftmost(|line|, at)
    case None =>
      assert forall i :: 0 <= i <= |line| ==> PriceAt(line, i).None? by {
        LeftmostNone(|line|, at);
        forall i | 0 <= i <= |line| ensures PriceAt(line, i).None? {
          assert at(i).None?;
        }
      }
      None
    case Some(sp) =>
      assert sp.start < sp.end <= |line| && MoneyShape(line[sp.start..sp.end]) by {
        LeftmostAt(|line|, at);
      }
      Some(line[sp.start..sp.end])
  }

  /** The unit price is the first amount on the line. */
  lemma UnitPriceLeftmost(line: string, i: nat)
    requires i <= |line| && PriceAt(line, i).Some?
    requires forall j :: 0 <= j < i ==> PriceAt(line, j).None?
    ensures UnitPrice(line) == Some(line[PriceAt(line, i).value.start..PriceAt(line, i).value.end])
  {
    var at := k => PriceAt(line, k);
    LeftmostPicks(|line|, at, i);
  }

  /** `\s+\d+\s*x` at `e` (each run is maximal, for the same reason as in `TimesAt`). */
  predicate SuffixAt(line: string, e: nat)
    requires e <= |line|
  {
    var a := RunOf(line, e, IsSpace);
    var b := RunOf(line, e + a, IsDigit);
    var c := RunOf(line, e + a + b, IsSpace);
    a >= 1 && b >= 1 && e + a + b + c < |line| && line[e + a + b + c] == 'x'
  }

  /** `.` may take the character before `e`: it is there and is not a newline. */
  predicate DotBefore(line: string, e: nat) {
    1 <= e <= |line| && line[e - 1] != '\n'
  }

  /** The suffix `\s+\d+\s*x` follows position `e`. */
  predicate SuffixFrom(line: string, e: nat) {
    e <= |line| && SuffixAt(line, e)
  }

  /** The lazy `.+?` of the description: the shortest group `line[i..e]`, with
      `e >= lo`, that the suffix follows; `.` does not cross a newline. */
  function LazyEnd(line: string, i: nat, lo: nat): (r: Option<Span>)
    ensures r.Some? ==> r.value.start == i && lo <= r.value.end <= |line| && SuffixAt(line, r.value.end)
    ensures r.Some? ==> forall e :: lo <= e < r.value.end ==> !SuffixFrom(line, e)
    ensures r.Some? ==> forall e :: lo <= e <= r.value.end ==> DotBefore(line, e)
  {
    match ScanUp(lo, |line|, (e: nat) => DotBefore(line, e), (e: nat) => SuffixFrom(line, e))
    case None => None
    case Some(end) =>
      LazyScan(line, lo, end);
      Some(Span(i, end))
  }

  /** What the scan behind `LazyEnd` establishes about the end it stops at. */
  lemma LazyScan(line: string, lo: nat, end: nat)
    requires ScanUp(lo, |line|, (e: nat) => DotBefore(line, e), (e: nat) => SuffixFrom(line, e)) == Some(end)
    ensures lo <= end <= |line| && SuffixAt(line, end)
    ensures forall e :: lo <= e < end ==> !SuffixFrom(line, e)
    ensures forall e :: lo <= e <= end ==> DotBefore(line, e)
  {
    var go := (e: nat) => DotBefore(line, e);
    var stop := (e: nat) => SuffixFrom(line, e);
    ScanUpFirst(lo, |line|, go, stop);
    assert go(end) && stop(end);
    forall e: nat | lo <= e < end ensures !SuffixFrom(line, e) && DotBefore(line, e) {
      assert !stop(e) && go(e);
    }
  }

  /** The description pattern at `i`: a letter, then at least one more character. */
  function DescriptionAt(line: string, i: int): (r: Option<Span>)
    ensures r.Some? ==> 0 <= r.value.start == i && i + 2 <= r.value.end <= |line|
    ensures r.Some? ==> IsAsciiLetter(line[i]) && SuffixAt(line, r.value.end)
  {
    if 0 <= i < |line| && IsAsciiLetter(line[i]) then LazyEnd(line, i, i + 2) else None
  }

  /** `re.search(r'([a-zA-Z].+?)\s+\d+\s*x', line).group(1)` */
  function ItemDescription(line: string): (r: Option<string>)
    ensures r.Some? ==> |r.value| >= 2 && IsAsciiLetter(r.value[0])
  {
    var at := k => DescriptionAt(line, k);
    match Leftmost(|line|, at)
    case None => None
    case Some(sp) =>
      LeftmostAt(|line|, at);
      Some(line[sp.start..sp.end])
  }

  /** The description starts at the first letter from which the lazy match succeeds. */
  lemma ItemDescriptionLeftmost(line: string, i: nat)
    requires i <= |line| && DescriptionAt(line, i).Some?
    requires forall j :: 0 <= j < i ==> DescriptionAt(line, j).None?
    ensures ItemDescription(line) == Some(line[i..DescriptionAt(line, i).value.end])
  {
    var at := k => DescriptionAt(line, k);
    LeftmostPicks(|line|, at, i);
  }

  /** The item built from the three captures. */
  function MakeItem(desc: Option<string>, qty: string, price: string): (r: LineItem)
    requires IsNumeral(qty) && MoneyShape(price)
    requires desc.Some? ==> |desc.value| >= 2 && IsAsciiLetter(desc.value[0])
    ensures r.totalPrice == r.unitPrice * r.quantity
    ensures r.description == UnknownItem || (|r.description| >= 2 && IsAsciiLetter(r.description[0]))
  {
    var q := DecimalValue(qty);
    var p := CaptureCents(price);
    LineItem(desc.GetOr(UnknownItem), q, p, p * q)
  }

  /** The item of one line, when it is an item line and both the quantity and the
      price are found. */
  function ItemOf(line: string): (r: Option<LineItem>)
    ensures r.Some? ==> r.value.totalPrice == r.value.unitPrice * r.value.quantity
    ensures r.Some? ==> r.value.description == UnknownItem
                        || (|r.value.description| >= 2 && IsAsciiLetter(r.value.description[0]))
    ensures r.Some? ==> IsItemLine(line)
  {
    var q := Quantity(line);
    var p := UnitPrice(line);
    if IsItemLine(line) && q.Some? && p.Some? then
      Some(MakeItem(ItemDescription(line), q.value, p.value))
    else None
  }

  /** The items of a list of lines, in order: the reference for `ExtractItems`. */
  function ItemsOf(lines: seq<string>): seq<LineItem> {
    FilterMap(lines, ItemOf)
  }

  /** The `if qty_match and price_match` test never fails on an item line: the item
      pattern contains the quantity pattern at the same place, and its price is a
      match of the price pattern. */
  lemma ItemLineHasItem(line: string)
    requires IsItemLine(line)
    ensures Quantity(line).Some? && UnitPrice(line).Some?
    ensures ItemOf(line) == Some(MakeItem(ItemDescription(line), Quantity(line).value, UnitPrice(line).value))
  {
    var at := k => ItemLineAt(line, k);
    LeftmostAt(|line|, at);
    var i :| 0 <= i <= |line| && at(i).Some?;
    var sp := ItemLineAt(line, i).value;
    var k := TimesAt(line, i).value.1;
    GapMatchBody(line, k, AfterTimes, Money);
    PriceAtMoney(line, sp);
  }

  /** Wherever a price `\d+[.,]\d{2}` starts, the unit-price pattern matches. */
  lemma PriceAtMoney(line: string, sp: Span)
    requires sp.start <= |line| && BodyAt(line, sp.start, Money) == Some(sp)
    ensures PriceAt(line, sp.start).Some?
  {
    var q := sp.start;
    assert IsDigit(line[q]) by {
      assert line[q..sp.end][..sp.end - q - 3][0] == line[q];
    }
    assert line[q] !in Currency;
    assert RunOf(line, q, IsSpace) == 0;
    assert GapMatch(line, q, [], Money) == Some(sp);
    assert SpacesThen(line, q, 0, [], Money) == Some(sp);
    assert [Spaces][1..] == [];
    assert GapMatch(line, q, [Spaces], Money) == Some(sp);
    assert BeforePrice[1..] == [Spaces];
    assert GapMatch(line, q, BeforePrice, Money) == Some(sp);
  }

  /** The item of an item line holds the quantity's value, the unit price's cents and
      the captured description, or `Unknown item` when none was captured. */
  lemma ItemFields(line: string)
    requires IsItemLine(line)
    ensures Quantity(line).Some? && UnitPrice(line).Some? && ItemOf(line).Some?
    ensures ItemOf(line).value.quantity == DecimalValue(Quantity(line).value)
    ensures ItemOf(line).value.unitPrice == CaptureCents(UnitPrice(line).value)
    ensures ItemOf(line).value.description == ItemDescription(line).GetOr(UnknownItem)
    ensures ItemOf(line).value.totalPrice == ItemOf(line).value.unitPrice * ItemOf(line).value.quantity
  {
    ItemLineHasItem(line);
  }

  /** Hence an item line always gives its item, and any other line gives none. */
  lemma ItemOfIff(line: string)
    ensures ItemOf(line).Some? <==> IsItemLine(line)
  {
    if IsItemLine(line) {
      ItemLineHasItem(line);
    }
  }

  /** The number of item lines. */
  function ItemLineCount(lines: seq<string>): nat {
    if |lines| == 0 then 0 else (if IsItemLine(lines[0]) then 1 else 0) + ItemLineCount(lines[1..])
  }

  /** One item per item line. */
  lemma {:induction false} ItemsOfCount(lines: seq<string>)
    ensures |ItemsOf(lines)| == ItemLineCount(lines)
  {
    if |lines| > 0 {
      ItemOfIff(lines[0]);
      ItemsOfCount(lines[1..]);
    }
  }

  /** Lines that are not item lines do not affect the items. */
  lemma OtherLinesIgnored(a: seq<string>, line: string, b: seq<string>)
    requires !IsItemLine(line)
    ensures ItemsOf(a + [line] + b) == ItemsOf(a + b)
  {
    FilterMapDrops(a, line, b, ItemOf);
  }

  /** The item under construction, as the list it will contribute. */
  function Pending(current: Option<LineItem>): seq<LineItem> {
    if current.Some? then [current.value] else []
  }

  /** One turn of the loop of `extract_items` on `line`: an item line flushes the
      item under construction and starts its own. */
  method ItemStep(line: string, items: seq<LineItem>, current: Option<LineItem>)
    returns (items': seq<LineItem>, current': Option<LineItem>)
    ensures items' + Pending(current') == items + Pending(current) + Pending(ItemOf(line))
  {
    items', current' := items, current;
    if IsItemLine(line) {
      ItemLineHasItem(line);
      items' := items + Pending(current);
      current' := None;
      var qty := Quantity(line);
      var price := UnitPrice(line);
      if qty.Some? && price.Some? {
        current' := Some(MakeItem(ItemDescription(line), qty.value, price.value));
      }
      assert Pending(current') == Pending(ItemOf(line));
    } else {
      ItemOfIff(line);
      assert Pending(ItemOf(line)) == [];
    }
  }

  /** The items of one more line. */
  lemma ItemsOfPrefix(lines: seq<string>, i: nat)
    requires i < |lines|
    ensures ItemsOf(lines[..i + 1]) == ItemsOf(lines[..i]) + Pending(ItemOf(lines[i]))
  {
    assert lines[..i + 1] == lines[..i] + [lines[i]];
    FilterMapSnoc(lines[..i], lines[i], ItemOf);
  }

  /** `extract_items`: the loop of the source, which keeps the item under construction
      in `current` and appends it when the next item line starts or the text ends. */
  method ExtractItems(text: string) returns (items: seq<LineItem>)
    ensures items == ItemsOf(Split(text, '\n'))
  {
    var lines := Split(text, '\n');
    items := [];
    var current: Option<LineItem> := None;
    var i := 0;
    while i < |lines|
      invariant 0 <= i <= |lines|
      invariant items + Pending(current) == ItemsOf(lines[..i])
    {
      ItemsOfPrefix(lines, i);
      items, current := ItemStep(lines[i], items, current);
      i := i + 1;
    }
    items := items + Pending(current);
    assert lines[..|lines|] == lines;
  }
}

=== FILE: matching.dfy ===
/** What it means for a field pattern to match, stated without search order, and the
    proof that the matchers of `Patterns` find a match exactly when one exists.

    A match of `Label GAP (BODY)` starting at `i` is a split `i <= e <= q < end` of the
    text where `text[i..e]` spells the label, `text[e..q]` is something the gap steps
    can consume and `text[q..end]` has the body's shape. `re.search` succeeds exactly
    when such a split exists; which split it reports is the backtracking order that
    `Patterns` follows, and the capture it reports is always one of these. */
module Matching {
  import opened Wrappers
  import opened Text
  import opened Choice
  import opened Patterns

  /** `text[p..k]` is whitespace. */
  predicate AllSpace(text: string, p: nat, k: nat)
    requires p <= k <= |text|
  {
    forall j :: p <= j < k ==> IsSpace(text[j])
  }

  /** `text[p..q]` is what `gap` can consume: each `\s*` some whitespace, each
      `[cs]?` nothing or one character of `cs`. */
  ghost predicate GapSpan(text: string, p: nat, q: nat, gap: seq<GapStep>)
    decreases |gap|
  {
    && p <= q <= |text|
    && if |gap| == 0 then p == q
       else match gap[0]
         case Spaces =>
           exists k :: p <= k <= q && AllSpace(text, p, k) && GapSpan(text, k, q, gap[1..])
         case Maybe(cs) =>
           || GapSpan(text, p, q, gap[1..])
           || (p < q && text[p] in cs && GapSpan(text, p + 1, q, gap[1..]))
  }

  /** `text[i..e]` spells the label: its words, ignoring ASCII case, separated by
      whitespace. */
  ghost predicate LabelSpan(text: string, i: nat, e: nat, words: seq<string>)
    decreases |words|
  {
    && i <= e <= |text|
    && if |words| == 0 then i == e
       else
         && WordAt(text, i, words[0])
         && if |words| == 1 then e == i + |words[0]|
            else exists k :: i + |words[0]| <= k <= e && AllSpace(text, i + |words[0]|, k)
                             && LabelSpan(text, k, e, words[1..])
  }

  /** `text[q..end]` is a capture the body can make. */
  ghost predicate BodySpan(text: string, q: nat, end: nat, body: Body) {
    q < end <= |text| && Shaped(text[q..end], body)
  }

  /** The pattern matches at `i`. */
  ghost predicate MatchesAt(text: string, pat: Pattern, i: nat) {
    exists e, q, end :: LabelSpan(text, i, e, pat.words) && GapSpan(text, e, q, pat.gap)
                        && BodySpan(text, q, end, pat.body)
  }

  /** The label words of the extractor's patterns: non-empty and made of ASCII
      letters. */
  predicate WellFormed(pat: Pattern) {
    forall n :: 0 <= n < |pat.words| ==> IsLabelWord(pat.words[n])
  }

  predicate IsLabelWord(w: string) {
    |w| >= 1 && forall k :: 0 <= k < |w| ==> IsAsciiLetter(w[k])
  }

  /** A run covers every prefix of characters that satisfy `p`. */
  lemma {:induction false} RunOfAtLeast(text: string, i: nat, p: char -> bool, m: nat)
    requires i + m <= |text|
    requires forall k :: i <= k < i + m ==> p(text[k])
    ensures RunOf(text, i, p) >= m
    decreases m
  {
    if m > 0 {
      RunOfAtLeast(text, i + 1, p, m - 1);
    }
  }

  // ---- labels ----

  lemma {:induction false} LabelEndSound(text: string, i: nat, words: seq<string>)
    requires i <= |text| && LabelEnd(text, i, words).Some?
    ensures LabelSpan(text, i, LabelEnd(text, i, words).value, words)
    decreases |words|
  {
    if |words| > 1 {
      var j := i + |words[0]|;
      var k := j + RunOf(text, j, IsSpace);
      LabelEndSound(text, k, words[1..]);
      assert AllSpace(text, j, k);
    }
  }

  lemma {:induction false} LabelEndComplete(text: string, i: nat, e: nat, words: seq<string>)
    requires forall n :: 0 <= n < |words| ==> IsLabelWord(words[n])
    requires LabelSpan(text, i, e, words)
    ensures LabelEnd(text, i, words) == Some(e)
    decreases |words|
  {
    if |words| > 1 {
      var j := i + |words[0]|;
      var k :| j <= k <= e && AllSpace(text, j, k) && LabelSpan(text, k, e, words[1..]);
      assert IsLabelWord(words[1]);
      WordStartNotSpace(text, k, words[1]);
      RunOfUnique(text, j, IsSpace, k - j);
      assert forall n :: 0 <= n < |words[1..]| ==> IsLabelWord(words[1..][n]);
      LabelEndComplete(text, k, e, words[1..]);
    }
  }

  /** A label word begins with a letter, never with whitespace. */
  lemma WordStartNotSpace(text: string, k: nat, w: string)
    requires IsLabelWord(w) && WordAt(text, k, w)
    ensures k < |text| && !IsSpace(text[k])
  {
    assert Lower(text[k + 0]) == Lower(w[0]);
    assert IsAsciiLetter(w[0]);
  }

  // ---- gaps ----

  lemma {:induction false} GapMatchSound(text: string, pos: nat, gap: seq<GapStep>, body: Body)
    requires pos <= |text| && GapMatch(text, pos, gap, body).Some?
    ensures GapSpan(text, pos, GapMatch(text, pos, gap, body).value.start, gap)
    decreases |gap|, 1, 0
  {
    var r := GapMatch(text, pos, gap, body);
    if |gap| > 0 {
      match gap[0]
      case Spaces =>
        var n := RunOf(text, pos, IsSpace);
        SpacesThenSound(text, pos, n, gap[1..], body);
        var m :| pos <= m <= pos + n && GapMatch(text, m, gap[1..], body) == r;
        GapMatchSound(text, m, gap[1..], body);
        assert AllSpace(text, pos, m);
      case Maybe(cs) =>
        if pos < |text| && text[pos] in cs && GapMatch(text, pos + 1, gap[1..], body).Some? {
          GapMatchSound(text, pos + 1, gap[1..], body);
        } else {
          GapMatchSound(text, pos, gap[1..], body);
        }
    }
  }

  lemma {:induction false} SpacesThenSound(text: string, pos: nat, k: nat, rest: seq<GapStep>, body: Body)
    requires pos + k <= |text| && SpacesThen(text, pos, k, rest, body).Some?
    ensures exists m :: pos <= m <= pos + k && GapMatch(text, m, rest, body) == SpacesThen(text, pos, k, rest, body)
    decreases |rest| + 1, 0, k
  {
    if GapMatch(text, pos + k, rest, body).None? {
      SpacesThenSound(text, pos, k - 1, rest, body);
    }
  }

  lemma {:induction false} GapMatchComplete(text: string, p: nat, q: nat, gap: seq<GapStep>, body: Body)
    requires GapSpan(text, p, q, gap) && BodyAt(text, q, body).Some?
    ensures GapMatch(text, p, gap, body).Some?
    decreases |gap|
  {
    if |gap| > 0 {
      match gap[0]
      case Spaces =>
        var k :| p <= k <= q && AllSpace(text, p, k) && GapSpan(text, k, q, gap[1..]);
        GapMatchComplete(text, k, q, gap[1..], body);
        SpacesComplete(text, p, k, gap[1..], body);
      case Maybe(cs) =>
        if GapSpan(text, p, q, gap[1..]) {
          GapMatchComplete(text, p, q, gap[1..], body);
        } else {
          GapMatchComplete(text, p + 1, q, gap[1..], body);
        }
    }
  }

  /** A `\s*` at `p` finds a match when one exists after some whitespace prefix. */
  lemma SpacesComplete(text: string, p: nat, k: nat, rest: seq<GapStep>, body: Body)
    requires p <= k <= |text| && AllSpace(text, p, k)
    requires GapMatch(text, k, rest, body).Some?
    ensures GapMatch(text, p, [Spaces] + rest, body).Some?
  {
    var n := RunOf(text, p, IsSpace);
    RunOfAtLeast(text, p, IsSpace, k - p);
    SpacesThenComplete(text, p, n, k - p, rest, body);
    assert ([Spaces] + rest)[1..] == rest;
  }

  /** A `\s*` that may give back down to `j` characters finds the match at `j` if
      nothing longer works. */
  lemma {:induction false} SpacesThenComplete(text: string, pos: nat, k: nat, j: nat, rest: seq<GapStep>, body: Body)
    requires j <= k && pos + k <= |text|
    requires GapMatch(text, pos + j, rest, body).Some?
    ensures SpacesThen(text, pos, k, rest, body).Some?
    decreases k
  {
    if k > j && GapMatch(text, pos + k, rest, body).None? {
      SpacesThenComplete(text, pos, k - 1, j, rest, body);
      SpacesThenStep(text, pos, k, rest, body);
    } else {
      SpacesThenStep(text, pos, k, rest, body);
    }
  }

  // ---- bodies ----

  lemma BodyAtComplete(text: string, q: nat, end: nat, body: Body)
    requires BodySpan(text, q, end, body)
    ensures BodyAt(text, q, body).Some?
  {
    var s := text[q..end];
    assert s[0] == text[q];
    match body
    case Digits =>
      RunOfAtLeast(text, q, IsDigit, 1);
    case Word =>
      RunOfAtLeast(text, q, IsWordChar, 1);
    case RestOfLine =>
      assert s[0] in s;
      RunOfAtLeast(text, q, NotNewline, 1);
    case Money =>
      MoneyAtComplete(text, q, end);
    case DateLike =>
      DateAtComplete(text, q, end);
  }

  lemma MoneyAtComplete(text: string, q: nat, end: nat)
    requires q < end <= |text| && MoneyShape(text[q..end])
    ensures MoneyAt(text, q).Some?
  {
    var s := text[q..end];
    var n := |s| - 3;
    assert forall k :: q <= k < q + n ==> IsDigit(text[k]) by {
      forall k | q <= k < q + n ensures IsDigit(text[k]) {
        assert s[..n][k - q] == text[k];
      }
    }
    assert text[q + n] == s[n];
    assert text[q + n + 1] == s[n + 1] && text[q + n + 2] == s[n + 2];
    RunOfUnique(text, q, IsDigit, n);
  }

  lemma DateAtComplete(text: string, q: nat, end: nat)
    requires q < end <= |text| && DateShape(text[q..end])
    ensures DateLikeAt(text, q).Some?
  {
    var s := text[q..end];
    var a := RunOf(s, 0, IsDigit);
    var b := RunOf(s, a + 1, IsDigit);
    DateAtFromSlice(text, q, end, a, b);
  }

  lemma DateAtFromSlice(text: string, q: nat, end: nat, a: nat, b: nat)
    requires q + a + b + 4 <= end <= |text|
    requires a == RunOf(text[q..end], 0, IsDigit) && 1 <= a <= 2 && text[q..end][a] in "-/"
    requires b == RunOf(text[q..end], a + 1, IsDigit) && 1 <= b <= 2 && text[q..end][a + 1 + b] in "-/"
    requires IsNumeral(text[q..end][a + b + 2..])
    ensures DateLikeAt(text, q).Some?
  {
    DateSeparators(text, q, end, a, b);
    var y := end - q - (a + b + 2);
    assert RunOf(text, q + a + b + 2, IsDigit) >= y by {
      TailDigits(text, q, end, a + b + 2);
      RunOfAtLeast(text, q + a + b + 2, IsDigit, y);
    }
    DateLikeAtRuns(text, q, a, b, y);
  }

  /** The day and month runs and the separators after them, read off the slice. */
  lemma DateSeparators(text: string, q: nat, end: nat, a: nat, b: nat)
    requires q + a + b + 4 <= end <= |text|
    requires a == RunOf(text[q..end], 0, IsDigit) && text[q..end][a] in "-/"
    requires b == RunOf(text[q..end], a + 1, IsDigit) && text[q..end][a + 1 + b] in "-/"
    ensures RunOf(text, q, IsDigit) == a && RunOf(text, q + a + 1, IsDigit) == b
    ensures text[q + a] in "-/" && text[q + a + 1 + b] in "-/"
  {
    RunOfFromSlice(text, q, end, q, IsDigit);
    RunOfFromSlice(text, q, end, q + a + 1, IsDigit);
    assert text[q + a] == text[q..end][a];
    assert text[q + a + 1 + b] == text[q..end][a + 1 + b];
  }

  /** A run measured in a slice that ends before the slice does is the run in the
      text. */
  lemma RunOfFromSlice(text: string, lo: nat, hi: nat, i: nat, p: char -> bool)
    requires lo <= i <= hi <= |text|
    requires i + RunOf(text[lo..hi], i - lo, p) < hi
    ensures RunOf(text, i, p) == RunOf(text[lo..hi], i - lo, p)
  {
    var s := text[lo..hi];
    var n := RunOf(s, i - lo, p);
    forall k | i <= k < i + n ensures p(text[k]) {
      assert text[k] == s[k - lo];
    }
    assert text[i + n] == s[i - lo + n];
    RunOfUnique(text, i, p, n);
  }

  /** The digits that end a slice are digits of the text. */
  lemma TailDigits(text: string, lo: nat, hi: nat, t: nat)
    requires lo + t <= hi <= |text| && IsNumeral(text[lo..hi][t..])
    ensures forall k :: lo + t <= k < hi ==> IsDigit(text[k])
  {
    forall k | lo + t <= k < hi ensures IsDigit(text[k]) {
      assert text[lo..hi][t..][k - lo - t] == text[k];
    }
  }

  /** `DateLikeAt` succeeds once its three digit runs and two separators are there. */
  lemma DateLikeAtRuns(text: string, q: nat, a: nat, b: nat, y: nat)
    requires q + a + 1 + b < |text|
    requires RunOf(text, q, IsDigit) == a && 1 <= a <= 2 && text[q + a] in "-/"
    requires RunOf(text, q + a + 1, IsDigit) == b && 1 <= b <= 2 && text[q + a + 1 + b] in "-/"
    requires RunOf(text, q + a + b + 2, IsDigit) >= y >= 2
    ensures DateLikeAt(text, q).Some?
  {
  }

  // ---- whole patterns ----

  /** The capture `MatchAt` reports is the body part of a genuine match. */
  lemma MatchAtSound(text: string, pat: Pattern, i: nat)
    requires MatchAt(text, pat, i).Some?
    ensures var sp := MatchAt(text, pat, i).value;
            exists e :: LabelSpan(text, i, e, pat.words) && GapSpan(text, e, sp.start, pat.gap)
                        && BodySpan(text, sp.start, sp.end, pat.body)
  {
    var e := LabelEnd(text, i, pat.words).value;
    LabelEndSound(text, i, pat.words);
    GapMatchSound(text, e, pat.gap, pat.body);
  }

  /** `MatchAt` succeeds at `i` exactly when the pattern matches there. */
  lemma MatchAtIff(text: string, pat: Pattern, i: nat)
    requires WellFormed(pat)
    ensures MatchAt(text, pat, i).Some? <==> i <= |text| && MatchesAt(text, pat, i)
  {
    if MatchAt(text, pat, i).Some? {
      MatchAtSound(text, pat, i);
      var sp := MatchAt(text, pat, i).value;
      var e :| LabelSpan(text, i, e, pat.words) && GapSpan(text, e, sp.start, pat.gap)
               && BodySpan(text, sp.start, sp.end, pat.body);
      assert MatchesAt(text, pat, i);
    }
    if i <= |text| && MatchesAt(text, pat, i) {
      var e, q, end :| LabelSpan(text, i, e, pat.words) && GapSpan(text, e, q, pat.gap)
                       && BodySpan(text, q, end, pat.body);
      LabelEndComplete(text, i, e, pat.words);
      BodyAtComplete(text, q, end, pat.body);
      GapMatchComplete(text, e, q, pat.gap, pat.body);
    }
  }

  /** `re.search` finds something exactly when the pattern matches somewhere. */
  lemma SearchIff(text: string, pat: Pattern)
    requires WellFormed(pat)
    ensures Search(text, pat).Some? <==> exists i :: 0 <= i <= |text| && MatchesAt(text, pat, i)
  {
    forall i | 0 <= i <= |text| {
      MatchAtIff(text, pat, i);
    }
  }

  /** The match `re.search` reports is the leftmost: it starts at `i` when the pattern
      matches at `i` and nowhere before. */
  lemma SearchLeftmost(text: string, pat: Pattern, i: nat)
    requires WellFormed(pat) && i <= |text| && MatchesAt(text, pat, i)
    requires forall j :: 0 <= j < i ==> !MatchesAt(text, pat, j)
    ensures MatchAt(text, pat, i).Some?
    ensures Search(text, pat) == Some(text[MatchAt(text, pat, i).value.start..MatchAt(text, pat, i).value.end])
  {
    MatchAtIff(text, pat, i);
    forall j | 0 <= j < i ensures MatchAt(text, pat, j).None? {
      MatchAtIff(text, pat, j);
    }
    SearchAt(text, pat, i);
  }

  /** `re.search` reports the match at the first start position where `MatchAt`
      succeeds. */
  lemma SearchAt(text: string, pat: Pattern, i: nat)
    requires i <= |text| && MatchAt(text, pat, i).Some?
    requires forall j :: 0 <= j < i ==> MatchAt(text, pat, j).None?
    ensures Search(text, pat) == Some(text[MatchAt(text, pat, i).value.start..MatchAt(text, pat, i).value.end])
  {
    var at := k => MatchAt(text, pat, k);
    var ps := Positions(|text|);
    assert FirstHit(ps, at, i) by {
      assert ps[i] == i;
      forall j | 0 <= j < i ensures at(ps[j]).None? {
        assert ps[j] == j;
      }
    }
    FirstSomePicksFirstHit(ps, at, i);
  }
}

=== FILE: patterns.dfy ===
/** The regular expressions of the invoice extractor, as matchers over `seq<char>`.

    Every field pattern of the extractor has the shape `Label GAP (BODY)`:
    - the label is one or more words separated by `\s*` (`Invoice\s*Number`), matched
      ignoring ASCII case;
    - the gap is a short list of `\s*` and optional single characters
      (`\s*:?\s*`, `\s*#?\s*`, `\s*:?\s*[$€£]?\s*`);
    - the body is the capturing group.

    `re.search` returns the match that starts leftmost; at one start position it explores
    the gap in backtracking order: every `\s*` first consumes all the whitespace it can
    and gives it back one character at a time, every `?` first takes its character and
    then leaves it. `GapMatch` follows exactly that order. The label and the bodies need
    no search: a label word begins with a letter, so the `\s*` before it must take all
    the whitespace; and inside every body a greedy run that gave back a character would
    leave a digit (or word character) where the pattern needs a separator or an end.
    The bodies' matchers therefore compute the one match there is. */
module Patterns {
  import opened Wrappers
  import opened Text
  import opened Choice

  /** One element of a gap: `\s*`, or `[chars]?`. */
  datatype GapStep = Spaces | Maybe(chars: seq<char>)

  /** The capturing groups used by the extractor. */
  datatype Body =
    | Digits      // (\d+)
    | Word        // (\w+)
    | Money       // (\d+[.,]\d{2})
    | DateLike    // (\d{1,2}[-/]\d{1,2}[-/]\d{2,4})
    | RestOfLine  // ([^\n]+)

  datatype Pattern = Pattern(words: seq<string>, gap: seq<GapStep>, body: Body)

  /** The characters `text[start..end]` captured by a group. */
  datatype Span = Span(start: nat, end: nat)

  /** `[$€£]` */
  const Currency: seq<char> := ['$', '\U{20ac}', '\U{a3}']

  predicate NotNewline(c: char) {
    c != '\n'
  }

  /** The text a body captures has this shape. */
  predicate Shaped(s: string, body: Body) {
    match body
    case Digits => IsNumeral(s)
    case Word => |s| >= 1 && forall k :: 0 <= k < |s| ==> IsWordChar(s[k])
    case Money => MoneyShape(s)
    case DateLike => DateShape(s)
    case RestOfLine => |s| >= 1 && '\n' !in s
  }

  /** `\d+[.,]\d{2}`: digits, a point or a comma, then exactly two digits. */
  predicate MoneyShape(s: string) {
    && |s| >= 4
    && IsNumeral(s[..|s| - 3])
    && s[|s| - 3] in ".,"
    && IsDigit(s[|s| - 2]) && IsDigit(s[|s| - 1])
  }

  /** `\d{1,2}[-/]\d{1,2}[-/]\d{2,4}` matched in full. */
  predicate DateShape(s: string) {
    var a := RunOf(s, 0, IsDigit);
    && 1 <= a <= 2 && a < |s| && s[a] in "-/"
    && var b := RunOf(s, a + 1, IsDigit);
    && 1 <= b <= 2 && a + 1 + b < |s| && s[a + 1 + b] in "-/"
    && 2 <= |s| - (a + b + 2) <= 4
    && IsNumeral(s[a + b + 2..])
  }

  /** A run is determined by its end: the characters before satisfy `p` and the one at
      the end does not (or the text ends). */
  lemma {:induction false} RunOfUnique(text: string, i: nat, p: char -> bool, n: nat)
    requires i + n <= |text|
    requires forall k :: i <= k < i + n ==> p(text[k])
    requires i + n == |text| || !p(text[i + n])
    ensures RunOf(text, i, p) == n
    decreases n
  {
    if n > 0 {
      RunOfUnique(text, i + 1, p, n - 1);
    }
  }

  /** A run measured inside a slice of the text is the run measured in the text, as long
      as the slice does not cut it short. */
  lemma RunOfSlice(text: string, lo: nat, hi: nat, i: nat, p: char -> bool)
    requires lo <= i <= hi <= |text|
    requires i + RunOf(text, i, p) < hi
    ensures RunOf(text[lo..hi], i - lo, p) == RunOf(text, i, p)
  {
    var n := RunOf(text, i, p);
    var s := text[lo..hi];
    assert forall k :: i - lo <= k < i - lo + n ==> s[k] == text[k + lo];
    assert s[i - lo + n] == text[i + n];
    RunOfUnique(s, i - lo, p, n);
  }

  /** `w` appears at `i`, ignoring ASCII case. */
  predicate WordAt(text: string, i: nat, w: string) {
    i + |w| <= |text| && forall k :: 0 <= k < |w| ==> Lower(text[i + k]) == Lower(w[k])
  }

  /** Where a label `w1\s*w2\s*...` that starts at `i` ends, if it matches there. */
  function LabelEnd(text: string, i: nat, words: seq<string>): (r: Option<nat>)
    requires i <= |text|
    ensures r.Some? ==> i <= r.value <= |text|
    decreases |words|
  {
    if |words| == 0 then Some(i)
    else if !WordAt(text, i, words[0]) then None
    else if |words| == 1 then Some(i + |words[0]|)
    else
      var j := i + |words[0]|;
      LabelEnd(text, j + RunOf(text, j, IsSpace), words[1..])
  }

  /** The capture of `body` when the group starts at `q`. */
  function BodyAt(text: string, q: nat, body: Body): (r: Option<Span>)
    requires q <= |text|
    ensures r.Some? ==> r.value.start == q && q < r.value.end <= |text|
    ensures r.Some? ==> Shaped(text[q..r.value.end], body)
  {
    match body
    case Digits =>
      var n := RunOf(text, q, IsDigit);
      if n >= 1 then Some(Span(q, q + n)) else None
    case Word =>
      var n := RunOf(text, q, IsWordChar);
      if n >= 1 then Some(Span(q, q + n)) else None
    case RestOfLine =>
      var n := RunOf(text, q, NotNewline);
      if n >= 1 then
        LineRunHasNoNewline(text, q, n);
        Some(Span(q, q + n))
      else None
    case Money => MoneyAt(text, q)
    case DateLike => DateLikeAt(text, q)
  }

  /** `\d+[.,]\d{2}` at `q`. */
  function MoneyAt(text: string, q: nat): (r: Option<Span>)
    requires q <= |text|
    ensures r.Some? ==> r.value.start == q && q < r.value.end <= |text|
    ensures r.Some? ==> MoneyShape(text[q..r.value.end])
  {
    var n := RunOf(text, q, IsDigit);
    if n >= 1 && q + n + 2 < |text| && text[q + n] in ".,"
       && IsDigit(text[q + n + 1]) && IsDigit(text[q + n + 2])
    then
      assert text[q..q + n + 3][..n] == text[q..q + n];
      Some(Span(q, q + n + 3))
    else None
  }

  /** `\d{1,2}[-/]\d{1,2}[-/]\d{2,4}` at `q`. */
  function DateLikeAt(text: string, q: nat): (r: Option<Span>)
    requires q <= |text|
    ensures r.Some? ==> r.value.start == q && q < r.value.end <= |text|
    ensures r.Some? ==> DateShape(text[q..r.value.end])
  {
    var a := RunOf(text, q, IsDigit);
    if 1 <= a <= 2 && q + a < |text| && text[q + a] in "-/" then
      var b := RunOf(text, q + a + 1, IsDigit);
      if 1 <= b <= 2 && q + a + 1 + b < |text| && text[q + a + 1 + b] in "-/" then
        var y := RunOf(text, q + a + b + 2, IsDigit);
        if y >= 2 then
          var e := q + a + b + 2 + (if y > 4 then 4 else y);
          DateBodyShape(text, q, a, b, e);
          Some(Span(q, e))
        else None
      else None
    else None
  }

  lemma LineRunHasNoNewline(text: string, q: nat, n: nat)
    requires q + n <= |text|
    requires forall k :: q <= k < q + n ==> NotNewline(text[k])
    ensures '\n' !in text[q..q + n]
  {
  }

  lemma DateBodyShape(text: string, q: nat, a: nat, b: nat, e: nat)
    requires q + a + b + 4 <= e <= q + a + b + 6 && e <= |text|
    requires a == RunOf(text, q, IsDigit) && 1 <= a <= 2 && text[q + a] in "-/"
    requires b == RunOf(text, q + a + 1, IsDigit) && 1 <= b <= 2 && text[q + a + 1 + b] in "-/"
    requires forall k :: q + a + b + 2 <= k < e ==> IsDigit(text[k])
    ensures DateShape(text[q..e])
  {
    var s := text[q..e];
    assert RunOf(s, 0, IsDigit) == a by {
      RunOfSlice(text, q, e, q, IsDigit);
    }
    assert RunOf(s, a + 1, IsDigit) == b by {
      RunOfSlice(text, q, e, q + a + 1, IsDigit);
    }
    assert s[a] == text[q + a] && s[a + 1 + b] == text[q + a + 1 + b];
    assert IsNumeral(s[a + b + 2..]) by {
      var t := s[a + b + 2..];
      forall k | 0 <= k < |t| ensures IsDigit(t[k]) {
        assert t[k] == text[q + a + b + 2 + k];
      }
    }
    DateShapeOf(s, a, b);
  }

  /** `DateShape` from its parts: the day run, the month run and the year digits. */
  lemma DateShapeOf(s: string, a: nat, b: nat)
    requires a == RunOf(s, 0, IsDigit) && 1 <= a <= 2 && a < |s| && s[a] in "-/"
    requires b == RunOf(s, a + 1, IsDigit) && 1 <= b <= 2 && a + 1 + b < |s| && s[a + 1 + b] in "-/"
    requires 2 <= |s| - (a + b + 2) <= 4 && IsNumeral(s[a + b + 2..])
    ensures DateShape(s)
  {
  }

  /** The capture found by exploring `gap` from `pos` in backtracking order and then
      matching `body`. */
  function GapMatch(text: string, pos: nat, gap: seq<GapStep>, body: Body): (r: Option<Span>)
    requires pos <= |text|
    ensures r.Some? ==> pos <= r.value.start <= |text|
    decreases |gap|, 1, 0
  {
    if |gap| == 0 then BodyAt(text, pos, body)
    else match gap[0]
      case Spaces => SpacesThen(text, pos, RunOf(text, pos, IsSpace), gap[1..], body)
      case Maybe(chars) =>
        if pos < |text| && text[pos] in chars then
          match GapMatch(text, pos + 1, gap[1..], body)
          case Some(s) => Some(s)
          case None => GapMatch(text, pos, gap[1..], body)
        else GapMatch(text, pos, gap[1..], body)
  }

  /** A `\s*` that may consume `k` whitespace characters at `pos`: tries `k`, `k - 1`,
      ..., `0` of them, and for each the rest of the gap. */
  function SpacesThen(text: string, pos: nat, k: nat, rest: seq<GapStep>, body: Body): (r: Option<Span>)
    requires pos + k <= |text|
    ensures r.Some? ==> pos <= r.value.start <= |text|
    decreases |rest| + 1, 0, k
  {
    match GapMatch(text, pos + k, rest, body)
    case Some(s) => Some(s)
    case None => if k == 0 then None else SpacesThen(text, pos, k - 1, rest, body)
  }

  /** Whatever the gap exploration returns is the body's capture at its start. */
  lemma {:induction false} GapMatchBody(text: string, pos: nat, gap: seq<GapStep>, body: Body)
    requires pos <= |text|
    ensures var r := GapMatch(text, pos, gap, body);
            r.Some? ==> BodyAt(text, r.value.start, body) == r
    decreases |gap|, 1, 0
  {
    if |gap| > 0 {
      match gap[0]
      case Spaces =>
        SpacesThenBody(text, pos, RunOf(text, pos, IsSpace), gap[1..], body);
      case Maybe(chars) =>
        if pos < |text| && text[pos] in chars {
          GapMatchBody(text, pos + 1, gap[1..], body);
        }
        GapMatchBody(text, pos, gap[1..], body);
    }
  }

  lemma {:induction false} SpacesThenBody(text: string, pos: nat, k: nat, rest: seq<GapStep>, body: Body)
    requires pos + k <= |text|
    ensures var r := SpacesThen(text, pos, k, rest, body);
            r.Some? ==> BodyAt(text, r.value.start, body) == r
    decreases |rest| + 1, 0, k
  {
    SpacesThenStep(text, pos, k, rest, body);
    if GapMatch(text, pos + k, rest, body).Some? {
      GapMatchBody(text, pos + k, rest, body);
    } else if k > 0 {
      SpacesThenBody(text, pos, k - 1, rest, body);
    }
  }

  /** One step of `SpacesThen`: the longest whitespace run first, then one less. */
  lemma SpacesThenStep(text: string, pos: nat, k: nat, rest: seq<GapStep>, body: Body)
    requires pos + k <= |text|
    ensures GapMatch(text, pos + k, rest, body).Some? ==>
              SpacesThen(text, pos, k, rest, body) == GapMatch(text, pos + k, rest, body)
    ensures GapMatch(text, pos + k, rest, body).None? && k > 0 ==>
              SpacesThen(text, pos, k, rest, body) == SpacesThen(text, pos, k - 1, rest, body)
  {
  }

  /** The capture of `pat` when the match starts at position `i`. */
  function MatchAt(text: string, pat: Pattern, i: int): (r: Option<Span>)
    ensures r.Some? ==> 0 <= i <= r.value.start < r.value.end <= |text|
    ensures r.Some? ==> Shaped(text[r.value.start..r.value.end], pat.body)
  {
    if !(0 <= i <= |text|) then None
    else match LabelEnd(text, i, pat.words)
      case None => None
      case Some(e) =>
        GapMatchBody(text, e, pat.gap, pat.body);
        GapMatch(text, e, pat.gap, pat.body)
  }

  /** The start positions `re.search` tries, in the order it tries them. */
  function Positions(n: nat): (ps: seq<int>)
    ensures |ps| == n + 1
    ensures forall k :: 0 <= k < |ps| ==> ps[k] == k
  {
    seq(n + 1, k => k)
  }

  /** The leftmost match of `at` in a text of length `n`. */
  function Leftmost(n: nat, at: int -> Option<Span>): Option<Span> {
    FirstSome(Positions(n), at)
  }

  /** No position matches when there is no leftmost match. */
  lemma LeftmostNone(n: nat, at: int -> Option<Span>)
    requires Leftmost(n, at).None?
    ensures forall i :: 0 <= i <= n ==> at(i).None?
  {
    forall i | 0 <= i <= n ensures at(i).None? {
      assert Positions(n)[i] == i;
    }
  }

  /** There is no leftmost match when no position matches. */
  lemma NoneLeftmost(n: nat, at: int -> Option<Span>)
    requires forall i :: 0 <= i <= n ==> at(i).None?
    ensures Leftmost(n, at).None?
  {
    forall k | 0 <= k < |Positions(n)| ensures at(Positions(n)[k]).None? {
      assert Positions(n)[k] == k;
    }
  }

  /** A match with no match before it is the leftmost one. */
  lemma LeftmostPicks(n: nat, at: int -> Option<Span>, i: nat)
    requires i <= n && at(i).Some?
    requires forall j :: 0 <= j < i ==> at(j).None?
    ensures Leftmost(n, at) == at(i)
  {
    forall j | 0 <= j < i ensures at(Positions(n)[j]).None? {
      assert Positions(n)[j] == j;
    }
    assert Positions(n)[i] == i;
    FirstSomePicksFirstHit(Positions(n), at, i);
  }

  /** The leftmost match is a match at some position, and no earlier position
      matches. */
  lemma LeftmostAt(n: nat, at: int -> Option<Span>)
    requires Leftmost(n, at).Some?
    ensures exists i :: 0 <= i <= n && at(i) == Leftmost(n, at) && forall j :: 0 <= j < i ==> at(j).None?
  {
    var k :| FirstHit(Positions(n), at, k) && Leftmost(n, at) == at(Positions(n)[k]);
    forall j | 0 <= j < k ensures at(j).None? {
      assert Positions(n)[j] == j;
    }
  }

  /** `re.search(pattern, text, re.IGNORECASE).group(1)`, or `None` when nothing
      matches. */
  function Search(text: string, pat: Pattern): (r: Option<string>)
    ensures r.Some? ==> Shaped(r.value, pat.body)
    ensures r.None? <==> forall i :: 0 <= i <= |text| ==> MatchAt(text, pat, i).None?
  {
    var at := k => MatchAt(text, pat, k);
    match Leftmost(|text|, at)
    case None =>
      assert forall i :: 0 <= i <= |text| ==> MatchAt(text, pat, i).None? by {
        LeftmostNone(|text|, at);
        forall i | 0 <= i <= |text| ensures MatchAt(text, pat, i).None? {
          assert at(i).None?;
        }
      }
      None
    case Some(sp) =>
      assert sp.start <= sp.end <= |text| && Shaped(text[sp.start..sp.end], pat.body) by {
        LeftmostAt(|text|, at);
      }
      Some(text[sp.start..sp.end])
  }

  /** What `Search` returns is a piece of the text. */
  lemma SearchIsSlice(text: string, pat: Pattern) returns (a: nat, b: nat)
    requires Search(text, pat).Some?
    ensures a <= b <= |text| && Search(text, pat).value == text[a..b]
  {
    var at := k => MatchAt(text, pat, k);
    var sp := Leftmost(|text|, at).value;
    LeftmostAt(|text|, at);
    a, b := sp.start, sp.end;
  }
}

=== FILE: pyvalues.dfy ===
/** The Python values that flow through the chat and indexing services: chain
    outputs, source lists, request contexts and backend records. A dict is the list of
    its entries in insertion order, which is the order `dict.items()` visits them. */
module PyValues {
  import opened Wrappers
  import opened Text

  datatype Value =
    | Null                                               // None
    | Bool(b: bool)
    | Int(i: int)
    | Str(s: string)
    | List(elems: seq<Value>)
    | Dict(entries: seq<Entry>)
    | Doc(content: string, metadata: seq<Entry>)         // a LangChain document
    | Other(text: string)                                // any other object, with its str()

  /** One `key: value` pair of a dict; keys are strings throughout. */
  datatype Entry = Entry(key: string, val: Value)

  /** `bool(v)`; objects without `__bool__` or `__len__` are true. */
  predicate Truthy(v: Value) {
    match v
    case Null => false
    case Bool(b) => b
    case Int(i) => i != 0
    case Str(s) => |s| > 0
    case List(xs) => |xs| > 0
    case Dict(es) => |es| > 0
    case Doc(_, _) => true
    case Other(_) => true
  }

  /** The value stored under `key`, if there is one. */
  function Lookup(entries: seq<Entry>, key: string): (r: Option<Value>)
    ensures r.None? <==> forall k :: 0 <= k < |entries| ==> entries[k].key != key
    ensures r.Some? ==> exists k :: 0 <= k < |entries| && entries[k] == Entry(key, r.value)
  {
    if |entries| == 0 then None
    else if entries[0].key == key then Some(entries[0].val)
    else Lookup(entries[1..], key)
  }

  /** Entries in front with other keys do not change a lookup. */
  lemma {:induction false} LookupSkips(front: seq<Entry>, rest: seq<Entry>, key: string)
    requires forall k :: 0 <= k < |front| ==> front[k].key != key
    ensures Lookup(front + rest, key) == Lookup(rest, key)
    decreases |front|
  {
    if |front| > 0 {
      assert (front + rest)[0] == front[0];
      assert (front + rest)[1..] == front[1..] + rest;
      LookupSkips(front[1..], rest, key);
    } else {
      assert front + rest == rest;
    }
  }

  /** The value under a key is the value of the first entry with that key. */
  lemma {:induction false} LookupFirst(entries: seq<Entry>, k: nat)
    requires k < |entries|
    requires forall j :: 0 <= j < k ==> entries[j].key != entries[k].key
    ensures Lookup(entries, entries[k].key) == Some(entries[k].val)
  {
    if k > 0 {
      LookupFirst(entries[1..], k - 1);
    }
  }

  /** `d.get(key, default)` */
  function GetOr(entries: seq<Entry>, key: string, default: Value): Value {
    Lookup(entries, key).GetOr(default)
  }

  /** `d.get(key)` */
  function Get(entries: seq<Entry>, key: string): Value {
    GetOr(entries, key, Null)
  }

  /** `str(v)`: a string is itself, everything else is its `repr`. */
  function Show(v: Value): string {
    if v.Str? then v.s else Repr(v)
  }

  /** `repr(v)`, the form used inside containers. */
  function Repr(v: Value): string
    decreases v
  {
    match v
    case Null => "None"
    case Bool(b) => if b then "True" else "False"
    case Int(i) => if i < 0 then "-" + NatToString(-i) else NatToString(i)
    case Str(s) => "'" + s + "'"
    case List(xs) => "[" + ReprItems(xs) + "]"
    case Dict(es) => "{" + ReprEntries(es) + "}"
    case Doc(c, md) => "page_content='" + c + "' metadata={" + ReprEntries(md) + "}"
    case Other(t) => t
  }

  function ReprItems(xs: seq<Value>): string
    decreases xs
  {
    if |xs| == 0 then ""
    else if |xs| == 1 then Repr(xs[0])
    else Repr(xs[0]) + ", " + ReprItems(xs[1..])
  }

  function ReprEntries(es: seq<Entry>): string
    decreases es
  {
    if |es| == 0 then ""
    else
      var entry := "'" + es[0].key + "': " + Repr(es[0].val);
      if |es| == 1 then entry else entry + ", " + ReprEntries(es[1..])
  }

  /** Each entry's text is part of the dict's text, so the dict's text is longer than
      any string value the dict holds. */
  lemma {:induction false} ReprEntriesLonger(es: seq<Entry>, k: nat)
    requires k < |es| && es[k].val.Str?
    ensures |ReprEntries(es)| >= |es[k].val.s| + 6
    decreases es
  {
    if k > 0 {
      ReprEntriesLonger(es[1..], k - 1);
    }
  }

  /** A string held by a dict is never the dict's `str`. */
  lemma HeldStringIsNotDictText(es: seq<Entry>, k: nat)
    requires k < |es| && es[k].val.Str?
    ensures es[k].val != Str(Show(Dict(es)))
  {
    ReprEntriesLonger(es, k);
  }
}

=== FILE: temp_chat_service.dfy ===
/** The earlier copy of the chat service (rag_chatbot `temp_chat_service.py`). Its
    context rendering and id handling are the main service's, line for line; it
    differs in two places. It reads `response["answer"]` and `response["sources"]`
    directly, so a missing key or an output that is not a dict raises. Its
    `_process_sources` splits a string and reaches the `except` branch for anything
    else. */
module TempChatService {
  import opened Wrappers
  import opened Text
  import opened Choice
  import opened PyValues
  import opened ChatService

  /** Why `process_query` raises: a missing key, or an output that cannot be indexed by
      a string. */
  datatype Fault = KeyError(key: string) | NotSubscriptable

  /** `_process_sources` of the earlier copy: only a string has `split`; any other value
      raises inside the `try`, and the `except` returns an empty list. */
  function TempProcessSources(sources: Value): (r: seq<Source>)
    ensures !sources.Str? ==> r == []
    ensures sources.Str? ==> |r| <= Count(sources.s, '\n') + 1
  {
    match sources
    case Str(s) =>
      SplitLength(s, '\n');
      FilterMap(Split(s, '\n'), LineSource)
    case _ => []
  }

  /** On a string, the two versions of `_process_sources` agree. */
  lemma StringSourcesAgree(sources: Value)
    requires sources.Str?
    ensures TempProcessSources(sources) == ProcessSources(sources)
  {
  }

  /** A list of sources: the main service keeps its documents and strings, the earlier
      copy keeps nothing. */
  lemma ListSourcesDiffer(items: seq<Value>, k: nat)
    requires k < |items| && (items[k].Doc? || items[k].Str?)
    ensures TempProcessSources(List(items)) == []
    ensures |ProcessSources(List(items))| >= 1
  {
    FilterMapPosition(items, ItemSource, k);
  }

  /** `process_query` of the earlier copy: no empty-query check; the answer and the
      sources are read straight from the chain's output. */
  function TempProcessQuery(query: string, conversationId: Option<string>, context: Option<seq<Entry>>,
                            chain: string -> Value, newId: string): (r: Result<Reply, Fault>)
    ensures r.Ok? ==> r.value.conversationId == IdOr(conversationId, newId)
    ensures r.Ok? <==> chain(EnhanceQuery(query, context)).Dict?
                       && Lookup(chain(EnhanceQuery(query, context)).entries, "answer").Some?
                       && Lookup(chain(EnhanceQuery(query, context)).entries, "sources").Some?
    ensures r.Ok? ==> var entries := chain(EnhanceQuery(query, context)).entries;
                      && r.value.response == Lookup(entries, "answer").value
                      && r.value.sources == TempProcessSources(Lookup(entries, "sources").value)
  {
    var id := IdOr(conversationId, newId);
    match chain(EnhanceQuery(query, context))
    case Dict(entries) =>
      (match Lookup(entries, "answer")
       case None => Err(KeyError("answer"))
       case Some(answer) =>
         match Lookup(entries, "sources")
         case None => Err(KeyError("sources"))
         case Some(sources) => Ok(Reply(answer, TempProcessSources(sources), id)))
    case _ => Err(NotSubscriptable)
  }

  /** The answer key is read first: without it the call raises `KeyError('answer')`
      whatever else the output holds; the main service answers regardless. */
  lemma MissingAnswerRaises(query: string, conversationId: Option<string>, context: Option<seq<Entry>>,
                            chain: string -> Value, newId: string)
    requires chain(EnhanceQuery(query, context)).Dict?
    requires Lookup(chain(EnhanceQuery(query, context)).entries, "answer").None?
    ensures TempProcessQuery(query, conversationId, context, chain, newId) == Err(KeyError("answer"))
  {
  }

  /** Where both versions answer a non-empty query whose output holds a truthy answer
      and a truthy string of sources, they give the same reply. */
  lemma VersionsAgree(query: string, conversationId: Option<string>, context: Option<seq<Entry>>,
                      chain: string -> Value, newId: string)
    requires !IsBlank(query)
    requires chain(EnhanceQuery(query, context)).Dict?
    requires var entries := chain(EnhanceQuery(query, context)).entries;
             && Lookup(entries, "answer").Some? && Truthy(Lookup(entries, "answer").value)
             && Lookup(entries, "sources").Some? && Lookup(entries, "sources").value.Str?
             && Truthy(Lookup(entries, "sources").value)
    ensures TempProcessQuery(query, conversationId, context, chain, newId)
              == Ok(ProcessQuery(query, conversationId, context, chain, newId))
  {
    var entries := chain(EnhanceQuery(query, context)).entries;
    DictReply(query, conversationId, context, chain, newId);
    FirstTruthyHead(entries, AnswerKeys);
    FirstTruthyHead(entries, SourceKeys);
  }

  /** A blank query is not short-circuited: it goes to the chain, and whatever answer
      the chain gives is returned, where the main service returns its fixed message. */
  lemma BlankQueryReachesChain(query: string, conversationId: Option<string>, context: Option<seq<Entry>>,
                               chain: string -> Value, newId: string, answer: Value, sources: Value)
    requires IsBlank(query)
    requires chain(EnhanceQuery(query, context)) == Dict([Entry("answer", answer), Entry("sources", sources)])
    ensures TempProcessQuery(query, conversationId, context, chain, newId)
              == Ok(Reply(answer, TempProcessSources(sources), IdOr(conversationId, newId)))
    ensures ProcessQuery(query, conversationId, context, chain, newId).response == Str(EmptyQueryMessage)
  {
    var entries := [Entry("answer", answer), Entry("sources", sources)];
    LookupFirst(entries, 0);
    LookupFirst(entries, 1);
  }
}

=== FILE: text.dfy ===
/** Characters and strings as Python sees them: the `\s`, `\d`, `\w` classes of `re`,
    `str.strip`, `str.split` on one character, `sep.join`, and decimal numerals. */
module Text {
  import opened Wrappers

  /** Python's `str.isspace` for one character, which is also what `\s` matches in a
      `str` pattern: the ASCII whitespace and separator controls plus the Unicode
      space characters. */
  predicate IsSpace(c: char) {
    || c == ' '
    || ('\t' <= c <= '\r')
    || ('\U{1c}' <= c <= '\U{1f}')
    || c == '\U{85}' || c == '\U{a0}' || c == '\U{1680}'
    || ('\U{2000}' <= c <= '\U{200a}')
    || c == '\U{2028}' || c == '\U{2029}' || c == '\U{202f}' || c == '\U{205f}'
    || c == '\U{3000}'
  }

  /** `\d`, restricted to the ASCII digits. */
  predicate IsDigit(c: char) {
    '0' <= c <= '9'
  }

  /** `[a-zA-Z]`. */
  predicate IsAsciiLetter(c: char) {
    ('a' <= c <= 'z') || ('A' <= c <= 'Z')
  }

  /** `\w`, restricted to ASCII letters, digits and the underscore. */
  predicate IsWordChar(c: char) {
    IsAsciiLetter(c) || IsDigit(c) || c == '_'
  }

  /** ASCII case folding, as `re.IGNORECASE` applies it to ASCII letters. */
  function Lower(c: char): (r: char)
    ensures IsAsciiLetter(c) <==> IsAsciiLetter(r)
    ensures !('A' <= r <= 'Z')
  {
    if 'A' <= c <= 'Z' then (c as int + 32) as char else c
  }

  /** Every character of `s` is whitespace (`not s.strip()` in Python). */
  predicate IsBlank(s: string) {
    forall k :: 0 <= k < |s| ==> IsSpace(s[k])
  }

  /** Every character of `s` is an ASCII digit and there is at least one. */
  predicate IsNumeral(s: string) {
    |s| >= 1 && forall k :: 0 <= k < |s| ==> IsDigit(s[k])
  }

  /** The length of the longest run of characters satisfying `p` that starts at `i`:
      what a greedy `[...]*` consumes there. */
  function RunOf(text: string, i: nat, p: char -> bool): (n: nat)
    requires i <= |text|
    ensures i + n <= |text|
    ensures forall k :: i <= k < i + n ==> p(text[k])
    ensures i + n == |text| || !p(text[i + n])
    decreases |text| - i
  {
    if i < |text| && p(text[i]) then 1 + RunOf(text, i + 1, p) else 0
  }

  /** The index of the first occurrence of `c` in `s`. */
  function IndexOf(s: string, c: char): (r: Option<nat>)
    ensures r.None? <==> c !in s
    ensures r.Some? ==> r.value < |s| && s[r.value] == c && c !in s[..r.value]
  {
    if |s| == 0 then None
    else if s[0] == c then Some(0)
    else match IndexOf(s[1..], c)
      case None => None
      case Some(k) =>
        assert s[1..][..k] == s[1..k + 1];
        assert s[..k + 1] == [s[0]] + s[1..k + 1];
        Some(k + 1)
  }

  /** `s` cut around its `i`-th character. */
  lemma Around(s: string, i: nat)
    requires i < |s|
    ensures s == s[..i] + [s[i]] + s[i + 1..]
  {
  }

  /** The first occurrence of `c` in `a + [c] + b`, when `a` has none, is the one
      after `a`. */
  lemma IndexOfConcat(a: string, c: char, b: string)
    requires c !in a
    ensures IndexOf(a + [c] + b, c) == Some(|a|)
  {
    var s := a + [c] + b;
    assert s[|a|] == c;
    assert s[..|a|] == a;
  }

  /** `r` is `s` without its leading whitespace. */
  predicate LeftStripOf(s: string, r: string) {
    |r| <= |s| && r == s[|s| - |r|..] && IsBlank(s[..|s| - |r|]) && (r == [] || !IsSpace(r[0]))
  }

  /** `r` is `s` without its trailing whitespace. */
  predicate RightStripOf(s: string, r: string) {
    |r| <= |s| && r == s[..|r|] && IsBlank(s[|r|..]) && (r == [] || !IsSpace(r[|r| - 1]))
  }

  function StripLeft(s: string): (r: string)
    ensures LeftStripOf(s, r)
  {
    if |s| > 0 && IsSpace(s[0]) then
      var r := StripLeft(s[1..]);
      assert r == s[|s| - |r|..] by {
        assert s[1..][|s| - 1 - |r|..] == s[|s| - |r|..];
      }
      BlankCons(s, |s| - |r|);
      r
    else s
  }

  function StripRight(s: string): (r: string)
    ensures RightStripOf(s, r)
  {
    if |s| > 0 && IsSpace(s[|s| - 1]) then
      var r := StripRight(s[..|s| - 1]);
      BlankSnoc(s, |r|);
      r
    else s
  }

  /** A blank prefix grows by a leading space. */
  lemma BlankCons(s: string, n: nat)
    requires 1 <= n <= |s| && IsSpace(s[0]) && IsBlank(s[1..][..n - 1])
    ensures IsBlank(s[..n])
  {
    forall k | 1 <= k < n ensures IsSpace(s[..n][k]) {
      assert s[..n][k] == s[1..][..n - 1][k - 1];
    }
  }

  /** A blank suffix grows by a trailing space. */
  lemma BlankSnoc(s: string, n: nat)
    requires n < |s| && IsSpace(s[|s| - 1]) && IsBlank(s[..|s| - 1][n..])
    ensures IsBlank(s[n..])
  {
    forall k | 0 <= k < |s| - 1 - n ensures IsSpace(s[n..][k]) {
      assert s[n..][k] == s[..|s| - 1][n..][k];
    }
  }

  /** Python's `str.strip()`: `s` without its leading and trailing whitespace. */
  function Strip(s: string): (r: string)
    ensures exists a :: BlankAround(s, a, r)
    ensures Stripped(r)
    ensures r == [] <==> IsBlank(s)
    ensures forall c :: c in r ==> c in s
  {
    StripBothEnds(s);
    StripRight(StripLeft(s))
  }

  /** What stripping the left end and then the right end of `s` leaves. */
  lemma StripBothEnds(s: string)
    ensures exists a :: BlankAround(s, a, StripRight(StripLeft(s)))
    ensures Stripped(StripRight(StripLeft(s)))
    ensures StripRight(StripLeft(s)) == [] <==> IsBlank(s)
    ensures forall c :: c in StripRight(StripLeft(s)) ==> c in s
  {
    var l := StripLeft(s);
    StripWindow(s, l, StripRight(l));
  }

  /** `r` sits at `a` in `s` with only whitespace before and after it. */
  predicate BlankAround(s: string, a: int, r: string) {
    0 <= a <= |s| - |r| && r == s[a..a + |r|] && IsBlank(s[..a]) && IsBlank(s[a + |r|..])
  }

  /** Stripping the left end and then the right end leaves a window of `s` with blank
      text on both sides. */
  lemma StripWindow(s: string, l: string, r: string)
    requires LeftStripOf(s, l) && RightStripOf(l, r)
    ensures exists a :: BlankAround(s, a, r)
    ensures Stripped(r)
    ensures r == [] <==> IsBlank(s)
    ensures forall c :: c in r ==> c in s
  {
    var a := |s| - |l|;
    assert r != [] ==> r[0] == l[0];
    assert r == s[a..a + |r|];
    assert s[a + |r|..] == l[|r|..];
    assert BlankAround(s, a, r);
    StripFacts(s, a, r);
  }

  lemma StripFacts(s: string, a: nat, r: string)
    requires a + |r| <= |s| && r == s[a..a + |r|]
    requires IsBlank(s[..a]) && IsBlank(s[a + |r|..])
    requires r == [] || (!IsSpace(r[0]) && !IsSpace(r[|r| - 1]))
    ensures r == [] <==> IsBlank(s)
    ensures forall c :: c in r ==> c in s
  {
    if r != [] {
      assert s[a] == r[0];
    } else {
      assert s == s[..a] + s[a..];
    }
  }

  /** `s` has no whitespace to strip at either end. */
  predicate Stripped(s: string) {
    s == [] || (!IsSpace(s[0]) && !IsSpace(s[|s| - 1]))
  }

  lemma {:induction false} StripLeftBlank(pre: string, t: string)
    requires IsBlank(pre) && (t == [] || !IsSpace(t[0]))
    ensures StripLeft(pre + t) == t
    decreases |pre|
  {
    if |pre| > 0 {
      assert (pre + t)[1..] == pre[1..] + t;
      StripLeftBlank(pre[1..], t);
    }
  }

  lemma {:induction false} StripRightBlank(t: string, post: string)
    requires IsBlank(post) && (t == [] || !IsSpace(t[|t| - 1]))
    ensures StripRight(t + post) == t
    decreases |post|
  {
    if |post| > 0 {
      assert (t + post)[..|t + post| - 1] == t + post[..|post| - 1];
      StripRightBlank(t, post[..|post| - 1]);
    }
  }

  /** Stripping removes exactly the whitespace around a stripped core. */
  lemma StripAround(pre: string, r: string, post: string)
    requires IsBlank(pre) && IsBlank(post) && Stripped(r)
    ensures Strip(pre + r + post) == r
  {
    if r == [] {
      assert pre + r + post == pre + post;
      assert IsBlank(pre + post);
    } else {
      assert pre + r + post == pre + (r + post);
      StripLeftBlank(pre, r + post);
      StripRightBlank(r, post);
    }
  }

  /** Python's `s.split(sep)` for a one-character separator: the pieces between the
      occurrences of `sep`, in order, including empty ones. */
  function Split(s: string, sep: char): (parts: seq<string>)
    ensures |parts| >= 1
    ensures forall i :: 0 <= i < |parts| ==> sep !in parts[i]
    ensures forall i :: 0 <= i < |parts| ==> |parts[i]| <= |s|
    decreases |s|
  {
    match IndexOf(s, sep)
    case None => [s]
    case Some(k) => [s[..k]] + Split(s[k + 1..], sep)
  }

  /** Python's `sep.join(parts)`. */
  function Join(parts: seq<string>, sep: string): string {
    if |parts| == 0 then ""
    else if |parts| == 1 then parts[0]
    else parts[0] + sep + Join(parts[1..], sep)
  }

  /** Joining one more piece appends the separator and the piece. */
  lemma {:induction false} JoinSnoc(parts: seq<string>, p: string, sep: string)
    requires |parts| >= 1
    ensures Join(parts + [p], sep) == Join(parts, sep) + sep + p
    decreases |parts|
  {
    if |parts| > 1 {
      assert (parts + [p])[1..] == parts[1..] + [p];
      JoinSnoc(parts[1..], p, sep);
    }
  }

  /** Every character of a piece of `Split(s, sep)` is a character of `s`. */
  lemma {:induction false} SplitPiecesFromText(s: string, sep: char)
    ensures forall i, c :: 0 <= i < |Split(s, sep)| && c in Split(s, sep)[i] ==> c in s
    decreases |s|
  {
    match IndexOf(s, sep)
    case None =>
    case Some(k) =>
      SplitPiecesFromText(s[k + 1..], sep);
      assert Split(s, sep) == [s[..k]] + Split(s[k + 1..], sep);
      assert forall c :: c in s[..k] || c in s[k + 1..] ==> c in s;
  }

  /** Joining the pieces of a split with the same separator restores the string. */
  lemma {:induction false} JoinSplit(s: string, sep: char)
    ensures Join(Split(s, sep), [sep]) == s
    decreases |s|
  {
    match IndexOf(s, sep)
    case None =>
    case Some(k) =>
      var rest := Split(s[k + 1..], sep);
      JoinSplit(s[k + 1..], sep);
      assert Split(s, sep) == [s[..k]] + rest;
      assert s == s[..k] + [sep] + s[k + 1..];
  }

  /** Splitting a join of separator-free pieces gives the pieces back. */
  lemma {:induction false} SplitJoin(parts: seq<string>, sep: char)
    requires |parts| >= 1
    requires forall i :: 0 <= i < |parts| ==> sep !in parts[i]
    ensures Split(Join(parts, [sep]), sep) == parts
    decreases |parts|
  {
    if |parts| == 1 {
      assert IndexOf(parts[0], sep).None?;
    } else {
      var s := Join(parts, [sep]);
      var tail := Join(parts[1..], [sep]);
      assert s == parts[0] + [sep] + tail;
      assert IndexOf(s, sep) == Some(|parts[0]|) by {
        assert s[..|parts[0]|] == parts[0];
        assert s[|parts[0]|] == sep;
        assert sep !in parts[0];
      }
      assert s[|parts[0]| + 1..] == tail;
      assert s[..|parts[0]|] == parts[0];
      SplitJoin(parts[1..], sep);
    }
  }

  /** The pieces of `Split(s, sep)` are `1 +` the number of separators. */
  function Count(s: string, c: char): nat {
    if |s| == 0 then 0 else (if s[0] == c then 1 else 0) + Count(s[1..], c)
  }

  lemma {:induction false} CountAppend(a: string, b: string, c: char)
    ensures Count(a + b, c) == Count(a, c) + Count(b, c)
    decreases |a|
  {
    if |a| == 0 {
      assert a + b == b;
    } else {
      assert (a + b)[1..] == a[1..] + b;
      CountAppend(a[1..], b, c);
    }
  }

  lemma {:induction false} SplitLength(s: string, sep: char)
    ensures |Split(s, sep)| == Count(s, sep) + 1
    decreases |s|
  {
    match IndexOf(s, sep)
    case None =>
      CountAbsent(s, sep);
    case Some(k) =>
      SplitLength(s[k + 1..], sep);
      assert s == s[..k] + ([sep] + s[k + 1..]);
      CountAppend(s[..k], [sep] + s[k + 1..], sep);
      CountAbsent(s[..k], sep);
      assert ([sep] + s[k + 1..])[1..] == s[k + 1..];
  }

  lemma {:induction false} CountAbsent(s: string, c: char)
    requires c !in s
    ensures Count(s, c) == 0
    decreases |s|
  {
    if |s| > 0 {
      assert forall x :: x in s[1..] ==> x in s;
      CountAbsent(s[1..], c);
    }
  }

  /** The numeric value of an ASCII digit. */
  function DigitValue(c: char): (v: nat)
    requires IsDigit(c)
    ensures v <= 9
  {
    c as int - '0' as int
  }

  /** The ASCII digit for a value below ten. */
  function DigitChar(v: nat): (c: char)
    requires v <= 9
    ensures IsDigit(c) && DigitValue(c) == v
  {
    ('0' as int + v) as char
  }

  /** Python's `int(s)` on a string of ASCII digits. */
  function DecimalValue(s: string): nat
    requires forall k :: 0 <= k < |s| ==> IsDigit(s[k])
  {
    if |s| == 0 then 0 else DecimalValue(s[..|s| - 1]) * 10 + DigitValue(s[|s| - 1])
  }

  /** Python's `str(n)` for a natural number. */
  function NatToString(n: nat): (s: string)
    ensures IsNumeral(s)
  {
    if n < 10 then [DigitChar(n)] else NatToString(n / 10) + [DigitChar(n % 10)]
  }

  /** Reading back the numeral of `n` gives `n`. */
  lemma {:induction false} NatToStringRoundTrip(n: nat)
    ensures DecimalValue(NatToString(n)) == n
  {
    if n >= 10 {
      var s := NatToString(n);
      assert s[..|s| - 1] == NatToString(n / 10);
      NatToStringRoundTrip(n / 10);
    }
  }

  /** `n` written in decimal and left-padded with zeros to at least `width` digits,
      as Python's `"%0*d" % (width, n)` does. */
  function ZeroPad(n: nat, width: nat): (s: string)
    ensures IsNumeral(s)
    ensures |s| >= width
  {
    var digits := NatToString(n);
    if |digits| >= width then digits else seq(width - |digits|, _ => '0') + digits
  }

  /** Leading zeros do not change a decimal value. */
  lemma {:induction false} LeadingZeros(z: nat, s: string)
    requires forall k :: 0 <= k < |s| ==> IsDigit(s[k])
    ensures DecimalValue(seq(z, _ => '0') + s) == DecimalValue(s)
    decreases |s|
  {
    var t := seq(z, _ => '0') + s;
    if |s| == 0 {
      assert t == seq(z, _ => '0');
      AllZeros(z);
    } else {
      assert t[..|t| - 1] == seq(z, _ => '0') + s[..|s| - 1];
      LeadingZeros(z, s[..|s| - 1]);
    }
  }

  lemma {:induction false} AllZeros(z: nat)
    ensures DecimalValue(seq(z, _ => '0')) == 0
  {
    if z > 0 {
      assert seq(z, _ => '0')[..z - 1] == seq(z - 1, _ => '0');
      AllZeros(z - 1);
    }
  }

  /** Reading back a zero-padded numeral gives the number. */
  lemma ZeroPadRoundTrip(n: nat, width: nat)
    ensures DecimalValue(ZeroPad(n, width)) == n
  {
    NatToStringRoundTrip(n);
    var digits := NatToString(n);
    if |digits| < width {
      LeadingZeros(width - |digits|, digits);
    }
  }
}

=== FILE: wrappers.dfy ===
/** Failure-carrying datatypes shared by every module of the model. */
module Wrappers {

  /** A value that may be absent (Python's `None`). */
  datatype Option<+T> = None | Some(value: T) {

    /** The value, or `default` when absent. */
    function GetOr(default: T): T {
      match this
      case Some(v) => v
      case None => default
    }
  }

  /** The outcome of a step that may raise: a value, or the exception it raised. */
  datatype Result<+T, +E> = Ok(value: T) | Err(error: E)
}
